=== FILE: README.md ===
# bmx-windowslegacy core, modelled in Dafny

This project models the text-processing, encoding and small state-machine layer of the BuildMaster
Windows extension (bmx-windowslegacy). That layer sits beneath its adapters to SQL Server,
PowerShell and CMD.EXE. One Dafny module stands for each core source file:

| module | source file |
|---|---|
| `SqlSplitter` | SqlServer/SqlSplitter.cs: splitting a T-SQL script into batches at `GO` lines |
| `SqlProvider` | SqlServer/SqlServerDatabaseProvider.cs: schema-version dispatch, change-script execution, quoting, the shared connection |
| `ChangeScripts` | SqlServer/ExecuteSqlChangeScriptsAction.cs: path, release and batch-name derivation for versioned change scripts |
| `PowerShellJob` | PowerShell/ExecutePowerShellJob.cs: the binary request/response format of the remote PowerShell job, and its output and out-variable set-up |
| `PowerShellRunner` | PowerShell/PowerShellScriptRunner.cs: legal variable names, variable extraction from tokens, running a script in a session |
| `PowerShellScriptType` | Scripting/PowerShell/PowerShellScriptType.cs: parameter scraping and doc-comment metadata |
| `ScriptingScriptAction` | Scripting/PowerShell/ExecutePowerShellScriptAction.cs: the legacy dictionaries and default parameter values |
| `ScriptingRunner` | Scripting/PowerShell/PowerShellScriptRunner.cs: stream-to-log relaying and disposal |
| `ShellScriptAction` | Shell/ExecutePowerShellScriptAction.cs: `Name=Value` output parsing, the script description, error logging |
| `PSHost` | Shell/BuildMasterPSHost.cs and Shell/BuildMasterPSHostUserInterface.cs: the PowerShell host and its user interface |
| `PSCall` | Operations/PowerShell/PSCallOperation.cs: script-name resolution, argument routing, job set-up and write-back |
| `BatchScript` | Scripts/BatchScriptProvider.cs: the CMD.EXE command line |

Five shared modules support them:

- `Text`: characters, ASCII case folding and the string operations of .NET that the core uses.
- `Dictionary`: a .NET `Dictionary<string, T>`, as an insertion-ordered association list under an `Ordinal` or `OrdinalIgnoreCase` comparer.
- `Logging`: message levels and log events.
- `PSTokens`: the PowerShell tokens (kind and content) that the tokenizer hands to the core.
- `Wire`: the primitives of `BinaryWriter`/`BinaryReader`, namely 7-bit encoded lengths, UTF-8 (RFC 3629) and little-endian Int32.

Foreign code is not modelled. It enters the model as an input or as an oracle function parameter:

- the PowerShell tokenizer is an input sequence of tokens;
- SqlCommand is a per-batch outcome;
- the runspace is a sequence of session effects;
- the process exit code is a function of the command line;
- the file system, the database and the remote agent are lookups.

State that the source updates in place is modelled as classes with `modifies` clauses:

- the PowerShell job;
- the host;
- the shell and scripting actions;
- the runners;
- the PSCall operation;
- the database provider;
- the binary reader and writer.

Pure code is modelled as datatypes, functions and lemmas. Each loop in the source is a method that is proved against a specification function.

## Model

| member | source | states |
|---|---|---|
| SqlSplitter.SkipWhiteSpace | SqlServer/SqlSplitter.cs:11 | the greedy `\s*` of the GO expression stops at the first character that is not white space, and everything it passes is white space |
| SqlSplitter.LastLineEnd | SqlServer/SqlSplitter.cs:11 | backtracking of the trailing `\s*` finds the last position in the range where the multiline `$` holds, or reports that there is none |
| SqlSplitter.MatchAt | SqlServer/SqlSplitter.cs:11 | a match found at a position is a whole line: a line start, white space, `GO` in either case, white space, a line end |
| SqlSplitter.MatchesFrom | SqlServer/SqlSplitter.cs:23 | every match the expression finds is a GO line at or after the start position, and the matches do not overlap and come in input order |
| SqlSplitter.FindIgnoredRuns | SqlServer/SqlSplitter.cs:30-87 | the scanning loop records exactly the ranges of the three-mode lexer (string with `''` escape, block comment, line comment) |
| SqlSplitter.IsInAnyRun | SqlServer/SqlSplitter.cs:105-114 | true exactly when the index lies in some recorded range, half-open `[Index, Index+Length)` |
| SqlSplitter.QuotesDoubledExtend | SqlServer/SqlSplitter.cs:44-45 | a literal body whose quotes all come in doubled pairs stays so when a doubled quote or a non-quote is appended |
| SqlSplitter.ScanCodeClosed | SqlServer/SqlSplitter.cs:70-86 | every range recorded from ordinary code onward is a closed literal or comment at or after the position, in order |
| SqlSplitter.InStringClosed | SqlServer/SqlSplitter.cs:40-52 | inside a string, a doubled `''` does not end it: every range recorded from inside a literal is closed, from the opening quote to a quote that is not doubled, and in order |
| SqlSplitter.StringCloses | SqlServer/SqlSplitter.cs:42-50 | when a single quote ends a literal, its range is closed and every range recorded after it is closed and later |
| SqlSplitter.StringRunClosed | SqlServer/SqlSplitter.cs:49 | the range recorded when a string ends covers the opening quote through the closing one |
| SqlSplitter.InBlockCommentClosed | SqlServer/SqlSplitter.cs:53-61 | a block comment's range runs from `/*` to the first closer (a `*` before `/` or at the end of the script), one character past its `/` |
| SqlSplitter.InLineCommentClosed | SqlServer/SqlSplitter.cs:62-69 | a line comment's range runs from `--` to and including the newline |
| SqlSplitter.IgnoredRunsAreClosed | SqlServer/SqlSplitter.cs:49-67 | only literals and comments that close are recorded, each from its opener to its first closer, in input order; an unterminated one records nothing |
| SqlSplitter.BlockOvershootIsHarmless | SqlServer/SqlSplitter.cs:59 | the extra character a block comment's range covers is never a line start, so it cannot hide a GO line |
| SqlSplitter.Accept | SqlServer/SqlSplitter.cs:91-94 | the kept matches are some of the found ones, never more |
| SqlSplitter.AcceptIff | SqlServer/SqlSplitter.cs:91-94 | a match is a split point exactly when its index is not in any recorded range |
| SqlSplitter.AcceptChain | SqlServer/SqlSplitter.cs:91-94 | skipping matches keeps the rest ordered and in bounds |
| SqlSplitter.GoMatchesChain | SqlServer/SqlSplitter.cs:23 | the matches of the script are ordered and within it |
| SqlSplitter.Pieces | SqlServer/SqlSplitter.cs:96-102 | the cut at n accepted GO lines gives n or n + 1 pieces, one per GO and at most one tail |
| SqlSplitter.PiecesStep | SqlServer/SqlSplitter.cs:91-98 | one step of the cut loop: a match inside a range is passed over; any other yields the text from the start position to it and moves the start past it |
| SqlSplitter.SplitSqlScript | SqlServer/SqlSplitter.cs:18-103 | a null or empty script gives no batches; a script without GO lines gives itself once; otherwise the batches are those cut at the accepted GO lines |
| SqlSplitter.PiecesWeave | SqlServer/SqlSplitter.cs:89-102 | the batches interleaved with the texts of the accepted GO lines rebuild the script from the start position: nothing lost, nothing reordered |
| SqlSplitter.PiecesBetween | SqlServer/SqlSplitter.cs:96-102 | the first batch starts at the start position, each next one lies between consecutive GO lines, and the tail is yielded exactly when it is non-empty |
| SqlSplitter.PiecesHead | SqlServer/SqlSplitter.cs:96 | the first batch is the text before the first accepted GO line |
| SqlSplitter.PiecesInner | SqlServer/SqlSplitter.cs:96-98 | each middle batch is the text between the end of one accepted GO line and the start of the next |
| SqlSplitter.PiecesLast | SqlServer/SqlSplitter.cs:101-102 | the last batch is the rest of the script after the last GO line, and it is present exactly when that rest is non-empty |
| SqlSplitter.SplitProperties | SqlServer/SqlSplitter.cs:89-102 | for a non-empty script: as many batches as accepted GO lines or one more; the weave rebuilds the script; a trailing GO gives no empty last batch and a leading GO an empty first batch; each middle batch lies between consecutive GO lines; without accepted GO lines the script is one batch |
| SqlSplitter.AcceptedGosIff | SqlServer/SqlSplitter.cs:91-94 | a GO line is dropped only when it begins inside a closed literal or comment |
| PowerShellJob.OrEmptyAll | PowerShell/ExecutePowerShellJob.cs:131 | each string is written as itself, a null one as the empty string |
| PowerShellJob.Normalize | PowerShell/ExecutePowerShellJob.cs:34-35 | a dictionary as read back: same keys in the same order, each null value as the empty string |
| PowerShellJob.StringsBytesAppend | PowerShell/ExecutePowerShellJob.cs:39-40 | writing one more string appends its encoding to what was written |
| PowerShellJob.PairsBytesAppend | PowerShell/ExecutePowerShellJob.cs:32-36 | writing one more pair appends the key's and the value's encodings |
| PowerShellJob.StringsRoundTrip | PowerShell/ExecutePowerShellJob.cs:62-63 | the strings written are the strings read, in order, and the reader stops right after them |
| PowerShellJob.PairRoundTrip | PowerShell/ExecutePowerShellJob.cs:53-58 | one pair written is read back as its key and its value, a null value as the empty string, and the reader stops right after it |
| PowerShellJob.PairsRoundTrip | PowerShell/ExecutePowerShellJob.cs:53-58 | the pairs written are read back in order, each value present, a null one as the empty string |
| PowerShellJob.WriteStrings | PowerShell/ExecutePowerShellJob.cs:39-40 | the writer's stream grows by exactly the encoding of the strings |
| PowerShellJob.WritePairs | PowerShell/ExecutePowerShellJob.cs:32-36 | the writer's stream grows by exactly the encoding of the pairs, null values as empty strings |
| PowerShellJob.WritePair | PowerShell/ExecutePowerShellJob.cs:34-35 | the key, then the value or the empty string |
| PowerShellJob.ReadStrings | PowerShell/ExecutePowerShellJob.cs:62-63 | reads exactly the strings the decoder gives, and fails exactly when the decoder does |
| PowerShellJob.ReadPair | PowerShell/ExecutePowerShellJob.cs:55-56 | reading a key and then a value is one step of the pair decoder; a failed read means the whole decode fails |
| PowerShellJob.ReadPairList | PowerShell/ExecutePowerShellJob.cs:53-58 | reads exactly the pairs the decoder gives, in stream order, and fails exactly when the decoder does |
| PowerShellJob.ReadPairs | PowerShell/ExecutePowerShellJob.cs:52-58 | the dictionary is the pairs assigned in stream order through the indexer, and the reader stops after the last pair |
| PowerShellJob.LastSentValueWins | PowerShell/ExecutePowerShellJob.cs:57 | a dictionary built by assigning pairs has no two equal keys, and each key holds the last value sent for it |
| PowerShellJob.FlagsRoundTrip | PowerShell/ExecutePowerShellJob.cs:26-29 | the four flags are read back in the order they were written |
| PowerShellJob.DecVariablesAt | PowerShell/ExecutePowerShellJob.cs:51-58 | a negative count fails (the dictionary constructor throws); otherwise the pairs are read and assigned in turn |
| PowerShellJob.DecStringListAt | PowerShell/ExecutePowerShellJob.cs:60-63 | a negative count fails (the array allocation throws); otherwise that many strings are read |
| PowerShellJob.VariablesRoundTrip | PowerShell/ExecutePowerShellJob.cs:31-36 | a count and the pairs, read back, give the variables with null values as empty strings |
| PowerShellJob.NormalizeValid | PowerShell/ExecutePowerShellJob.cs:52 | replacing null values keeps the keys distinct |
| PowerShellJob.StringListRoundTrip | PowerShell/ExecutePowerShellJob.cs:38-40 | a count and the names, read back, give the names |
| PowerShellJob.RequestRoundTrip | PowerShell/ExecutePowerShellJob.cs:22-64 | Deserialize reads back what Serialize wrote, with a null script as empty, null lists as empty lists and null values as empty strings, and stops where the request ends |
| PowerShellJob.DecodeRequestSteps | PowerShell/ExecutePowerShellJob.cs:44-63 | the request is read as the script, then the flags, then the variables, then the names |
| PowerShellJob.DecodedVariablesLastWins | PowerShell/ExecutePowerShellJob.cs:51-58 | in a decoded request, every key holds the last value the stream sent for it |
| PowerShellJob.Somes | PowerShell/ExecutePowerShellJob.cs:151-153 | the output lines as read, each present |
| PowerShellJob.ResponseRoundTrip | PowerShell/ExecutePowerShellJob.cs:114-170 | DeserializeResponse reads back what SerializeResponse wrote, with null lines, keys and values as empty strings |
| PowerShellJob.ExitCodeRoundTrip | PowerShell/ExecutePowerShellJob.cs:119-127 | a null exit code is one 0 byte; a code is a 1 byte and the Int32; both read back as written |
| PowerShellJob.AnyNonzeroByteMeansExitCode | PowerShell/ExecutePowerShellJob.cs:145-148 | any nonzero first byte means an exit code follows |
| PowerShellJob.NullOutVariableArrivesEmpty | PowerShell/ExecutePowerShellJob.cs:133-138 | an out variable whose value is null arrives as the empty string, under its own name and position |
| PowerShellJob.SerializeResponse | PowerShell/ExecutePowerShellJob.cs:114-139 | the writer's stream grows by exactly the response's encoding |
| PowerShellJob.WriteStringsSection | PowerShell/ExecutePowerShellJob.cs:129-131 | a count, then the strings |
| PowerShellJob.WritePairsSection | PowerShell/ExecutePowerShellJob.cs:133-138 | a count, then the pairs |
| PowerShellJob.DeserializeResponse | PowerShell/ExecutePowerShellJob.cs:140-170 | reads exactly the response the decoder gives, with the out variables in an OrdinalIgnoreCase dictionary, and fails exactly when the decoder does |
| PowerShellJob.ReadStringList | PowerShell/ExecutePowerShellJob.cs:60-63 | reads a count and that many strings, as the decoder does |
| PowerShellJob.ReadVariables | PowerShell/ExecutePowerShellJob.cs:51-58 | reads a count and that many assignments, as the decoder does |
| PowerShellJob.ReadFlags | PowerShell/ExecutePowerShellJob.cs:46-49 | reads the four flags, as the decoder does |
| PowerShellJob.OutVariableTableSpec | PowerShell/ExecutePowerShellJob.cs:92 | the out-variable table exists exactly when the names are distinct ignoring case; it holds every name in order, each mapped to null |
| PowerShellJob.CollectedSpec | PowerShell/ExecutePowerShellJob.cs:76-90 | exactly the outputs that are not null or white space are collected |
| PowerShellJob.InfoLines | PowerShell/ExecutePowerShellJob.cs:73-74 | each output is logged once at Information, a null one as an empty message |
| PowerShellJob.JobLogAppend | PowerShell/ExecutePowerShellJob.cs:72-74 | the handlers log and collect the events of two runs of events one after the other |
| PowerShellJob.JobLogOfMessages | PowerShell/ExecutePowerShellJob.cs:72 | every runner message reaches the job log unchanged and in order, and none of them is an output |
| PowerShellJob.OutputValuesOfRun | PowerShell/ExecutePowerShellJob.cs:73-90 | the outputs the handlers see are exactly the objects the script emits, in order |
| PowerShellJob.InfoLinesCons | PowerShell/ExecutePowerShellJob.cs:73-74 | the Information lines of one output followed by more are that output's line followed by theirs |
| PowerShellJob.OutputOnlyJobLog | PowerShell/ExecutePowerShellJob.cs:72-74 | a script that relays no record logs exactly one Information line per output with LogOutput, and nothing without it |
| PowerShellJob.RecordsReachJobLog | PowerShell/ExecutePowerShellJob.cs:72 | every record the script relays (a warning, a host write) reaches the job log, whatever the output flags |
| PowerShellJob.RunnerEventsForJob | PowerShell/ExecutePowerShellJob.cs:68-90 | of a fresh runner's events the job logs the import messages followed by the run's own, and sees exactly the run's output |
| PowerShellJob.Job.constructor | PowerShell/ExecutePowerShellJob.cs:14-20 | a job with the given properties and an empty log |
| PowerShellJob.Job.Serialize | PowerShell/ExecutePowerShellJob.cs:22-41 | the writer's stream grows by exactly the encoding of the job's properties |
| PowerShellJob.Job.Deserialize | PowerShell/ExecutePowerShellJob.cs:42-64 | succeeds exactly when the stream holds a request; the job's properties are then that request and the reader stops after it |
| PowerShellJob.Job.ExecuteAsync | PowerShell/ExecutePowerShellJob.cs:66-112 | with null variables or names, or names equal ignoring case, nothing runs and nothing is logged; a null script text logs the import messages and throws; otherwise the log gets the import messages and then, in run order, every record the script relays and, if LogOutput is set, one Information line per output, up to a terminating error; a terminating error makes it throw; without one the result has the last exit code, the collected output if CollectOutput is set, and every requested name with its final session value |
| PowerShellJob.Job.RunAndForward | PowerShell/ExecutePowerShellJob.cs:68-101 | the job log gets the runner's messages and, with LogOutput, its output lines, in the order raised; the job throws exactly when the script hits a terminating error, and otherwise responds with the exit code, the collected output and the out variables read back |
| PowerShellJob.RunInFreshRunner | PowerShell/ExecutePowerShellJob.cs:68-101 | a runner set up with the job's flags and variables raises the import messages and then the run's records and outputs in order; it throws exactly at the first terminating error; otherwise it returns the last exit code and keeps the out-variable names with their final session values |
| PowerShellJob.ReadLists | PowerShell/ExecutePowerShellJob.cs:51-63 | reads the variables and then the names, as the decoder does |
| PowerShellJob.DecodeAfterFlagsLists | PowerShell/ExecutePowerShellJob.cs:51-63 | how the lists are read does not depend on the script text or the flags |
| PowerShellRunner.BasicIsExpanded | PowerShell/PowerShellScriptRunner.cs:206-218 | every legal basic character is a legal expanded character |
| PowerShellRunner.ExpandedWhiteSpaceIsSpace | PowerShell/PowerShellScriptRunner.cs:215-218 | the only white-space character a legal expanded character can be is the space |
| PowerShellRunner.LegalVariableNameIff | PowerShell/PowerShellScriptRunner.cs:182-200 | a name is legal exactly when it is 1 to 50 legal expanded characters (letter, digit, `_`, `-`, `.`, space) that neither begin nor end with a space |
| PowerShellRunner.LegalNameHasNoDelimiters | PowerShell/PowerShellScriptRunner.cs:193-199 | a legal name holds no `$`, `{` or `}` |
| PowerShellRunner.WordRunEnd | PowerShell/PowerShellScriptRunner.cs:129 | the `[a-zA-Z0-9_]+` group takes the longest run of word characters |
| PowerShellRunner.CloseBrace | PowerShell/PowerShellScriptRunner.cs:129 | the `[^}]+}` group ends at the first `}` |
| PowerShellRunner.CloseBraceFirst | PowerShell/PowerShellScriptRunner.cs:129 | the first `}` after the brace is the one found |
| PowerShellRunner.VariableAt | PowerShell/PowerShellScriptRunner.cs:129 | a match at a position captures a non-empty name and ends after the position |
| PowerShellRunner.BracedNameMatches | PowerShell/PowerShellScriptRunner.cs:49 | the lookup text `${name}` of a legal name is matched as exactly that name |
| PowerShellRunner.AddAllAppend | PowerShell/PowerShellScriptRunner.cs:145-158 | adding one more element is one more HashSet.Add |
| PowerShellRunner.HashSetAddSpec | PowerShell/PowerShellScriptRunner.cs:153-155 | HashSet.Add keeps the elements distinct ignoring case and adds the element unless an equal one is present |
| PowerShellRunner.AddAllSpec | PowerShell/PowerShellScriptRunner.cs:136-158 | adding in turn keeps the set distinct ignoring case; it holds exactly what was there and what was added, each in the spelling first added |
| PowerShellRunner.ExtractVariablesInternal | PowerShell/PowerShellScriptRunner.cs:127-161 | no tokens gives no names; otherwise the Variable tokens' contents and then the names matched in String tokens, added in turn to a case-insensitive set |
| PowerShellRunner.VariableTokenNamesStep | PowerShell/PowerShellScriptRunner.cs:136-139 | one token more adds its content exactly when it is a Variable token |
| PowerShellRunner.StringTokenNamesStep | PowerShell/PowerShellScriptRunner.cs:145-158 | one token more adds its matches exactly when it is a String token |
| PowerShellRunner.AddEach | PowerShell/PowerShellScriptRunner.cs:150-156 | the foreach over the matches adds them in turn |
| PowerShellRunner.AddAllConcat | PowerShell/PowerShellScriptRunner.cs:136-158 | adding two lists in turn is adding their concatenation |
| PowerShellRunner.ExtractedNamesSpec | PowerShell/PowerShellScriptRunner.cs:127-161 | the extracted names are distinct ignoring case, and a name is among them exactly when a Variable token or a string's variable expression mentions it |
| PowerShellRunner.Lookups | PowerShell/PowerShellScriptRunner.cs:45-53 | every key of the result is one of the extracted names |
| PowerShellRunner.ExtractVariables | PowerShell/PowerShellScriptRunner.cs:41-56 | no tokens gives an empty dictionary; otherwise the legal extracted names whose lookup gives a value, with that value |
| PowerShellRunner.DistinctFront | PowerShell/PowerShellScriptRunner.cs:45 | the names before the last one are distinct, and the last is not among them |
| PowerShellRunner.LookupsValid | PowerShell/PowerShellScriptRunner.cs:44-51 | the result has no repeated key |
| PowerShellRunner.LookupsKeys | PowerShell/PowerShellScriptRunner.cs:47-51 | a name is a key exactly when it was extracted, is legal and its `${name}` lookup gives a value |
| PowerShellRunner.LookupsValues | PowerShell/PowerShellScriptRunner.cs:49-51 | each key maps to the value of its `${name}` lookup |
| PowerShellRunner.LookupsSpec | PowerShell/PowerShellScriptRunner.cs:41-56 | the result has no repeated key, holds exactly the legal extracted names that have a value, and maps each to that value |
| PowerShellRunner.ImportMessages | PowerShell/PowerShellScriptRunner.cs:71 | one `Importing key=value` debug message per supplied variable, in order |
| PowerShellRunner.ImportVariables | PowerShell/PowerShellScriptRunner.cs:69-73 | each supplied variable is logged and then set in the session, in order |
| PowerShellRunner.Executed | PowerShell/PowerShellScriptRunner.cs:97-99 | the effects that happen are a prefix of the script's, with no terminating error among them |
| PowerShellRunner.CompleteRun | PowerShell/PowerShellScriptRunner.cs:97-99 | a script without a terminating error runs in full |
| PowerShellRunner.ExecutedStopsAtTerminate | PowerShell/PowerShellScriptRunner.cs:97-99 | a script has no terminating error exactly when none of its effects is one; with one, execution stops exactly at the first |
| PowerShellRunner.AsMessages | PowerShell/PowerShellScriptRunner.cs:163-168 | each log message is raised as a message event, in order |
| PowerShellRunner.Runner.constructor | PowerShell/PowerShellScriptRunner.cs:21-32 | a runner with the given logging flags, no runspace yet, nothing logged |
| PowerShellRunner.Runner.RunAsync | PowerShell/PowerShellScriptRunner.cs:62-115 | the session gets the variables, the preference variables, then the script's effects up to its first terminating error; the runner raises the import messages, then the relayed records and the outputs in order; the ShouldExit handler is gone afterwards; a terminating error is rethrown and no out variable is read; otherwise the result is the last exit code and the out variables keep their keys and take the session's values |
| PowerShellRunner.Runner.Invoke | PowerShell/PowerShellScriptRunner.cs:89-109 | the script's effects are applied up to its first terminating error, its records relayed and its output raised in order; the ShouldExit handler count is restored even when it throws; it throws exactly at a terminating error, and otherwise the exit code is the last one requested |
| PowerShellRunner.Runner.Prepare | PowerShell/PowerShellScriptRunner.cs:69-79 | each variable is logged (raised as a message) and set in order, then DebugPreference and VerbosePreference are set to Continue when their flags are on |
| PowerShellRunner.Runner.Dispose | PowerShell/PowerShellScriptRunner.cs:117-125 | the runspace is closed once, and only if it was created; otherwise nothing changes |
| PowerShellRunner.ReadOutVariables | PowerShell/PowerShellScriptRunner.cs:103-104 | every out variable takes the session's value as a string or null; no key is added or removed |
| PowerShellRunner.PerformValid | PowerShell/PowerShellScriptRunner.cs:99 | the script's effects keep the session's names distinct ignoring case |
| PowerShellRunner.ExitCodeIsPerRun | PowerShell/PowerShellScriptRunner.cs:92-93 | a run without an exit request returns null, whatever earlier runs requested |
| PowerShellRunner.LastExitIsLast | PowerShell/PowerShellScriptRunner.cs:93 | the exit code is the one of the last exit request |
| PowerShellScriptType.ParamIndex | Scripting/PowerShell/PowerShellScriptType.cs:41-43 | the number of tokens before the first Keyword token equal to `param` ignoring case, or all of them when there is none |
| PowerShellScriptType.AfterParam | Scripting/PowerShell/PowerShellScriptType.cs:45 | the tokens after the `param` keyword, none without it |
| PowerShellScriptType.SpanEnd | Scripting/PowerShell/PowerShellScriptType.cs:114-127 | the scan takes tokens up to and including the first `)` that brings the `(` depth to zero or below, or all of them |
| PowerShellScriptType.ScrapeParameters | Scripting/PowerShell/PowerShellScriptType.cs:109-147 | the parameters are those the Variable tokens of the scanned span yield, each with its pending type |
| PowerShellScriptType.CollectParamTokens | Scripting/PowerShell/PowerShellScriptType.cs:111-127 | the first loop collects exactly the span up to the closing `)` |
| PowerShellScriptType.ParamNamesAreVariables | Scripting/PowerShell/PowerShellScriptType.cs:131-146 | each Variable token yields one parameter with its content as name, in order, and nothing else yields one |
| PowerShellScriptType.ParamOfVariable | Scripting/PowerShell/PowerShellScriptType.cs:133-144 | the parameter of a Variable token takes the type pending just before it |
| PowerShellScriptType.PendingTypeIsLatest | Scripting/PowerShell/PowerShellScriptType.cs:133-134 | the pending type is the latest Type token's when no Variable or Type token follows it |
| PowerShellScriptType.NoPendingType | Scripting/PowerShell/PowerShellScriptType.cs:129-144 | no type is pending when no Type token came since the start or since the last variable |
| PowerShellScriptType.NoParamKeywordNoParameters | Scripting/PowerShell/PowerShellScriptType.cs:41-45 | without a `param` keyword no parameters are scraped |
| PowerShellScriptType.ParamInfoToString | Scripting/PowerShell/PowerShellScriptType.cs:154-160 | "Type Name" when typed, else "Name" |
| PowerShellScriptType.LastComment | Scripting/PowerShell/PowerShellScriptType.cs:47-49 | the position of the last Comment token, or none when there is no comment |
| PowerShellScriptType.StripDelimitersAsWritten | Scripting/PowerShell/PowerShellScriptType.cs:54-55 | the stripping as written throws exactly for a comment that starts with `<#` and ends with `#>` but is shorter than 4 characters |
| PowerShellScriptType.ShortCommentThrows | Scripting/PowerShell/PowerShellScriptType.cs:54-55 | the comment `<#>` makes the stripping as written throw |
| PowerShellScriptType.StripDelimiters | Scripting/PowerShell/PowerShellScriptType.cs:54-55 | a complete `<#`…`#>` block loses exactly its delimiters; any other comment is kept whole |
| PowerShellScriptType.StripDelimitersAgree | Scripting/PowerShell/PowerShellScriptType.cs:54-55 | the corrected stripping agrees with the written one wherever that does not throw |
| PowerShellScriptType.DocBlocksSpec | Scripting/PowerShell/PowerShellScriptType.cs:57-66 | the blocks kept are exactly those of the matches whose text is not blank |
| PowerShellScriptType.FirstSelected | Scripting/PowerShell/PowerShellScriptType.cs:67-70 | the first block of the section (ignoring case), with the argument when one is asked for, or none |
| PowerShellScriptType.SelectedHead | Scripting/PowerShell/PowerShellScriptType.cs:67-79 | the lookup of a section is empty exactly when no block is selected, and otherwise starts with the first one |
| PowerShellScriptType.DescriptionSpec | Scripting/PowerShell/PowerShellScriptType.cs:73 | the description is the first SYNOPSIS value, failing that the first DESCRIPTION value, failing both none |
| PowerShellScriptType.ParameterDescriptionSpec | Scripting/PowerShell/PowerShellScriptType.cs:74-79 | a parameter's description is the first PARAMETER block naming it, ignoring case, or none |
| PowerShellScriptType.Describe | Scripting/PowerShell/PowerShellScriptType.cs:74-85 | one entry per parameter, in order, with its name and, when there is a doc comment, its PARAMETER description |
| PowerShellScriptType.ScriptDocBlocks | Scripting/PowerShell/PowerShellScriptType.cs:47-58 | there is no documentation exactly when no Comment token comes before the param keyword |
| PowerShellScriptType.GetScriptMetadata | Scripting/PowerShell/PowerShellScriptType.cs:32-86 | the metadata is the description and the parameter descriptions read from the last comment before `param`, and the scraped parameters; it throws exactly when that comment is one the stripping as written throws on |
| PowerShellScriptType.NoCommentNoDescriptions | Scripting/PowerShell/PowerShellScriptType.cs:83-85 | without a comment before the param keyword the call succeeds, neither the script nor any parameter has a description, and the parameters are still those scraped |
| PowerShellScriptType.DocumentationIsLastComment | Scripting/PowerShell/PowerShellScriptType.cs:47-58 | the documentation read is the last Comment token before the param keyword, with its delimiters stripped as written, or the exception that stripping throws |
| PowerShellScriptType.CompleteBlockIsDocumented | Scripting/PowerShell/PowerShellScriptType.cs:51-58 | a last comment that is a complete `<#`…`#>` block is read without its delimiters, and the call succeeds |
| ScriptingScriptAction.SplitEntry | Scripting/PowerShell/ExecutePowerShellScriptAction.cs:87-88 | an entry without `=` is dropped; otherwise it is split at its first `=`, the key holding no `=` |
| ScriptingScriptAction.EntrySplitsAtFirstEquals | Scripting/PowerShell/ExecutePowerShellScriptAction.cs:87-88 | a value may itself hold `=`; an entry without `=` contributes nothing |
| ScriptingScriptAction.DistinctFirstSpec | Scripting/PowerShell/ExecutePowerShellScriptAction.cs:89-90 | the rebuilt dictionary has distinct keys ignoring case, and each key looks up the value of the first entry with that key |
| ScriptingScriptAction.DistinctFirstStep | Scripting/PowerShell/ExecutePowerShellScriptAction.cs:89 | a key already kept, ignoring case, was among the entries |
| ScriptingScriptAction.DistinctFirstKeys | Scripting/PowerShell/ExecutePowerShellScriptAction.cs:89-90 | the keys keep the spelling of their first entry, in order |
| ScriptingScriptAction.ParseBool | Scripting/PowerShell/ExecutePowerShellScriptAction.cs:29 | true exactly for "True" and false exactly for "False", ignoring case and the white space and null characters around it; anything else throws |
| ScriptingScriptAction.ParseBoolPadded | Scripting/PowerShell/ExecutePowerShellScriptAction.cs:29 | "True" or "False" in any case, surrounded by any white space and null characters, parses as that value, so `"True\0"` is true |
| ScriptingScriptAction.MissingIsScriptFileIsFalse | Scripting/PowerShell/ExecutePowerShellScriptAction.cs:29 | a missing IsScriptFile reads as False |
| ScriptingScriptAction.ScriptingAction.SetScript | Scripting/PowerShell/ExecutePowerShellScriptAction.cs:31-40 | a script file sets FileName mode and the file name; otherwise Direct mode and the inline text; the other property is untouched |
| ScriptingScriptAction.ScriptingAction.OnDeserializedMissingProperties | Scripting/PowerShell/ExecutePowerShellScriptAction.cs:22-44 | an unparsable IsScriptFile throws before anything changes; otherwise the script is set by mode, and the variables and parameters are rebuilt from the saved text, a missing one as empty |
| ScriptingScriptAction.WithDefaults | Scripting/PowerShell/ExecutePowerShellScriptAction.cs:52-55 | exactly the stored parameters whose default text is not empty |
| ScriptingScriptAction.GetSameKey | Scripting/PowerShell/ExecutePowerShellScriptAction.cs:66 | lookups with keys equal ignoring case agree |
| ScriptingScriptAction.FillKeepsValues | Scripting/PowerShell/ExecutePowerShellScriptAction.cs:64-78 | a parameter that already has a non-empty value keeps it, and the keys stay distinct |
| ScriptingScriptAction.FillGivesValues | Scripting/PowerShell/ExecutePowerShellScriptAction.cs:64-78 | when no evaluation yields an empty string, every parameter with a default has a value afterwards |
| ScriptingScriptAction.ScriptingAction.FillParameterDefaults | Scripting/PowerShell/ExecutePowerShellScriptAction.cs:48-79 | nothing changes unless the configurer flag is set; then each parameter with a default and no value gets the evaluated default, or the raw text when evaluation throws |
| ShellScriptAction.DefinitionTakesRestOfLine | Shell/ExecutePowerShellScriptAction.cs:176-186 | a line `name=value` defines the name without its leading `$`s as everything after the first `=`, which may itself hold `=` |
| ShellScriptAction.EmptyValueIsSkipped | Shell/ExecutePowerShellScriptAction.cs:186-192 | a line `name=` defines nothing |
| ShellScriptAction.BareNameIsTrue | Shell/ExecutePowerShellScriptAction.cs:185-186 | a line without `=` sets the name to boolean true |
| ShellScriptAction.EmptyNameIsMalformed | Shell/ExecutePowerShellScriptAction.cs:180-183 | a line whose name is only `$`s or nothing throws InvalidDataException |
| ShellScriptAction.SkipMessageAsWritten | Shell/ExecutePowerShellScriptAction.cs:190 | the skip message the parse logs is a Debug event |
| ShellScriptAction.SkipMessageAsWrittenOmitsName | Shell/ExecutePowerShellScriptAction.cs:190 | as written, the skip message is the same whatever name is skipped |
| ShellScriptAction.SkipMessage | Shell/ExecutePowerShellScriptAction.cs:190 | the corrected skip message, not used by the parse, is a Debug event |
| ShellScriptAction.SkipMessageNamesVariable | Shell/ExecutePowerShellScriptAction.cs:190 | the corrected skip message names the variable: different names give different messages |
| ShellScriptAction.OverwriteMessage | Shell/ExecutePowerShellScriptAction.cs:200 | a redefinition is logged at Debug, with the variable's name right after the opening quote |
| ShellScriptAction.OverwriteMessageNamesVariable | Shell/ExecutePowerShellScriptAction.cs:200 | different names give different overwrite messages |
| ShellScriptAction.RowsOf | Shell/ExecutePowerShellScriptAction.cs:170-171 | each line is read on its own, in order |
| ShellScriptAction.ParseRowsFails | Shell/ExecutePowerShellScriptAction.cs:177-183 | the parse throws exactly when some line is malformed |
| ShellScriptAction.ParseRowsResult | Shell/ExecutePowerShellScriptAction.cs:166-206 | without a malformed line, the dictionary is the definitions assigned in order |
| ShellScriptAction.ParseLastWins | Shell/ExecutePowerShellScriptAction.cs:168-202 | names compare ignoring case, no key is repeated, and each name holds its last definition |
| ShellScriptAction.ParseKeepsFirstSpelling | Shell/ExecutePowerShellScriptAction.cs:194-202 | a key keeps the spelling of its first definition |
| ShellScriptAction.KeysPut | Shell/ExecutePowerShellScriptAction.cs:194-202 | assigning a key ignoring case adds it to the keys unless an equal one is present |
| ShellScriptAction.PutAllKeys | Shell/ExecutePowerShellScriptAction.cs:194-202 | the keys after a run of assignments are the names added in turn to a case-insensitive set |
| ShellScriptAction.FailureStays | Shell/ExecutePowerShellScriptAction.cs:178-183 | once the parse has thrown, later lines change nothing |
| ShellScriptAction.ApplyRow | Shell/ExecutePowerShellScriptAction.cs:173-202 | one well-formed line changes the dictionary and logs as the parse step says; an empty value logs the skip message as written |
| ShellScriptAction.ParseLines | Shell/ExecutePowerShellScriptAction.cs:170-205 | the loop stops at the first malformed line and otherwise gives the parse of the lines |
| ShellScriptAction.ShellAction.ParseKeyValuePairsFromLines | Shell/ExecutePowerShellScriptAction.cs:166-206 | null lines give an empty dictionary; a malformed line throws; otherwise the parse of the lines; the debug messages before a failure are logged either way |
| ShellScriptAction.GetScriptText | Shell/ExecutePowerShellScriptAction.cs:208-220 | the text is quoted: it is at least two characters and ends with a quote |
| ShellScriptAction.InlineScriptText | Shell/ExecutePowerShellScriptAction.cs:213-218 | inline text shown never holds a line break and is at most 105 characters with its quotes; a short script without a carriage return is shown whole, a null one as empty |
| ShellScriptAction.FileScriptText | Shell/ExecutePowerShellScriptAction.cs:210-211 | a file is shown as `file '<name>'` |
| ShellScriptAction.NewLineAt | Shell/ExecutePowerShellScriptAction.cs:218 | Environment.NewLine occurs exactly where `\r\n` does |
| ShellScriptAction.ReplaceNewLineSpec | Shell/ExecutePowerShellScriptAction.cs:218 | replacing line breaks never lengthens the text and leaves no line break |
| ShellScriptAction.ReplaceWithoutReturn | Shell/ExecutePowerShellScriptAction.cs:218 | text without a carriage return is unchanged |
| ShellScriptAction.ErrorEvent | Shell/ExecutePowerShellScriptAction.cs:153-159 | the write-host error id logs the fixed explanation; any other error logs its exception message; both at Error |
| ShellScriptAction.ErrorEvents | Shell/ExecutePowerShellScriptAction.cs:147-150 | one event per record, in order |
| ShellScriptAction.ShellAction.constructor | Shell/ExecutePowerShellScriptAction.cs:25-28 | a new action logs its results |
| ShellScriptAction.ShellAction.LogPowerShellError | Shell/ExecutePowerShellScriptAction.cs:153-159 | the log grows by exactly the record's error event |
| ShellScriptAction.ShellAction.ErrorDataAdded | Shell/ExecutePowerShellScriptAction.cs:141-151 | every record the error stream holds is logged, in order |
| PSCall.SplitQualified | Operations/PowerShell/PSCallOperation.cs:114-130 | the name is split at its first `::` into the text before and after; without `::` it is kept whole |
| PSCall.SplitQualifiedJoin | Operations/PowerShell/PSCallOperation.cs:114-125 | an application name without `:` joined to a script name by `::` splits back into the two |
| PSCall.FirstApplication | Operations/PowerShell/PSCallOperation.cs:117 | the first application whose name equals the given one ignoring case, or none |
| PSCall.WithScriptExtension | Operations/PowerShell/PSCallOperation.cs:134-135 | ".ps1" is appended exactly when the name does not already end with it ignoring case |
| PSCall.WithScriptExtensionIdempotent | Operations/PowerShell/PSCallOperation.cs:134-135 | appending the extension twice is appending it once |
| PSCall.Resolve | Operations/PowerShell/PSCallOperation.cs:112-148 | a resolved script name ends with ".ps1" and its text is the one stored under that name and application |
| PSCall.ResolveUnqualified | Operations/PowerShell/PSCallOperation.cs:126-142 | a name without `::` is looked up in the context's application; a missing script logs "Script … not found." |
| PSCall.ResolveQualified | Operations/PowerShell/PSCallOperation.cs:115-142 | `App::Name` is looked up in the first application named App ignoring case; an unknown application is refused before any script is looked up |
| PSCall.FirstDeclared | Operations/PowerShell/PSCallOperation.cs:159 | the first declared parameter equal to the argument's name ignoring case, or none |
| PSCall.RouteArguments | Operations/PowerShell/PSCallOperation.cs:150-169 | the argument loop builds exactly the routed parameters and variables, both empty when the script cannot be parsed |
| PSCall.ParameterPairsKeys | Operations/PowerShell/PSCallOperation.cs:159-161 | every parameter is assigned under a declared name |
| PSCall.VariablePairsKeys | Operations/PowerShell/PSCallOperation.cs:162-163 | every variable is an argument that matches no declared parameter |
| PSCall.ParameterPairsCover | Operations/PowerShell/PSCallOperation.cs:159-161 | every argument that matches a declared parameter is assigned under the declared spelling |
| PSCall.VariablePairsValue | Operations/PowerShell/PSCallOperation.cs:158-163 | an argument that matches no parameter ends with its own value, null as the empty string, under its own key |
| PSCall.ArgumentRouting | Operations/PowerShell/PSCallOperation.cs:156-164 | an argument matching a declared parameter goes into the parameters under the declared name and not into the variables; any other goes into the variables with its value and not into the parameters |
| PSCall.UnparsableScriptDropsArguments | Operations/PowerShell/PSCallOperation.cs:166-169 | as written, when the script cannot be parsed no argument reaches the job, neither as a parameter nor as a variable |
| PSCall.UnparsableScriptKeepsArguments | Operations/PowerShell/PSCallOperation.cs:166-169 | with the intended routing, an unparsable script gets no parameters and every argument as a variable under its own key with its value |
| PSCall.JobVariables | Operations/PowerShell/PSCallOperation.cs:180 | the job carries the same variables, each value present |
| PSCall.JobAccepted | Operations/PowerShell/PSCallOperation.cs:173-183 | the job refuses to run exactly when two out-argument names are equal ignoring case |
| PSCall.ExitCodeMessages | Operations/PowerShell/PSCallOperation.cs:188-189 | a debug message with the exit code exactly when there is one |
| PSCall.WriteBack | Operations/PowerShell/PSCallOperation.cs:191-192 | each returned out variable is assigned into the out arguments, in order |
| PSCall.WriteBackSpec | Operations/PowerShell/PSCallOperation.cs:191-192 | after the write-back each returned out variable holds its returned value, and every other out argument keeps its old value |
| PSCall.PSCallOperation.constructor | Operations/PowerShell/PSCallOperation.cs:37-39 | an operation with the given default, named and out arguments, and an empty log |
| PSCall.PSCallOperation.ExecuteAsync | Operations/PowerShell/PSCallOperation.cs:41-63 | a simulation only logs that it would run; a missing script name logs an error; neither runs a job or changes the out arguments; otherwise the script runs with its output logged, not collected, with the outcome ExecuteScriptAsync states, including a job that throws |
| PSCall.PSCallOperation.ExecuteScriptAsync | Operations/PowerShell/PSCallOperation.cs:110-195 | an unresolved name logs its error and changes nothing else; a resolved one sends the job with debug and verbose logging on, LogOutput the opposite of CollectOutput, the routed variables and parameters and the out-argument names, and forwards the job's messages; when the awaited job throws nothing is returned, no exit code is logged and nothing is written back; otherwise a non-null exit code is logged and the out variables are written back |
| PSCall.PSCallOperation.OutNameClashThrows | Operations/PowerShell/PSCallOperation.cs:182-187 | out-argument names equal ignoring case make the awaited job throw: nothing is returned, the log and the out arguments are unchanged |
| PSHost.EventOf | Shell/BuildMasterPSHostUserInterface.cs:67-104 | every write raises one event except WriteProgress, which raises none |
| PSHost.Respond | Shell/BuildMasterPSHostUserInterface.cs:26-104 | exactly the prompts and reads are refused; a write raises at most one event, and none without a subscriber or for WriteProgress |
| PSHost.WritesKeepText | Shell/BuildMasterPSHostUserInterface.cs:67-99 | both Write overloads and WriteLine log the text unchanged at Information, debug and verbose lines at Debug, error lines at Error |
| PSHost.WarningIsInformation | Shell/BuildMasterPSHostUserInterface.cs:101-104 | a warning line is logged as "WARNING: " and the message, at Information |
| PSHost.NoWarningLevel | Shell/BuildMasterPSHostUserInterface.cs:67-104 | no call on the user interface raises a Warning-level event |
| PSHost.PromptRefusalQuotesMessage | Shell/BuildMasterPSHostUserInterface.cs:32-50 | every prompt is refused with a message that ends with the prompt's own message |
| PSHost.Host.constructor | Shell/BuildMasterPSHost.cs:22-33 | ExitCode starts at 0, the instance id is fixed, no handler, nothing forwarded |
| PSHost.Host.Subscribe | Shell/BuildMasterPSHost.cs:17 | LogReceived has a handler afterwards |
| PSHost.Host.SetShouldExit | Shell/BuildMasterPSHost.cs:77-80 | ExitCode becomes the requested code, so the last call wins |
| PSHost.Host.CallUI | Shell/BuildMasterPSHost.cs:32-39 | the user interface's events are forwarded unchanged when the host has a handler and dropped otherwise; refusals are passed through |
| ScriptingRunner.LevelOf | Scripting/PowerShell/PowerShellScriptRunner.cs:62-81 | debug and verbose records log at Debug, errors at Error, warnings at Warning, output at Information, and no two other streams share a level |
| ScriptingRunner.Message | Scripting/PowerShell/PowerShellScriptRunner.cs:83-96 | one event, with the item's text at the given level, exactly when the collection, the item and its text are all present and the text is not empty |
| ScriptingRunner.ScriptRunner.constructor | Scripting/PowerShell/PowerShellScriptRunner.cs:16-24 | all five handlers are attached, nothing is disposed, nothing logged |
| ScriptingRunner.ScriptRunner.DataAdded | Scripting/PowerShell/PowerShellScriptRunner.cs:62-81 | before disposal a record is relayed at its stream's level; after it nothing is logged |
| ScriptingRunner.ScriptRunner.HandleScriptCompleted | Scripting/PowerShell/PowerShellScriptRunner.cs:50-61 | without an exception the script completes successfully and nothing is logged; with one, the inner exception is logged at Error and the script completes unsuccessfully |
| ScriptingRunner.ScriptRunner.Dispose | Scripting/PowerShell/PowerShellScriptRunner.cs:34-48 | the first disposing call detaches all five handlers and disposes the pipeline exactly once; a later call does neither |
| BatchScript.ValidateConnection | Scripts/BatchScriptProvider.cs:94-98 | refuses exactly the platforms other than Win32NT |
| BatchScript.Values | Scripts/BatchScriptProvider.cs:57-59 | each argument's value as appended, a null one as nothing |
| BatchScript.BuildArgumentsAsWritten | Scripts/BatchScriptProvider.cs:53-68 | the loop as written: one opening quote, then each value followed by `" `, minus the last character; empty for null or no arguments |
| BatchScript.TwoArgumentsAsWritten | Scripts/BatchScriptProvider.cs:56-63 | as written, the arguments `a` and `b` give `"a" b"`, which does not read back as two quoted values |
| BatchScript.SingleArgumentAgrees | Scripts/BatchScriptProvider.cs:56-63 | for a single argument the written and the corrected strings agree |
| BatchScript.BuildArguments | Scripts/BatchScriptProvider.cs:53-68 | the corrected loop: every value in its own quotes, separated by single spaces; empty for null or no arguments |
| BatchScript.BufferIsJoined | Scripts/BatchScriptProvider.cs:57-63 | the corrected buffer is the joined string followed by the space the last step trims |
| BatchScript.JoinedCons | Scripts/BatchScriptProvider.cs:57-61 | the joined string of a first value and the rest is the first quoted, a space, and the rest joined |
| BatchScript.ParseOne | Scripts/BatchScriptProvider.cs:57-61 | a quoted value without quotes reads back as itself |
| BatchScript.ParseCons | Scripts/BatchScriptProvider.cs:57-61 | a quoted value and a space in front of a string read back as the value followed by whatever the string reads as |
| BatchScript.ParseJoined | Scripts/BatchScriptProvider.cs:56-63 | the corrected string reads back as exactly the values, when none holds a quote |
| BatchScript.TwoArguments | Scripts/BatchScriptProvider.cs:56-63 | two arguments without quotes give `"a" "b"`, which reads back as both |
| BatchScript.CommandLineQuotesAll | Scripts/BatchScriptProvider.cs:74 | with the corrected arguments, after "/C " the command line holds the quoted file name and every quoted value, separated by spaces; without arguments, the quoted file name and a space |
| BatchScript.CommandLineAsWrittenAgrees | Scripts/BatchScriptProvider.cs:53-74 | with at most one argument, the command line the code builds is the corrected one |
| BatchScript.ExecuteScript | Scripts/BatchScriptProvider.cs:51-80 | the exit code is the process's for the command line `/C "<file>" <arguments>`, the arguments built as written |
| ChangeScripts.Insert | SqlServer/ExecuteSqlChangeScriptsAction.cs:92 | inserting a path adds exactly that path to the multiset of paths |
| ChangeScripts.InsertFrom | SqlServer/ExecuteSqlChangeScriptsAction.cs:92 | an insertion holds only the inserted path and the old ones |
| ChangeScripts.ConsSorted | SqlServer/ExecuteSqlChangeScriptsAction.cs:92 | a path no greater than every path of a sorted list keeps it sorted in front |
| ChangeScripts.InsertSorted | SqlServer/ExecuteSqlChangeScriptsAction.cs:92 | inserting into a sorted list keeps it sorted under a total order |
| ChangeScripts.SortPathsSorts | SqlServer/ExecuteSqlChangeScriptsAction.cs:92 | the found paths are processed sorted, and none is lost or added |
| ChangeScripts.SortedPermutationUnique | SqlServer/ExecuteSqlChangeScriptsAction.cs:92 | when the comparer ties no two different paths, two sorted permutations of the same paths are equal |
| ChangeScripts.SortedOrderWithoutTies | SqlServer/ExecuteSqlChangeScriptsAction.cs:92 | when the comparer ties no two different paths, the sorted array is exactly the insertion sort's result |
| ChangeScripts.RelativePath | SqlServer/ExecuteSqlChangeScriptsAction.cs:96-100 | the relative path is a suffix of the file path that does not start with a separator |
| ChangeScripts.ReleaseNumber | SqlServer/ExecuteSqlChangeScriptsAction.cs:102-105 | the text before the first separator; empty exactly when a path that does not start with a separator has none |
| ChangeScripts.FindRelease | SqlServer/ExecuteSqlChangeScriptsAction.cs:112-116 | the first release row whose number equals the given one ignoring case, or none when no row does |
| ChangeScripts.SchemaVersion | SqlServer/ExecuteSqlChangeScriptsAction.cs:124-127 | the sortable release number of the same length with every space replaced by `_` |
| ChangeScripts.PlanOf | SqlServer/ExecuteSqlChangeScriptsAction.cs:94-140 | one message per file, and at most one dispatched command per file |
| ChangeScripts.DispatchedHaveReleases | SqlServer/ExecuteSqlChangeScriptsAction.cs:94-140 | only a file with a release number of a known release is dispatched, with its own relative path and that release's schema version; the rest are skipped |
| ChangeScripts.Infos | SqlServer/ExecuteSqlChangeScriptsAction.cs:82-142 | each message is logged once at Information, in order |
| ChangeScripts.ProcessFiles | SqlServer/ExecuteSqlChangeScriptsAction.cs:94-140 | the loop over the sorted paths logs and dispatches as the plan says |
| ChangeScripts.Execute | SqlServer/ExecuteSqlChangeScriptsAction.cs:79-144 | the sorted array holds exactly the found paths, in order under a total comparer; the log is the fixed progress messages, the count found, one message per file in that order and "Scripts complete."; the dispatched commands are the plan's for that order |
| ChangeScripts.Cut | SqlServer/ExecuteSqlChangeScriptsAction.cs:168 | the name is cut to at most 200 characters and is a prefix of the path; a short one is kept whole |
| ChangeScripts.DigitsBound | SqlServer/ExecuteSqlChangeScriptsAction.cs:186 | a number below 10^k has at most k digits |
| ChangeScripts.DigitsMonotone | SqlServer/ExecuteSqlChangeScriptsAction.cs:186-190 | a smaller number has no more digits |
| ChangeScripts.SuffixFits | SqlServer/ExecuteSqlChangeScriptsAction.cs:186 | the suffix of an array length is at most 13 characters |
| ChangeScripts.BatchNameFits | SqlServer/ExecuteSqlChangeScriptsAction.cs:184-191 | the intended batch name is at most 200 characters and starts with as much of the path as fits |
| ChangeScripts.BatchNamesDiffer | SqlServer/ExecuteSqlChangeScriptsAction.cs:184-191 | paths that differ within the part the intended name keeps get different batch names |
| ChangeScripts.BatchNameAsWrittenFits | SqlServer/ExecuteSqlChangeScriptsAction.cs:184-191 | the batch name as written is at most 200 characters |
| ChangeScripts.ShortenedAsWrittenStays | SqlServer/ExecuteSqlChangeScriptsAction.cs:186-188 | a name shortened as written is not shortened again by a later batch |
| ChangeScripts.LongNamesCollideAsWritten | SqlServer/ExecuteSqlChangeScriptsAction.cs:187-188 | as written, two different 197-character paths split into 3 batches both get the name `1.0\ (0)` |
| ChangeScripts.LongNamesDiffer | SqlServer/ExecuteSqlChangeScriptsAction.cs:187-188 | with the intended shortening the same two paths get different 200-character names |
| ChangeScripts.FirstAbort | SqlServer/ExecuteSqlChangeScriptsAction.cs:181-203 | the first non-empty batch that throws when errors are not resumed, or the end |
| ChangeScripts.Calls | SqlServer/ExecuteSqlChangeScriptsAction.cs:181-198 | at most one call per batch |
| ChangeScripts.CallsWellFormed | SqlServer/ExecuteSqlChangeScriptsAction.cs:176-198 | every call carries the script's schema version, a non-empty batch and a name of at most 200 characters |
| ChangeScripts.ExecuteVersionedScript | SqlServer/ExecuteSqlChangeScriptsAction.cs:161-212 | a missing file throws before any call; otherwise one call per non-empty batch in order, named as written, up to and including the first that throws when errors are not resumed, which is rethrown |
| SqlProvider.ValidateInitialization | SqlServer/SqlServerDatabaseProvider.cs:36-50 | schema version 0 throws "Database Not Initialized"; 1 and 2 run their re-initialization script; 3 runs nothing; any other version throws "Unexpected Ver:" with the version |
| SqlProvider.UnescapeEscape | SqlServer/SqlServerDatabaseProvider.cs:189 | doubling the quote character keeps the text inside its literal: SQL Server reads the escaped text back as the original, for `'` and for `]` |
| SqlProvider.EscapeWithoutQuote | SqlServer/SqlServerDatabaseProvider.cs:202-203 | text without the quote character is left unchanged by the escaping |
| SqlProvider.RestoreStatements | SqlServer/SqlServerDatabaseProvider.cs:206-226 | RestoreDatabase sends exactly four statements |
| SqlProvider.GetExecutionResult | SqlServer/SqlServerDatabaseProvider.cs:165-177 | the result carries the given kind; every message starts with the quoted script name; a skipped script says it was already executed |
| SqlProvider.LinesAppend | SqlServer/SqlServerDatabaseProvider.cs:127 | the buffered output of two runs of messages is the output of the first followed by that of the second |
| SqlProvider.FirstStop | SqlServer/SqlServerDatabaseProvider.cs:135-154 | the first batch that throws or logs an error-level message, and no batch before it does; or the number of batches when none does |
| SqlProvider.Outcomes | SqlServer/SqlServerDatabaseProvider.cs:135-140 | one outcome per batch, the batch numbered from 1 |
| SqlProvider.ExecuteRecords | SqlServer/SqlServerDatabaseProvider.cs:135-157 | every batch up to and including the first that ends the script gets a row with its sequence number; only a batch that threw is recorded 'N'; the script succeeds exactly when no batch ends it; the exception is that batch's |
| SqlProvider.RecordedAfterRun | SqlServer/SqlServerDatabaseProvider.cs:116-118 | a script that recorded any batch is skipped by the next run's Script_Id check |
| SqlProvider.SucceededRowsNext | SqlServer/SqlServerDatabaseProvider.cs:138-150 | recording one more batch extends the rows by that batch with the next sequence number |
| SqlProvider.ExecuteStopped | SqlServer/SqlServerDatabaseProvider.cs:144-154 | when batch k is the first to end the script: k succeeded rows, then batch k recorded 'N' exactly when it threw, the result Failed, the output of batches up to k |
| SqlProvider.ExecuteCompleted | SqlServer/SqlServerDatabaseProvider.cs:135-157 | when no batch ends the script: every batch recorded 'Y', the result Success, the output of all batches |
| SqlProvider.EmptyBatchFails | SqlServer/SqlServerDatabaseProvider.cs:136-147 | when an empty command text throws, a script with an empty batch fails, no later than at that batch |
| SqlProvider.RunBatches | SqlServer/SqlServerDatabaseProvider.cs:135-157 | the batch loop computes exactly the execution described by ExecuteRecords |
| SqlProvider.OpenAsWrittenNeverShares | SqlServer/SqlServerDatabaseProvider.cs:267-271 | as written, opening with no shared connection still leaves none, and opening with one replaces it |
| SqlProvider.Opened | SqlServer/SqlServerDatabaseProvider.cs:267-271 | as intended (not used by the provider), after opening a connection is shared, and an existing one is kept |
| SqlProvider.OpenedIdempotent | SqlServer/SqlServerDatabaseProvider.cs:267-271 | opening twice keeps the connection of the first opening |
| SqlProvider.SqlServerDatabaseProvider.constructor | SqlServer/SqlServerDatabaseProvider.cs:53 | a provider starts with no shared connection and nothing executed |
| SqlProvider.SqlServerDatabaseProvider.CheckInitialization | SqlServer/SqlServerDatabaseProvider.cs:23-51 | throws the dispatch's message, or runs the dispatched re-initialization script (if any) and reports no error |
| SqlProvider.SqlServerDatabaseProvider.ExecuteChangeScript | SqlServer/SqlServerDatabaseProvider.cs:112-163 | an uninitialized database throws and changes nothing; an already recorded script is skipped and changes nothing; otherwise the rows of the execution are appended to the history and their INSERT statements are sent, and the result is built from the execution; the upgrade script the schema version calls for, if any, is run first |
| SqlProvider.SqlServerDatabaseProvider.BackupDatabase | SqlServer/SqlServerDatabaseProvider.cs:196-204 | sends the one BACKUP statement with the name and path escaped |
| SqlProvider.SqlServerDatabaseProvider.RestoreDatabase | SqlServer/SqlServerDatabaseProvider.cs:206-226 | sends the four restore statements in order |
| SqlProvider.SqlServerDatabaseProvider.OpenConnection | SqlServer/SqlServerDatabaseProvider.cs:267-271 | as written: a connection is created only when one is already shared, and replaces it undisposed; with none shared nothing changes |
| SqlProvider.SqlServerDatabaseProvider.CloseConnection | SqlServer/SqlServerDatabaseProvider.cs:273-280 | disposes the shared connection if any and forgets it; a second close does nothing |
| Wire.Wrap32 | PowerShell/ExecutePowerShellJob.cs:51 | the reader's Int32 is the low 32 bits in two's complement, and a count below 2^31 is kept as it is |
| Wire.Dec7Enc7 | PowerShell/ExecutePowerShellJob.cs:25 | a 7-bit encoded length that fits the five-byte budget reads back as written, leaving the rest of the stream |
| Wire.DecodeEncodeChar | PowerShell/ExecutePowerShellJob.cs:24 | one character's UTF-8 bytes decode back to that character |
| Wire.Utf8RoundTrip | PowerShell/ExecutePowerShellJob.cs:24 | UTF-8 decoding undoes UTF-8 encoding for every string |
| Wire.EncInt32 | PowerShell/ExecutePowerShellJob.cs:31 | an Int32 is written as four bytes |
| Wire.Int32RoundTrip | PowerShell/ExecutePowerShellJob.cs:31 | ReadInt32 returns the Int32 that Write(int) wrote and leaves the rest |
| Wire.BoolRoundTrip | PowerShell/ExecutePowerShellJob.cs:26 | ReadBoolean returns the bool that Write(bool) wrote and leaves the rest |
| Wire.StringRoundTrip | PowerShell/ExecutePowerShellJob.cs:25 | ReadString returns the string that Write(string) wrote and leaves the rest |
| Wire.BinaryWriter.WriteString | PowerShell/ExecutePowerShellJob.cs:25 | appends the length-prefixed UTF-8 bytes of the string |
| Wire.BinaryWriter.WriteInt32 | PowerShell/ExecutePowerShellJob.cs:31 | appends the four little-endian bytes |
| Wire.BinaryWriter.WriteBool | PowerShell/ExecutePowerShellJob.cs:26 | appends one byte, 1 or 0 |
| Wire.BinaryWriter.WriteByte | PowerShell/ExecutePowerShellJob.cs:121 | appends the byte |
| Wire.BinaryReader.ReadString | PowerShell/ExecutePowerShellJob.cs:45 | fails exactly when the stream does not hold a length-prefixed well-formed UTF-8 string; otherwise consumes exactly it |
| Wire.BinaryReader.ReadInt32 | PowerShell/ExecutePowerShellJob.cs:51 | fails exactly when fewer than four bytes remain; otherwise consumes them |
| Wire.BinaryReader.ReadBoolean | PowerShell/ExecutePowerShellJob.cs:46 | fails exactly at the end of the stream; otherwise consumes one byte, nonzero meaning true |
| Wire.BinaryReader.ReadByte | PowerShell/ExecutePowerShellJob.cs:145 | the next byte, or -1 at the end of the stream |
| Dictionary.Find | PowerShell/ExecutePowerShellJob.cs:56 | the position of the only entry whose key the comparer equates with the key, or none when no entry matches |
| Dictionary.Put | PowerShell/ExecutePowerShellJob.cs:56 | the indexer setter overwrites an existing key in place and appends a new one |
| Dictionary.PutSpec | PowerShell/ExecutePowerShellJob.cs:56 | after an assignment the keys stay distinct, the key holds the new value and every other key keeps its value |
| Dictionary.PutAllLastWins | PowerShell/ExecutePowerShellJob.cs:52-57 | after a run of assignments each key holds the value of the last assignment to it, or its old value |
| Dictionary.LastValuePresent | PowerShell/ExecutePowerShellJob.cs:52-57 | a key gets a value exactly when some assignment used a matching key |
| Dictionary.PutAllFresh | Shell/ExecutePowerShellScriptAction.cs:194-197 | adding keys that are all new appends them in order |
| Text.SplitFirst | Shell/ExecutePowerShellScriptAction.cs:176 | splitting at the first separator gives the text before it and the rest, or the whole text when there is no separator |
| Text.IndexOf | SqlServer/ExecuteSqlChangeScriptsAction.cs:104 | the first position of the character, or none exactly when it does not occur |

## Left out

- Case-insensitive comparison (`StringComparer.OrdinalIgnoreCase`, `DataTable.Select`, `HashSet` with an ignore-case comparer, PowerShell variable lookup) is modelled as ASCII upper-case folding. Non-ASCII case pairs are treated as different.
- `char.IsLetterOrDigit` is restricted to ASCII letters and digits. `char.IsWhiteSpace` and the regular-expression class `\s` are the Unicode White_Space characters, spelled out.
- `Util.ConcatNE` is not part of this model. It is taken to append prefix and text only when the text is non-empty.
- `DataTable.Select` is modelled only for the two filters the core uses. `Script_Id=<n>` becomes "some row has that id". `Release_Number = '<n>'` becomes the first row equal ignoring case. Trailing-space rules and quotes inside a release number are not modelled.
- `SqlServerHelper.SplitScriptBatch` is not part of this model. Its batches are an input of `ChangeScripts.ExecuteVersionedScript`.
- The culture-sensitive `Array.Sort` order is an abstract comparison function `le`. The sort is proved to be a sorted permutation under any total order.
- ChangeScripts.Execute: the culture comparer can tie different paths (a soft hyphen is ignored), and `Array.Sort` does not keep tied paths in their input order. The contract therefore promises only some sorted permutation of the found paths. The order of tied paths, and with it the order of their log lines and commands, is not fixed; `ChangeScripts.SortedOrderWithoutTies` shows it is fixed when nothing is tied.
- The `InitExec` and `GetFiles` remote commands of ExecuteSqlChangeScriptsAction are not modelled beyond their log lines. `GetFiles`' result is an input.
- ChangeScripts.ExecuteVersionedScript: it returns the exception outcome of its batch loop. How the dispatching `Execute` reacts to that exception is not modelled.
- ChangeScripts.ExecuteVersionedScript: the loop reassigns `relativeFilePath` when it shortens it, as the model's loop does. Its specification computes each name from the cut path instead. The two agree because a name shortened as written is never shortened again.
- The SQL Server info-message handler is modelled by its effect: the messages of each batch arrive with the batch's outcome. Attaching and detaching the handler, and its removal in `finally`, are not modelled as state.
- SqlServerDatabaseProvider's `InitializeDatabase`, `IsDatabaseInitialized`, `GetChangeHistory`, `GetSchemaVersion`, `ExecuteQueries`, `IsAvailable` and `ValidateConnection` are not modelled. They are single queries whose result comes from the database; the schema version enters as an input.
- SqlProvider.SqlServerDatabaseProvider.BackupDatabase: creating the backup directory is file-system I/O and is not modelled.
- SqlProvider.RestoreStatements: its contract states only the number of statements. The escaping inside them is covered by `SqlProvider.UnescapeEscape`.
- PSCall.PSCallOperation.ExecuteScriptAsync: the routed parameters are handed to the job executer beside the request, as PSCallOperation.cs:181 sets `Parameters` on the job. ExecutePowerShellJob.cs declares no such property and its request format cannot carry it, so the PowerShellJob model never receives them.
- PSCall.PSCallOperation.ExecuteScriptAsync: the job executer is a function parameter. That it throws, logging nothing, on a request the job refuses is the predicate `PSCall.RefusesFailedJobs`, a hypothesis of `OutNameClashThrows` and not a property of every context. Other reasons for the awaited job to throw (a terminating error in the script, a failure of the executer) are part of that function's result.
- PSCallOperation's `GetDescription` (the rich description shown in the editor) is not modelled.
- `PowerShellScriptInfo.TryParse`, `ScriptAssets_GetScriptByName`, `Applications_GetApplications` and the remote job executer are function parameters of the PSCall context.
- The PowerShell tokenizer (`PSParser.Tokenize`) is not part of this model. Its token sequence is an input; a null token sequence is the input None.
- `DocumentationRegex` and `SpaceCollapseRegex` of PowerShellScriptType are function parameters. Their matches arrive as doc blocks (name, argument, value).
- PowerShellScriptType's `ExecuteScript` builds a runner for the engine and is not modelled. `ScriptingRunner` models the runner's stream handling.
- Shell ExecutePowerShellScriptAction's `Execute` and `ProcessRemoteCommand` are not modelled. They create a runspace and host, read the script file and invoke PowerShell. The parsing, description and error logging they use are modelled.
- Runspaces, `PowerShell.Invoke`/`BeginInvoke`, the host and the streams are a list of effects: variable assignments, exit requests, output objects, relayed records and terminating errors. The session is a variable map. Which PowerShell errors are terminating is decided by the engine and is part of that input.
- `Process.Start` for CMD.EXE is an oracle from the command line to the exit code.
- The host's nested-prompt and notify calls are no-ops and are not modelled. `RawUI` being null is not modelled.
- Asynchrony (`Task`, `ContinueWith`), cancellation tokens and the `lock` on the job's output list are not modelled. Every operation runs to completion in sequence.
- PowerShellJob.ReadPairs: it reads all pairs of the request's variable section and then assigns them in order, where the source assigns each pair as soon as it is read. The two differ only when a read fails, and then the source's dictionary is discarded with the exception.
- The expression evaluator of the script action's parameter defaults is a function parameter, whose failure is the input None.
- `Util.Persistence` (the persisted string-array format) is not part of this model. Its deserializer is a function parameter of `OnDeserializedMissingProperties`.
- Wire.BinaryReader.ReadString: .NET's UTF-8 decoder replaces ill-formed bytes with U+FFFD, where the model's decoder fails. A Dafny `char` is a Unicode scalar value, so the lone UTF-16 surrogates a .NET string may hold are not representable either. `PowerShellJob.Job.Deserialize` and `PowerShellJob.DeserializeResponse` inherit this; the round trips are proved for well-formed strings.
- ShellScriptAction.GetScriptText: the 100-character cut counts Unicode scalar values, where .NET's `Length` and `Substring` count UTF-16 code units. The two agree on text without characters above U+FFFF.
- ChangeScripts.Cut: the 200-character cut counts Unicode scalar values, not UTF-16 code units. The same holds for `ChangeScripts.ShortenedAsWritten`, `ChangeScripts.BatchNameAsWritten` and the "at most 200 characters" of `ChangeScripts.CallsWellFormed`.
- ChangeScripts.ExecuteVersionedScript: its name lengths are counted in Unicode scalar values, as in `ChangeScripts.Cut`, not in UTF-16 code units.
- `String.StartsWith` and `String.EndsWith` with a string argument compare culture-sensitively in .NET. The model compares ordinally: the `<#`/`#>` test of PowerShellScriptType.cs:54 and the source-directory test of ExecuteSqlChangeScriptsAction.cs:97. They can differ on characters the culture ignores or combines, such as a soft hyphen.
- SqlCommand's refusal of an empty command text is not built into the batch outcomes, which are a function parameter. `SqlProvider.RefusesEmptyBatch` states it, and `SqlProvider.EmptyBatchFails` gives its consequence.
- Counts are unbounded integers. The 32-bit wrap of the reader's Int32 is modelled by `Wire.Wrap32`. Elsewhere, list lengths are required to be below 2^31, as .NET arrays are.

## Findings

| source | as written | input that shows it | evidently intended | confidence | as-written member | corrected member |
|---|---|---|---|---|---|---|
| Scripting/PowerShell/PowerShellScriptType.cs:54-55 | strips `<#` and `#>` with `Substring(2, Length - 4)` whenever the comment starts with `<#` and ends with `#>` | the three-character comment `<#>`: both tests hold and the length passed is -1, so Substring throws | strip the delimiters only when both fit without overlapping | not executed | PowerShellScriptType.ShortCommentThrows | PowerShellScriptType.StripDelimitersAgree |
| Shell/ExecutePowerShellScriptAction.cs:190 | logs the format string `Variable or parameter "{0}" has no value, skipping.` without passing the name | any row `x=` with an empty value: the message contains `"{0}"` and not `x` (if the logger formats a message without arguments, it may instead throw a FormatException) | format the message with the variable's name | not executed | ShellScriptAction.SkipMessageAsWrittenOmitsName | ShellScriptAction.SkipMessageNamesVariable |
| Scripts/BatchScriptProvider.cs:56-63 | starts the buffer with one `"` and appends each value followed by `" ` | arguments `a` and `b` give `"a" b"`, which no longer splits into two quoted arguments | quote every argument: `"a" "b"` | not executed | BatchScript.TwoArgumentsAsWritten | BatchScript.TwoArguments |
| SqlServer/SqlServerDatabaseProvider.cs:267-271 | creates a connection only when `sharedConnection != null` | a provider with no shared connection: OpenConnection leaves it without one, and with one it replaces it without disposing it | create and open a connection when none is shared | not executed | SqlProvider.OpenAsWrittenNeverShares | SqlProvider.OpenedIdempotent |
| Operations/PowerShell/PSCallOperation.cs:166-169 | when the script cannot be parsed, builds a dictionary of all arguments with `ToDictionary` and discards it | a named argument `x` given to a script that `PowerShellScriptInfo.TryParse` rejects: the job gets neither a variable nor a parameter `x` | pass every argument as a variable | not executed | PSCall.UnparsableScriptDropsArguments | PSCall.UnparsableScriptKeepsArguments |
| SqlServer/ExecuteSqlChangeScriptsAction.cs:187-188 | shortens an over-long name with `Substring(0, suffix.Length)` | two 197-character paths under `1.0\` with three batches: both first batches are named `1.0\ (0)` | keep the first `200 - suffix.Length` characters | not executed | ChangeScripts.LongNamesCollideAsWritten | ChangeScripts.LongNamesDiffer |

=== FILE: batch_script.dfy ===
/** Scripts.BatchScriptProvider: runs a Windows batch file through CMD.EXE, passing the script's
    arguments on the command line. Starting the process and waiting for it are not modelled: the
    process's exit code is an oracle on the command line. */
module BatchScript {
  import opened Text

  const SupportsArguments := true
  const SupportsReturnValue := true
  const IsAvailable := true
  const NotWindowsNT := "Windows batch scripts can only be executed on a Windows NT based operating system."

  /** ValidateConnection: refuses every platform but Win32NT. */
  function ValidateConnection(isWin32NT: bool): (error: Option<string>)
    ensures error.None? <==> isWin32NT
  {
    if isWin32NT then None else Some(NotWindowsNT)
  }

  /** Each argument's value as StringBuilder.Append sees it: a null value appends nothing. */
  function Values(arguments: seq<Option<string>>): (vs: seq<string>)
    ensures |vs| == |arguments| && forall i :: 0 <= i < |vs| ==> vs[i] == OrEmpty(arguments[i])
  {
    seq(|arguments|, i requires 0 <= i < |arguments| => OrEmpty(arguments[i]))
  }

  // ---------------------------------------------------------------------------------------
  // The argument string as written: one opening quote, then every value followed by `" `.

  function BufferAsWritten(values: seq<string>): (b: string)
    ensures |b| >= 1
    decreases |values|
  {
    if values == [] then "\""
    else BufferAsWritten(values[..|values| - 1]) + values[|values| - 1] + "\" "
  }

  /** The buffer without its last character, or "" for null or no arguments. */
  function ArgumentsAsWritten(arguments: Option<seq<Option<string>>>): string {
    if arguments.None? || arguments.value == [] then ""
    else
      var b := BufferAsWritten(Values(arguments.value));
      b[..|b| - 1]
  }

  method BuildArgumentsAsWritten(arguments: Option<seq<Option<string>>>) returns (args: string)
    ensures args == ArgumentsAsWritten(arguments)
  {
    if arguments.None? || |arguments.value| == 0 {
      return "";
    }
    var vs := Values(arguments.value);
    var buffer := "\"";
    for i := 0 to |vs|
      invariant buffer == BufferAsWritten(vs[..i])
    {
      assert vs[..i + 1][..i] == vs[..i];
      buffer := buffer + vs[i] + "\" ";
    }
    assert vs[..|vs|] == vs;
    args := buffer[..|buffer| - 1];
  }

  // ---------------------------------------------------------------------------------------
  // The argument string as intended: every value in its own quotes, separated by spaces.

  function Quoted(v: string): string {
    "\"" + v + "\""
  }

  function Joined(values: seq<string>): (s: string)
    requires values != []
    decreases |values|
  {
    if |values| == 1 then Quoted(values[0])
    else Joined(values[..|values| - 1]) + " " + Quoted(values[|values| - 1])
  }

  /** The buffer of the corrected loop: each value followed by a space. */
  function Buffer(values: seq<string>): string
    decreases |values|
  {
    if values == [] then ""
    else Buffer(values[..|values| - 1]) + Quoted(values[|values| - 1]) + " "
  }

  function Arguments(arguments: Option<seq<Option<string>>>): string {
    if arguments.None? || arguments.value == [] then "" else Joined(Values(arguments.value))
  }

  lemma {:induction false} BufferIsJoined(values: seq<string>)
    requires values != []
    ensures Buffer(values) == Joined(values) + " "
    decreases |values|
  {
    if |values| > 1 {
      BufferIsJoined(values[..|values| - 1]);
    } else {
      assert values[..0] == [];
    }
  }

  /** The corrected loop: quote every value, then drop the trailing space. */
  method BuildArguments(arguments: Option<seq<Option<string>>>) returns (args: string)
    ensures args == Arguments(arguments)
  {
    if arguments.None? || |arguments.value| == 0 {
      return "";
    }
    var vs := Values(arguments.value);
    var buffer := "";
    for i := 0 to |vs|
      invariant buffer == Buffer(vs[..i])
    {
      assert vs[..i + 1][..i] == vs[..i];
      buffer := buffer + "\"" + vs[i] + "\" ";
    }
    assert vs[..|vs|] == vs;
    BufferIsJoined(vs);
    args := buffer[..|buffer| - 1];
    assert args == Joined(vs);
  }

  // ---------------------------------------------------------------------------------------
  // Reading an argument string back, as CMD.EXE splits quoted arguments.

  /** A sequence of quoted values separated by single spaces, or None when `s` is not one. */
  function Parse(s: string): (r: Option<seq<string>>)
    decreases |s|
  {
    if s == [] || s[0] != '"' then None
    else
      var parts := SplitFirst(s[1..], '"');
      if |parts| == 1 then None
      else if parts[1] == [] then Some([parts[0]])
      else if parts[1][0] != ' ' then None
      else match Parse(parts[1][1..])
        case None => None
        case Some(rest) => Some([parts[0]] + rest)
  }

  lemma {:induction false} JoinedCons(v: string, rest: seq<string>)
    requires rest != []
    ensures Joined([v] + rest) == Quoted(v) + " " + Joined(rest)
    decreases |rest|
  {
    var all := [v] + rest;
    if |rest| > 1 {
      assert all[..|all| - 1] == [v] + rest[..|rest| - 1];
      JoinedCons(v, rest[..|rest| - 1]);
    } else {
      assert all[..|all| - 1] == [v];
    }
  }

  lemma ParseOne(v: string)
    requires '"' !in v
    ensures Parse(Quoted(v)) == Some([v])
  {
    var s := Quoted(v);
    assert s[1..] == v + ['"'] + [];
    SplitFirstAt(v, '"', []);
  }

  lemma ParseCons(v: string, t: string)
    requires '"' !in v
    ensures Parse(Quoted(v) + " " + t) == match Parse(t) case None => None case Some(r) => Some([v] + r)
  {
    var s := Quoted(v) + " " + t;
    assert s[1..] == v + ['"'] + (" " + t);
    SplitFirstAt(v, '"', " " + t);
    assert (" " + t)[1..] == t;
  }

  /** The corrected string reads back as exactly the values, provided none holds a quote. */
  lemma {:induction false} ParseJoined(values: seq<string>)
    requires values != []
    requires forall i :: 0 <= i < |values| ==> '"' !in values[i]
    ensures Parse(Joined(values)) == Some(values)
    decreases |values|
  {
    var v := values[0];
    if |values| == 1 {
      assert values == [v];
      ParseOne(v);
    } else {
      var rest := values[1..];
      assert values == [v] + rest;
      JoinedCons(v, rest);
      ParseJoined(rest);
      ParseCons(v, Joined(rest));
    }
  }

  lemma BufferAsWrittenOne(x: string)
    ensures BufferAsWritten([x]) == "\"" + x + "\" "
  {
    assert [x][..0] == [];
  }

  lemma BufferAsWrittenTwo(x: string, y: string)
    ensures BufferAsWritten([x, y]) == "\"" + x + "\" " + y + "\" "
  {
    assert [x, y][..1] == [x];
    BufferAsWrittenOne(x);
  }

  /** The string as written and the corrected one agree for a single argument. */
  lemma SingleArgumentAgrees(a: Option<string>)
    ensures ArgumentsAsWritten(Some([a])) == Arguments(Some([a]))
  {
    var vs := Values([a]);
    assert vs == [OrEmpty(a)];
    BufferAsWrittenOne(OrEmpty(a));
    var b := BufferAsWritten(vs);
    assert b[..|b| - 1] == Quoted(OrEmpty(a));
  }

  /** With two arguments the string as written leaves the second without an opening quote, so it
      no longer reads back as two quoted values. */
  lemma TwoArgumentsAsWritten()
    ensures ArgumentsAsWritten(Some([Some("a"), Some("b")])) == "\"a\" b\""
    ensures Parse(ArgumentsAsWritten(Some([Some("a"), Some("b")]))) == None
  {
    var vs := Values([Some("a"), Some("b")]);
    assert vs == ["a", "b"];
    BufferAsWrittenTwo("a", "b");
    var w := "\"a\" b\"";
    assert BufferAsWritten(vs)[..|BufferAsWritten(vs)| - 1] == w;
    assert w[1..] == "a" + ['"'] + " b\"";
    SplitFirstAt("a", '"', " b\"");
    assert (" b\"")[1..] == "b\"";
  }

  /** The corrected string for any two arguments without quotes, "a" and "b" among them, quotes
      both and reads back as both. */
  lemma TwoArguments(a: string, b: string)
    requires '"' !in a && '"' !in b
    ensures Arguments(Some([Some(a), Some(b)])) == Quoted(a) + " " + Quoted(b)
    ensures Parse(Arguments(Some([Some(a), Some(b)]))) == Some([a, b])
  {
    var vs := Values([Some(a), Some(b)]);
    assert vs == [a] + [b];
    JoinedCons(a, [b]);
    assert Arguments(Some([Some(a), Some(b)])) == Quoted(a) + " " + Quoted(b);
    ParseOne(b);
    ParseCons(a, Quoted(b));
    assert [a] + [b] == [a, b];
  }

  // ---------------------------------------------------------------------------------------
  // ExecuteScript.

  /** `/C "<fileName>" <args>`. */
  function CommandLine(fileName: string, args: string): string {
    "/C \"" + fileName + "\" " + args
  }

  /** With the corrected arguments, what follows "/C " is the file name and every value, each
      quoted; without arguments, the quoted file name followed by a space. */
  lemma CommandLineQuotesAll(fileName: string, arguments: Option<seq<Option<string>>>)
    ensures arguments.None? || arguments.value == [] ==> CommandLine(fileName, Arguments(arguments)) == "/C " + Quoted(fileName) + " "
    ensures arguments.Some? && arguments.value != [] ==>
              CommandLine(fileName, Arguments(arguments)) == "/C " + Joined([fileName] + Values(arguments.value))
  {
    if arguments.Some? && arguments.value != [] {
      var vs := Values(arguments.value);
      JoinedCons(fileName, vs);
      assert CommandLine(fileName, Joined(vs)) == "/C " + (Quoted(fileName) + " " + Joined(vs));
    } else {
      assert CommandLine(fileName, "") == "/C " + Quoted(fileName) + " ";
    }
  }

  /** With at most one argument the command line the code builds is the corrected one. */
  lemma CommandLineAsWrittenAgrees(fileName: string, arguments: Option<seq<Option<string>>>)
    requires arguments.None? || |arguments.value| <= 1
    ensures CommandLine(fileName, ArgumentsAsWritten(arguments)) == CommandLine(fileName, Arguments(arguments))
  {
    if arguments.Some? && |arguments.value| == 1 {
      assert arguments.value == [arguments.value[0]];
      SingleArgumentAgrees(arguments.value[0]);
    }
  }

  /** Runs cmd.exe with the command line, the arguments built as the code builds them, and
      returns the process's exit code. */
  method ExecuteScript(fileName: string, arguments: Option<seq<Option<string>>>, exitCodeOf: string -> int)
    returns (exitCode: int)
    ensures exitCode == exitCodeOf(CommandLine(fileName, ArgumentsAsWritten(arguments)))
  {
    var args := BuildArgumentsAsWritten(arguments);
    exitCode := exitCodeOf(CommandLine(fileName, args));
  }
}

=== FILE: change_scripts.dfy ===
/** SqlServer.ExecuteSqlChangeScriptsAction: runs the change scripts found under the source
    directory against the releases they belong to. Execute sorts the paths, derives each file's
    relative path, release number and schema version, and dispatches the remote command
    ExecuteVersionedScript, which sends the script's batches to the stored procedure
    __BuildMaster_Exec under a name of at most 200 characters. The database, the file system, the
    batch splitter SqlServerHelper.SplitScriptBatch and the culture-sensitive string order are
    inputs or oracles. */
module ChangeScripts {
  import opened Text
  import opened Logging

  // ---------------------------------------------------------------------------------------
  // Array.Sort: an insertion sort under an abstract total order.

  ghost predicate TotalOrder(le: (string, string) -> bool) {
    && (forall a, b :: le(a, b) || le(b, a))
    && (forall a, b, c :: le(a, b) && le(b, c) ==> le(a, c))
  }

  ghost predicate Sorted(xs: seq<string>, le: (string, string) -> bool) {
    forall i, j :: 0 <= i < j < |xs| ==> le(xs[i], xs[j])
  }

  function Insert(x: string, xs: seq<string>, le: (string, string) -> bool): (r: seq<string>)
    ensures multiset(r) == multiset(xs) + multiset{x}
    decreases |xs|
  {
    if xs == [] then [x]
    else if le(x, xs[0]) then [x] + xs
    else
      assert xs == [xs[0]] + xs[1..];
      [xs[0]] + Insert(x, xs[1..], le)
  }

  function SortPaths(xs: seq<string>, le: (string, string) -> bool): (r: seq<string>)
    ensures multiset(r) == multiset(xs)
    decreases |xs|
  {
    if xs == [] then []
    else
      assert xs == [xs[0]] + xs[1..];
      Insert(xs[0], SortPaths(xs[1..], le), le)
  }

  /** Insert adds `x` and nothing else. */
  lemma {:induction false} InsertFrom(x: string, xs: seq<string>, le: (string, string) -> bool)
    ensures forall k :: 0 <= k < |Insert(x, xs, le)| ==> Insert(x, xs, le)[k] == x || Insert(x, xs, le)[k] in xs
    decreases |xs|
  {
    if xs != [] && !le(x, xs[0]) {
      InsertFrom(x, xs[1..], le);
      assert forall y :: y in xs[1..] ==> y in xs;
    }
  }

  lemma ConsSorted(y: string, ys: seq<string>, le: (string, string) -> bool)
    requires Sorted(ys, le)
    requires forall k :: 0 <= k < |ys| ==> le(y, ys[k])
    ensures Sorted([y] + ys, le)
  {
    forall i, j | 0 <= i < j < |[y] + ys| ensures le(([y] + ys)[i], ([y] + ys)[j]) {
      if i > 0 {
        assert ([y] + ys)[i] == ys[i - 1] && ([y] + ys)[j] == ys[j - 1];
      } else {
        assert ([y] + ys)[j] == ys[j - 1];
      }
    }
  }

  lemma {:induction false} InsertSorted(x: string, xs: seq<string>, le: (string, string) -> bool)
    requires TotalOrder(le) && Sorted(xs, le)
    ensures Sorted(Insert(x, xs, le), le)
    decreases |xs|
  {
    if xs == [] {
    } else if le(x, xs[0]) {
      forall k | 0 <= k < |xs| ensures le(x, xs[k]) {
        if k > 0 {
          assert le(xs[0], xs[k]);
        }
      }
      ConsSorted(x, xs, le);
    } else {
      var rest := Insert(x, xs[1..], le);
      assert Sorted(xs[1..], le) by {
        forall i, j | 0 <= i < j < |xs[1..]| ensures le(xs[1..][i], xs[1..][j]) {
          assert xs[1..][i] == xs[i + 1] && xs[1..][j] == xs[j + 1];
        }
      }
      InsertSorted(x, xs[1..], le);
      InsertFrom(x, xs[1..], le);
      assert le(xs[0], x);
      forall k | 0 <= k < |rest| ensures le(xs[0], rest[k]) {
        if rest[k] != x {
          var m :| 0 <= m < |xs[1..]| && xs[1..][m] == rest[k];
          assert xs[m + 1] == rest[k];
        }
      }
      ConsSorted(xs[0], rest, le);
    }
  }

  /** The paths are processed in order, and none is lost or added. */
  lemma {:induction false} SortPathsSorts(xs: seq<string>, le: (string, string) -> bool)
    requires TotalOrder(le)
    ensures Sorted(SortPaths(xs, le), le)
    ensures multiset(SortPaths(xs, le)) == multiset(xs)
    decreases |xs|
  {
    if xs != [] {
      SortPathsSorts(xs[1..], le);
      InsertSorted(xs[0], SortPaths(xs[1..], le), le);
      assert xs == [xs[0]] + xs[1..];
    }
  }

  /** A comparer that ties no two different strings. */
  ghost predicate Antisymmetric(le: (string, string) -> bool) {
    forall a, b :: le(a, b) && le(b, a) ==> a == b
  }

  lemma SortedTail(a: seq<string>, le: (string, string) -> bool)
    requires a != [] && Sorted(a, le)
    ensures Sorted(a[1..], le)
  {
    forall i, j | 0 <= i < j < |a[1..]| ensures le(a[1..][i], a[1..][j]) {
      assert a[1..][i] == a[i + 1] && a[1..][j] == a[j + 1];
    }
  }

  /** Two sorted permutations of the same paths start with the same path when nothing is tied. */
  lemma SortedHeadsAgree(a: seq<string>, b: seq<string>, le: (string, string) -> bool)
    requires Antisymmetric(le)
    requires a != [] && Sorted(a, le) && Sorted(b, le) && multiset(a) == multiset(b)
    ensures b != [] && a[0] == b[0]
  {
    assert a[0] in multiset(b);
    var k :| 0 <= k < |b| && b[k] == a[0];
    assert b[0] in multiset(a);
    var m :| 0 <= m < |a| && a[m] == b[0];
    if k > 0 && m > 0 {
      assert le(b[0], b[k]) && le(a[0], a[m]);
    }
  }

  lemma TailsPermute(a: seq<string>, b: seq<string>)
    requires a != [] && b != [] && a[0] == b[0] && multiset(a) == multiset(b)
    ensures multiset(a[1..]) == multiset(b[1..])
  {
    assert a == [a[0]] + a[1..] && b == [b[0]] + b[1..];
    assert multiset(a[1..]) == multiset(a) - multiset{a[0]};
    assert multiset(b[1..]) == multiset(b) - multiset{b[0]};
  }

  /** Without ties the sorted order is determined: two sorted permutations of the same paths are
      equal. With ties, the order of the tied paths is left open. */
  lemma {:induction false} SortedPermutationUnique(a: seq<string>, b: seq<string>, le: (string, string) -> bool)
    requires Antisymmetric(le)
    requires Sorted(a, le) && Sorted(b, le) && multiset(a) == multiset(b)
    ensures a == b
    decreases |a|
  {
    if a == [] {
      assert |multiset(b)| == 0;
    } else {
      SortedHeadsAgree(a, b, le);
      TailsPermute(a, b);
      SortedTail(a, le);
      SortedTail(b, le);
      SortedPermutationUnique(a[1..], b[1..], le);
      assert a == [a[0]] + a[1..] && b == [b[0]] + b[1..];
    }
  }

  /** Without ties, any sorted permutation of the found paths is the insertion sort's result. */
  lemma SortedOrderWithoutTies(found: seq<string>, filePaths: seq<string>, le: (string, string) -> bool)
    requires TotalOrder(le) && Antisymmetric(le)
    requires multiset(filePaths) == multiset(found) && Sorted(filePaths, le)
    ensures filePaths == SortPaths(found, le)
  {
    SortPathsSorts(found, le);
    SortedPermutationUnique(filePaths, SortPaths(found, le), le);
  }

  // ---------------------------------------------------------------------------------------
  // Execute: what each file path leads to.

  const Separator := '\\'

  /** The path with the source directory removed when it starts with it, then the leading
      separators trimmed. */
  function RelativePath(filePath: string, sourceDirectory: string): (r: string)
    ensures r == [] || r[0] != Separator
    ensures |r| <= |filePath| && r == filePath[|filePath| - |r|..]
  {
    var chomped := if StartsWith(filePath, sourceDirectory) then filePath[|sourceDirectory|..] else filePath;
    assert chomped == filePath[|filePath| - |chomped|..];
    var r := TrimStartChar(chomped, Separator);
    assert r == chomped[|chomped| - |r|..] by {
      var k :| 0 <= k <= |chomped| && r == chomped[k..] && forall j :: 0 <= j < k ==> chomped[j] == Separator;
    }
    r
  }

  /** The text before the first separator, or "" when there is none. */
  function ReleaseNumber(relativeFilePath: string): (r: string)
    ensures Separator !in r
    ensures r != "" ==> StartsWith(relativeFilePath, r + [Separator])
    ensures relativeFilePath != [] && relativeFilePath[0] != Separator ==>
              (r == "" <==> Separator !in relativeFilePath)
  {
    match IndexOf(relativeFilePath, Separator)
    case None => ""
    case Some(i) =>
      assert relativeFilePath[..i + 1] == relativeFilePath[..i] + [Separator];
      relativeFilePath[..i]
  }

  /** A row of the releases table. */
  datatype ReleaseRow = ReleaseRow(releaseNumber: string, sortableReleaseNumber: string)

  /** `releases.Select("Release_Number = '<number>'")[0]`: the first row whose number matches,
      ignoring case as DataTable does by default. */
  function FindRelease(releases: seq<ReleaseRow>, number: string): (r: Option<nat>)
    ensures r.Some? ==> r.value < |releases| && EqualsIgnoreCase(releases[r.value].releaseNumber, number)
    ensures r.Some? ==> forall j :: 0 <= j < r.value ==> !EqualsIgnoreCase(releases[j].releaseNumber, number)
    ensures r.None? <==> forall j :: 0 <= j < |releases| ==> !EqualsIgnoreCase(releases[j].releaseNumber, number)
    decreases |releases|
  {
    if releases == [] then None
    else if EqualsIgnoreCase(releases[0].releaseNumber, number) then Some(0)
    else match FindRelease(releases[1..], number)
      case None => None
      case Some(i) => Some(i + 1)
  }

  /** The sortable release number with every space replaced by '_'. */
  function SchemaVersion(sortableReleaseNumber: string): (v: string)
    ensures |v| == |sortableReleaseNumber| && ' ' !in v
    ensures forall i :: 0 <= i < |v| && sortableReleaseNumber[i] != ' ' ==> v[i] == sortableReleaseNumber[i]
  {
    ReplaceChar(sortableReleaseNumber, ' ', '_')
  }

  /** The arguments of one ExecuteVersionedScript command. */
  datatype VersionedScript = VersionedScript(filePath: string, relativeFilePath: string, schemaVersion: string)

  /** What one file leads to: the message logged, and the command dispatched, if any. */
  datatype Step = Step(message: string, script: Option<VersionedScript>)

  function FileStep(releases: seq<ReleaseRow>, sourceDirectory: string, filePath: string): Step {
    var rel := RelativePath(filePath, sourceDirectory);
    var number := ReleaseNumber(rel);
    if number == "" then Step("Release Number not found on \"" + rel + "\", skipping.", None)
    else match FindRelease(releases, number)
      case None => Step("Release Number \"" + number + "\" not found, skipping file \"" + rel + "\".", None)
      case Some(j) =>
        Step("Executing \"" + rel + "\" for release \"" + releases[j].releaseNumber + "\" ... ",
             Some(VersionedScript(filePath, rel, SchemaVersion(releases[j].sortableReleaseNumber))))
  }

  datatype Plan = Plan(messages: seq<string>, scripts: seq<VersionedScript>)

  /** The files in the order given: one message each, and the commands dispatched. */
  function PlanOf(releases: seq<ReleaseRow>, sourceDirectory: string, paths: seq<string>): (p: Plan)
    ensures |p.messages| == |paths| && |p.scripts| <= |paths|
    decreases |paths|
  {
    if paths == [] then Plan([], [])
    else
      var p := PlanOf(releases, sourceDirectory, paths[..|paths| - 1]);
      var s := FileStep(releases, sourceDirectory, paths[|paths| - 1]);
      Plan(p.messages + [s.message], p.scripts + if s.script.Some? then [s.script.value] else [])
  }

  /** Only a file with a release number of a known release is dispatched, with that release's
      schema version and its own relative path. */
  lemma {:induction false} DispatchedHaveReleases(releases: seq<ReleaseRow>, sourceDirectory: string, paths: seq<string>)
    ensures forall s :: s in PlanOf(releases, sourceDirectory, paths).scripts ==>
              && s.filePath in paths
              && s.relativeFilePath == RelativePath(s.filePath, sourceDirectory)
              && ReleaseNumber(s.relativeFilePath) != ""
              && FindRelease(releases, ReleaseNumber(s.relativeFilePath)).Some?
              && s.schemaVersion ==
                   SchemaVersion(releases[FindRelease(releases, ReleaseNumber(s.relativeFilePath)).value].sortableReleaseNumber)
    decreases |paths|
  {
    if paths != [] {
      var front := paths[..|paths| - 1];
      DispatchedHaveReleases(releases, sourceDirectory, front);
      forall p | p in front ensures p in paths {
        var k :| 0 <= k < |front| && front[k] == p;
        assert paths[k] == p;
      }
    }
  }

  function Info(message: string): LogEvent {
    LogEvent(Information, message)
  }

  function Infos(messages: seq<string>): (evs: seq<LogEvent>)
    ensures |evs| == |messages|
    ensures forall i :: 0 <= i < |messages| ==> evs[i] == LogEvent(Information, messages[i])
  {
    seq(|messages|, i requires 0 <= i < |messages| => Info(messages[i]))
  }

  /** The foreach over the sorted paths. */
  method ProcessFiles(releases: seq<ReleaseRow>, sourceDirectory: string, paths: seq<string>)
    returns (messages: seq<string>, scripts: seq<VersionedScript>)
    ensures Plan(messages, scripts) == PlanOf(releases, sourceDirectory, paths)
  {
    messages, scripts := [], [];
    for i := 0 to |paths|
      invariant Plan(messages, scripts) == PlanOf(releases, sourceDirectory, paths[..i])
    {
      assert paths[..i + 1][..i] == paths[..i];
      var step := FileStep(releases, sourceDirectory, paths[i]);
      messages := messages + [step.message];
      if step.script.Some? {
        scripts := scripts + [step.script.value];
      } else {
        assert scripts == scripts + [];
      }
    }
    assert paths[..|paths|] == paths;
  }

  /** Execute: `found` is what the GetFiles command returned, and `filePaths` the array after
      Array.Sort: the same paths, sorted; the order of paths the comparer ties is not promised.
      The InitExec command is not modelled beyond its log line. */
  method Execute(releases: seq<ReleaseRow>, sourceDirectory: string, found: seq<string>, le: (string, string) -> bool)
    returns (log: seq<LogEvent>, scripts: seq<VersionedScript>, filePaths: seq<string>)
    ensures multiset(filePaths) == multiset(found)
    ensures TotalOrder(le) ==> Sorted(filePaths, le)
    ensures var plan := PlanOf(releases, sourceDirectory, filePaths);
            && log == Infos(["Loading releases...", "Initializing Schema...", "Finding scripts to execute...",
                             "Found " + NatToString(|found|) + " total script(s)."] + plan.messages + ["Scripts complete."])
            && scripts == plan.scripts
  {
    var head := ["Loading releases...", "Initializing Schema...", "Finding scripts to execute...",
                 "Found " + NatToString(|found|) + " total script(s)."];
    filePaths := SortPaths(found, le);
    if TotalOrder(le) {
      SortPathsSorts(found, le);
    }
    var messages;
    messages, scripts := ProcessFiles(releases, sourceDirectory, filePaths);
    log := Infos(head + messages + ["Scripts complete."]);
  }

  // ---------------------------------------------------------------------------------------
  // ExecuteVersionedScript: the name each batch is stored under.

  const MaxNameLength := 200

  /** `string.Format(" ({0})", n)` */
  function Suffix(n: nat): string {
    " (" + NatToString(n) + ")"
  }

  /** The name cut to 200 characters, before any batch is sent. */
  function Cut(relativeFilePath: string): (r: string)
    ensures |r| <= MaxNameLength && StartsWith(relativeFilePath, r)
    ensures |relativeFilePath| <= MaxNameLength ==> r == relativeFilePath
  {
    if |relativeFilePath| > MaxNameLength then relativeFilePath[..MaxNameLength] else relativeFilePath
  }

  /** Shortening as written: a name too long for the suffix keeps only as many characters as the
      suffix has. */
  function ShortenedAsWritten(rel: string, n: nat): string {
    var suffix := Suffix(n);
    if |rel| > MaxNameLength - |suffix| && |suffix| <= |rel| then rel[..|suffix|] else rel
  }

  function BatchNameAsWritten(rel: string, n: nat, i: nat): string {
    ShortenedAsWritten(rel, n) + Suffix(i)
  }

  /** Shortening as intended: a name too long for the suffix keeps its first 200 - |suffix|
      characters. */
  function Shortened(rel: string, n: nat): string {
    var keep := MaxNameLength - |Suffix(n)|;
    if |rel| > keep && keep >= 0 then rel[..keep] else rel
  }

  function BatchName(rel: string, n: nat, i: nat): string {
    Shortened(rel, n) + Suffix(i)
  }

  /** The name batch `i` of `n` is stored under: the name itself for a lone batch, otherwise the
      name shortened as written and suffixed. */
  function ScriptName(rel: string, n: nat, i: nat): string {
    if n > 1 then BatchNameAsWritten(rel, n, i) else rel
  }

  function Pow10(k: nat): nat {
    if k == 0 then 1 else 10 * Pow10(k - 1)
  }

  lemma {:induction false} DigitsBound(n: nat, k: nat)
    requires 1 <= k && n < Pow10(k)
    ensures |NatToString(n)| <= k
    decreases k
  {
    if n >= 10 {
      assert k >= 2;
      assert n / 10 < Pow10(k - 1);
      DigitsBound(n / 10, k - 1);
    }
  }

  lemma {:induction false} DigitsMonotone(i: nat, n: nat)
    requires i <= n
    ensures |NatToString(i)| <= |NatToString(n)|
    decreases n
  {
    if i >= 10 {
      DigitsMonotone(i / 10, n / 10);
    }
  }

  /** An array length (below 2^31) has at most ten digits, so its suffix leaves room in 200. */
  lemma SuffixFits(n: nat)
    requires n < 0x8000_0000
    ensures |Suffix(n)| <= 13
  {
    assert Pow10(10) == 10_000_000_000;
    DigitsBound(n, 10);
  }

  /** The intended name is at most 200 characters and starts with as much of the path as fits. */
  lemma BatchNameFits(rel: string, n: nat, i: nat)
    requires |rel| <= MaxNameLength && i < n < 0x8000_0000
    ensures |BatchName(rel, n, i)| <= MaxNameLength
    ensures StartsWith(BatchName(rel, n, i), if |rel| < 187 then rel else rel[..187])
  {
    SuffixFits(n);
    DigitsMonotone(i, n);
  }

  /** The name as written is at most 200 characters too: a shortened name keeps fewer characters
      than the suffix has. */
  lemma BatchNameAsWrittenFits(rel: string, n: nat, i: nat)
    requires |rel| <= MaxNameLength && i < n < 0x8000_0000
    ensures |BatchNameAsWritten(rel, n, i)| <= MaxNameLength
  {
    SuffixFits(n);
    DigitsMonotone(i, n);
  }

  /** Shortening as written changes nothing the second time. */
  lemma ShortenedAsWrittenStays(rel: string, n: nat)
    requires n < 0x8000_0000
    ensures ShortenedAsWritten(ShortenedAsWritten(rel, n), n) == ShortenedAsWritten(rel, n)
  {
    SuffixFits(n);
  }

  /** Paths that differ within the part the intended name keeps get different names. */
  lemma BatchNamesDiffer(a: string, b: string, n: nat, i: nat, d: nat)
    requires n < 0x8000_0000
    requires d < |a| && d < |b| && d < MaxNameLength - |Suffix(n)| && a[d] != b[d]
    ensures BatchName(a, n, i) != BatchName(b, n, i)
  {
    assert BatchName(a, n, i)[d] == a[d];
    assert BatchName(b, n, i)[d] == b[d];
  }

  /** Two 197-character scripts of release 1.0 split into 3 batches: as written, both names are
      cut to "1.0\" before the suffix, so their batches are stored under the same names. */
  lemma LongNamesCollideAsWritten()
    ensures var a := "1.0\\" + seq(193, _ => 'a');
            var b := "1.0\\" + seq(193, _ => 'b');
            && a != b
            && BatchNameAsWritten(a, 3, 0) == BatchNameAsWritten(b, 3, 0) == "1.0\\ (0)"
  {
    var a := "1.0\\" + seq(193, _ => 'a');
    var b := "1.0\\" + seq(193, _ => 'b');
    assert a[4] != b[4];
    assert Suffix(3) == " (3)";
    assert Suffix(0) == " (0)";
    assert a[..4] == "1.0\\" && b[..4] == "1.0\\";
  }

  /** The same two scripts keep 196 characters each under the intended shortening, and their
      names differ. */
  lemma LongNamesDiffer()
    ensures var a := "1.0\\" + seq(193, _ => 'a');
            var b := "1.0\\" + seq(193, _ => 'b');
            && |BatchName(a, 3, 0)| == 200
            && BatchName(a, 3, 0) != BatchName(b, 3, 0)
  {
    var a := "1.0\\" + seq(193, _ => 'a');
    var b := "1.0\\" + seq(193, _ => 'b');
    assert Suffix(3) == " (3)";
    assert Suffix(0) == " (0)";
    BatchNamesDiffer(a, b, 3, 0, 4);
  }

  // ---------------------------------------------------------------------------------------
  // ExecuteVersionedScript: the batch loop.

  /** One ExecuteNonQuery of __BuildMaster_Exec. */
  datatype ExecCall = ExecCall(schemaVersion: string, scriptName: string, scriptSql: string)

  datatype RemoteOutcome = Completed | FileNotFound | SqlError(batch: nat)

  /** Whether batch `i` ends the command: it is sent, it throws, and errors are not resumed. */
  predicate Aborts(batches: seq<string>, i: nat, throws: nat -> bool, resumeNextOnError: bool)
    requires i < |batches|
  {
    batches[i] != "" && throws(i) && !resumeNextOnError
  }

  function FirstAbort(batches: seq<string>, from: nat, throws: nat -> bool, resumeNextOnError: bool): (k: nat)
    requires from <= |batches|
    ensures from <= k <= |batches|
    ensures k < |batches| ==> Aborts(batches, k, throws, resumeNextOnError)
    ensures forall j :: from <= j < k ==> !Aborts(batches, j, throws, resumeNextOnError)
    decreases |batches| - from
  {
    if from == |batches| || Aborts(batches, from, throws, resumeNextOnError) then from
    else FirstAbort(batches, from + 1, throws, resumeNextOnError)
  }

  /** The calls for the first `k` batches: one per non-empty batch, in order. */
  function Calls(schemaVersion: string, rel: string, batches: seq<string>, k: nat): (cs: seq<ExecCall>)
    requires k <= |batches|
    ensures |cs| <= k
    decreases k
  {
    if k == 0 then []
    else
      Calls(schemaVersion, rel, batches, k - 1) +
      if batches[k - 1] == "" then [] else [ExecCall(schemaVersion, ScriptName(rel, |batches|, k - 1), batches[k - 1])]
  }

  /** Every call carries the script's schema version, a non-empty batch and a name of at most 200
      characters. */
  lemma {:induction false} CallsWellFormed(schemaVersion: string, rel: string, batches: seq<string>, k: nat)
    requires k <= |batches| < 0x8000_0000 && |rel| <= MaxNameLength
    ensures forall c :: c in Calls(schemaVersion, rel, batches, k) ==>
              c.schemaVersion == schemaVersion && c.scriptSql != "" && |c.scriptName| <= MaxNameLength
    decreases k
  {
    if k > 0 {
      CallsWellFormed(schemaVersion, rel, batches, k - 1);
      if |batches| > 1 {
        BatchNameAsWrittenFits(rel, |batches|, k - 1);
      }
    }
  }

  /** ProcessRemoteCommand("ExecuteVersionedScript", ...). `batches` is what the batch splitter
      returned for the file's text, `throws(i)` whether batch `i` raises a SqlException. */
  method ExecuteVersionedScript(fileExists: bool, relativeFilePath: string, schemaVersion: string,
                                batches: seq<string>, throws: nat -> bool, resumeNextOnError: bool)
    returns (calls: seq<ExecCall>, outcome: RemoteOutcome)
    requires |batches| < 0x8000_0000
    ensures !fileExists ==> calls == [] && outcome == FileNotFound
    ensures fileExists ==>
              var k := FirstAbort(batches, 0, throws, resumeNextOnError);
              && calls == Calls(schemaVersion, Cut(relativeFilePath), batches, if k < |batches| then k + 1 else k)
              && outcome == (if k < |batches| then SqlError(k) else Completed)
  {
    if !fileExists {
      return [], FileNotFound;
    }
    var rel := relativeFilePath;
    if |rel| > MaxNameLength {
      rel := rel[..MaxNameLength];
    }
    ghost var rel0 := rel;
    var n := |batches|;
    calls := [];
    var i := 0;
    while i < n
      invariant 0 <= i <= n
      invariant rel == rel0 || (n > 1 && rel == ShortenedAsWritten(rel0, n))
      invariant calls == Calls(schemaVersion, rel0, batches, i)
      invariant forall j :: 0 <= j < i ==> !Aborts(batches, j, throws, resumeNextOnError)
    {
      if batches[i] == "" {
        assert Calls(schemaVersion, rel0, batches, i + 1) == calls + [];
        i := i + 1;
        continue;
      }
      var name := rel;
      if n > 1 {
        var suffix := Suffix(n);
        SuffixFits(n);
        ShortenedAsWrittenStays(rel0, n);
        if |rel| > MaxNameLength - |suffix| {
          rel := rel[..|suffix|];
        }
        assert rel == ShortenedAsWritten(rel0, n);
        name := rel + Suffix(i);
      }
      assert name == ScriptName(rel0, n, i);
      assert Calls(schemaVersion, rel0, batches, i + 1) == calls + [ExecCall(schemaVersion, name, batches[i])];
      calls := calls + [ExecCall(schemaVersion, name, batches[i])];
      if throws(i) && !resumeNextOnError {
        assert Aborts(batches, i, throws, resumeNextOnError);
        assert FirstAbort(batches, 0, throws, resumeNextOnError) == i;
        return calls, SqlError(i);
      }
      i := i + 1;
    }
    assert FirstAbort(batches, 0, throws, resumeNextOnError) == n;
    outcome := Completed;
  }
}

=== FILE: dictionary.dfy ===
/** A .NET Dictionary<string, V> as the list of its entries in insertion order (the order in
    which a dictionary that is never removed from enumerates). The comparer decides which keys
    are the same; an entry keeps the spelling of the key that created it. */
module Dictionary {
  import opened Text

  datatype Comparer = Ordinal | OrdinalIgnoreCase

  predicate KeyEq(c: Comparer, a: string, b: string) {
    if c == Ordinal then a == b else EqualsIgnoreCase(a, b)
  }

  type Dict<V> = seq<(string, V)>

  /** No two entries have keys the comparer calls equal. */
  predicate Valid<V>(c: Comparer, d: Dict<V>) {
    forall i, j :: 0 <= i < j < |d| ==> !KeyEq(c, d[i].0, d[j].0)
  }

  function Keys<V>(d: Dict<V>): (ks: seq<string>)
    ensures |ks| == |d| && forall i :: 0 <= i < |d| ==> ks[i] == d[i].0
  {
    seq(|d|, i requires 0 <= i < |d| => d[i].0)
  }

  function Values<V>(d: Dict<V>): (vs: seq<V>)
    ensures |vs| == |d| && forall i :: 0 <= i < |d| ==> vs[i] == d[i].1
  {
    seq(|d|, i requires 0 <= i < |d| => d[i].1)
  }

  /** Position of the entry whose key matches `k`, if any. */
  function Find<V>(c: Comparer, d: Dict<V>, k: string): (r: Option<nat>)
    ensures r.Some? ==> r.value < |d| && KeyEq(c, d[r.value].0, k)
    ensures r.Some? ==> forall i :: 0 <= i < r.value ==> !KeyEq(c, d[i].0, k)
    ensures r.None? ==> forall i :: 0 <= i < |d| ==> !KeyEq(c, d[i].0, k)
    decreases |d|
  {
    if d == [] then None
    else if KeyEq(c, d[0].0, k) then Some(0)
    else match Find(c, d[1..], k)
      case None => None
      case Some(j) => Some(j + 1)
  }

  predicate ContainsKey<V>(c: Comparer, d: Dict<V>, k: string) {
    Find(c, d, k).Some?
  }

  /** TryGetValue */
  function Get<V>(c: Comparer, d: Dict<V>, k: string): Option<V> {
    match Find(c, d, k)
    case None => None
    case Some(i) => Some(d[i].1)
  }

  /** The indexer setter `d[k] = v`: overwrite in place, or append a new entry. */
  function Put<V>(c: Comparer, d: Dict<V>, k: string, v: V): (r: Dict<V>)
    ensures Find(c, d, k).Some? ==> |r| == |d| && Keys(r) == Keys(d)
    ensures Find(c, d, k).None? ==> r == d + [(k, v)]
  {
    match Find(c, d, k)
    case None => d + [(k, v)]
    case Some(i) => d[i := (d[i].0, v)]
  }

  lemma KeyEqIsEquivalence(c: Comparer, a: string, b: string, e: string)
    ensures KeyEq(c, a, a)
    ensures KeyEq(c, a, b) ==> KeyEq(c, b, a)
    ensures KeyEq(c, a, b) && KeyEq(c, b, e) ==> KeyEq(c, a, e)
  {
  }

  /** Putting keeps the keys distinct, stores the value under `k` and leaves every other key alone. */
  lemma {:induction false} PutSpec<V>(c: Comparer, d: Dict<V>, k: string, v: V)
    requires Valid(c, d)
    ensures Valid(c, Put(c, d, k, v))
    ensures Get(c, Put(c, d, k, v), k) == Some(v)
    ensures forall k' :: !KeyEq(c, k', k) ==> Get(c, Put(c, d, k, v), k') == Get(c, d, k')
  {
    var r := Put(c, d, k, v);
    match Find(c, d, k)
    case None =>
      forall i, j | 0 <= i < j < |r| ensures !KeyEq(c, r[i].0, r[j].0) {
        if j == |d| {
          KeyEqIsEquivalence(c, r[i].0, k, k);
        }
      }
      FindAppend(c, d, k, v, k);
      forall k' | !KeyEq(c, k', k) ensures Get(c, r, k') == Get(c, d, k') {
        FindAppend(c, d, k, v, k');
        KeyEqIsEquivalence(c, k', k, k);
      }
    case Some(i) =>
      assert Keys(r) == Keys(d);
      forall i', j | 0 <= i' < j < |r| ensures !KeyEq(c, r[i'].0, r[j].0) {
        assert r[i'].0 == Keys(r)[i'] == d[i'].0;
        assert r[j].0 == Keys(r)[j] == d[j].0;
      }
      FindSameKeys(c, d, r, k);
      forall k' | !KeyEq(c, k', k) ensures Get(c, r, k') == Get(c, d, k') {
        FindSameKeys(c, d, r, k');
        match Find(c, d, k')
        case None =>
        case Some(j) =>
          if j == i {
            KeyEqIsEquivalence(c, k', d[i].0, k);
          }
      }
  }

  lemma FindSameKeys<V>(c: Comparer, d: Dict<V>, r: Dict<V>, k: string)
    requires Keys(r) == Keys(d)
    ensures Find(c, r, k) == Find(c, d, k)
    decreases |d|
  {
    assert |r| == |Keys(r)|;
    if d != [] {
      assert r[0].0 == Keys(r)[0];
      assert Keys(r[1..]) == Keys(r)[1..];
      assert Keys(d[1..]) == Keys(d)[1..];
      FindSameKeys(c, d[1..], r[1..], k);
    }
  }

  lemma FindAppend<V>(c: Comparer, d: Dict<V>, k: string, v: V, q: string)
    ensures Find(c, d, q).Some? ==> Find(c, d + [(k, v)], q) == Find(c, d, q)
    ensures Find(c, d, q).None? ==>
      Find(c, d + [(k, v)], q) == if KeyEq(c, k, q) then Some(|d|) else None
    decreases |d|
  {
    if d != [] {
      assert (d + [(k, v)])[1..] == d[1..] + [(k, v)];
      FindAppend(c, d[1..], k, v, q);
    }
  }

  /** Looking up in a dictionary with one more entry at the end. */
  lemma GetAppend<V>(c: Comparer, d: Dict<V>, p: (string, V), k: string)
    ensures Get(c, d + [p], k) ==
      if Find(c, d, k).Some? then Get(c, d, k) else if KeyEq(c, p.0, k) then Some(p.1) else None
  {
    FindAppend(c, d, p.0, p.1, k);
    if Find(c, d, k).Some? {
      assert (d + [p])[Find(c, d, k).value] == d[Find(c, d, k).value];
    }
  }

  /** A sequence of indexer assignments `d[k] = v`, in order. */
  function PutAll<V>(c: Comparer, d: Dict<V>, pairs: seq<(string, V)>): Dict<V>
    decreases |pairs|
  {
    if pairs == [] then d else PutAll(c, Put(c, d, pairs[0].0, pairs[0].1), pairs[1..])
  }

  /** Assigning pairs one by one keeps the keys distinct. */
  lemma {:induction false} PutAllValid<V>(c: Comparer, d: Dict<V>, pairs: seq<(string, V)>)
    requires Valid(c, d)
    ensures Valid(c, PutAll(c, d, pairs))
    decreases |pairs|
  {
    if pairs != [] {
      PutSpec(c, d, pairs[0].0, pairs[0].1);
      PutAllValid(c, Put(c, d, pairs[0].0, pairs[0].1), pairs[1..]);
    }
  }

  /** The value of the last pair whose key matches `k`. */
  function LastValue<V>(c: Comparer, pairs: seq<(string, V)>, k: string): Option<V>
    decreases |pairs|
  {
    if pairs == [] then None
    else
      var later := LastValue(c, pairs[1..], k);
      if later.Some? then later
      else if KeyEq(c, pairs[0].0, k) then Some(pairs[0].1)
      else None
  }

  /** After a run of assignments the keys are still distinct, and each key holds the value of
      the last assignment to it, or its old value when it was not assigned. */
  lemma {:induction false} PutAllLastWins<V>(c: Comparer, d: Dict<V>, pairs: seq<(string, V)>)
    requires Valid(c, d)
    ensures Valid(c, PutAll(c, d, pairs))
    ensures forall k ::
              Get(c, PutAll(c, d, pairs), k) ==
              (if LastValue(c, pairs, k).Some? then LastValue(c, pairs, k) else Get(c, d, k))
    decreases |pairs|
  {
    if pairs != [] {
      var d1 := Put(c, d, pairs[0].0, pairs[0].1);
      PutSpec(c, d, pairs[0].0, pairs[0].1);
      PutAllLastWins(c, d1, pairs[1..]);
      forall k ensures Get(c, d1, k) == if KeyEq(c, pairs[0].0, k) then Some(pairs[0].1) else Get(c, d, k) {
        KeyEqIsEquivalence(c, pairs[0].0, k, pairs[0].0);
        if KeyEq(c, pairs[0].0, k) {
          PutGetSame(c, d, pairs[0].0, pairs[0].1, k);
        }
      }
    }
  }

  /** Assigning one more pair: the new pair wins for its own key. */
  lemma {:induction false} LastValueAppend<V>(c: Comparer, pairs: seq<(string, V)>, p: (string, V), k: string)
    ensures LastValue(c, pairs + [p], k) == if KeyEq(c, p.0, k) then Some(p.1) else LastValue(c, pairs, k)
    decreases |pairs|
  {
    if pairs != [] {
      assert (pairs + [p])[1..] == pairs[1..] + [p];
      LastValueAppend(c, pairs[1..], p, k);
    } else {
      assert ([] + [p])[1..] == [];
    }
  }

  /** A key gets a value exactly when some pair has a matching key. */
  lemma {:induction false} LastValuePresent<V>(c: Comparer, pairs: seq<(string, V)>, k: string)
    ensures LastValue(c, pairs, k).Some? <==> exists j :: 0 <= j < |pairs| && KeyEq(c, pairs[j].0, k)
    decreases |pairs|
  {
    if pairs != [] {
      var rest := pairs[1..];
      LastValuePresent(c, rest, k);
      if exists j :: 0 <= j < |rest| && KeyEq(c, rest[j].0, k) {
        var j :| 0 <= j < |rest| && KeyEq(c, rest[j].0, k);
        assert pairs[j + 1] == rest[j];
      }
      if exists j :: 0 <= j < |pairs| && KeyEq(c, pairs[j].0, k) {
        var j :| 0 <= j < |pairs| && KeyEq(c, pairs[j].0, k);
        if j > 0 {
          assert rest[j - 1] == pairs[j];
        }
      }
    }
  }

  /** Over distinct keys the last assignment to a key is its only one, so it is what TryGetValue finds. */
  lemma {:induction false} LastValueOfValid<V>(c: Comparer, d: Dict<V>, k: string)
    requires Valid(c, d)
    ensures LastValue(c, d, k) == Get(c, d, k)
    decreases |d|
  {
    if d != [] {
      var rest := d[1..];
      assert Valid(c, rest) by {
        forall i, j | 0 <= i < j < |rest| ensures !KeyEq(c, rest[i].0, rest[j].0) {
          assert rest[i] == d[i + 1] && rest[j] == d[j + 1];
        }
      }
      LastValueOfValid(c, rest, k);
      if KeyEq(c, d[0].0, k) {
        forall i | 0 <= i < |rest| ensures !KeyEq(c, rest[i].0, k) {
          assert rest[i] == d[i + 1];
          KeyEqIsEquivalence(c, rest[i].0, k, d[0].0);
          KeyEqIsEquivalence(c, d[0].0, rest[i].0, k);
        }
      }
    }
  }

  /** Keys the comparer equates are found at the same place. */
  lemma {:induction false} FindEquivalent<V>(c: Comparer, d: Dict<V>, k: string, k': string)
    requires KeyEq(c, k, k')
    ensures Find(c, d, k) == Find(c, d, k')
    decreases |d|
  {
    if d != [] {
      KeyEqIsEquivalence(c, d[0].0, k, k');
      KeyEqIsEquivalence(c, k, k', k);
      KeyEqIsEquivalence(c, d[0].0, k', k);
      FindEquivalent(c, d[1..], k, k');
    }
  }

  lemma PutGetSame<V>(c: Comparer, d: Dict<V>, k: string, v: V, k': string)
    requires Valid(c, d) && KeyEq(c, k, k')
    ensures Get(c, Put(c, d, k, v), k') == Some(v)
  {
    PutSpec(c, d, k, v);
    FindEquivalent(c, Put(c, d, k, v), k, k');
  }

  /** Assigning keys that are new and distinct appends them in order. */
  lemma {:induction false} PutAllFresh<V>(c: Comparer, d: Dict<V>, pairs: seq<(string, V)>)
    requires Valid(c, d + pairs)
    ensures PutAll(c, d, pairs) == d + pairs
    decreases |pairs|
  {
    if pairs != [] {
      var e := d + pairs;
      assert forall i :: 0 <= i < |d| ==> !KeyEq(c, d[i].0, pairs[0].0) by {
        forall i | 0 <= i < |d| ensures !KeyEq(c, d[i].0, pairs[0].0) {
          assert e[i] == d[i] && e[|d|] == pairs[0];
        }
      }
      assert Put(c, d, pairs[0].0, pairs[0].1) == d + [pairs[0]];
      assert (d + [pairs[0]]) + pairs[1..] == e;
      PutAllFresh(c, d + [pairs[0]], pairs[1..]);
    }
  }

  lemma {:induction false} PutAllAppend<V>(c: Comparer, d: Dict<V>, pairs: seq<(string, V)>, p: (string, V))
    ensures PutAll(c, d, pairs + [p]) == Put(c, PutAll(c, d, pairs), p.0, p.1)
    decreases |pairs|
  {
    if pairs != [] {
      assert (pairs + [p])[1..] == pairs[1..] + [p];
      PutAllAppend(c, Put(c, d, pairs[0].0, pairs[0].1), pairs[1..], p);
    }
  }

  /** In a dictionary with distinct keys, the i-th key is found at position i. */
  lemma FindDistinct<V, W>(c: Comparer, d: Dict<V>, ref: Dict<W>, i: nat)
    requires Keys(d) == Keys(ref) && Valid(c, ref) && i < |ref|
    ensures Find(c, d, ref[i].0) == Some(i)
  {
    assert |d| == |Keys(d)|;
    assert d[i].0 == Keys(d)[i];
    KeyEqIsEquivalence(c, ref[i].0, ref[i].0, ref[i].0);
    match Find(c, d, ref[i].0)
    case None =>
    case Some(j) =>
      assert d[j].0 == Keys(d)[j] == ref[j].0;
  }
}

=== FILE: logging.dfy ===
/** The host's log levels and log events, shared by every component that reports through a
    log callback. */
module Logging {

  /** MessageLevel / MessageLevels of the host. */
  datatype Level = Debug | Information | Warning | Error

  datatype LogEvent = LogEvent(level: Level, message: string)
}

=== FILE: ps_host.dfy ===
/** Shell.BuildMasterPSHost and Shell.BuildMasterPSHostUserInterface: the PowerShell host the
    shell action runs scripts in. Its user interface turns every write into one log event and
    refuses every request for input; the host forwards those events and keeps the exit code the
    script asks for. */
module PSHost {
  import opened Text
  import opened Logging

  // ---------------------------------------------------------------------------------------
  // The user interface.

  /** The calls PowerShell makes on the host's user interface. Colours are kept as numbers. */
  datatype UICall =
    | Prompt(caption: string, message: string)
    | PromptForChoice(caption: string, message: string, defaultChoice: int)
    | PromptForCredential(caption: string, message: string, userName: string, targetName: string)
    | PromptForCredentialWithOptions(caption: string, message: string, userName: string, targetName: string)
    | ReadLine
    | ReadLineAsSecureString
    | WriteColored(foreground: int, background: int, value: string)
    | Write(value: string)
    | WriteLine(value: string)
    | WriteDebugLine(message: string)
    | WriteErrorLine(value: string)
    | WriteVerboseLine(message: string)
    | WriteWarningLine(message: string)
    | WriteProgress(sourceId: int)

  /** What a call does: the events it raises, or the InvalidOperationException it throws. */
  datatype Reply = Logged(events: seq<LogEvent>) | Refused(message: string)

  const PromptRefusal := "BuildMaster does not support input prompts from PowerShell. Message: "
  const CredentialRefusal := "BuildMaster does not support prompts for credentials from PowerShell. Message: "
  const ReadRefusal := "BuildMaster does not support reading lines from PowerShell."
  const WarningPrefix := "WARNING: "

  /** The calls that ask the user for something. */
  predicate AsksForInput(call: UICall) {
    || call.Prompt? || call.PromptForChoice? || call.PromptForCredential?
    || call.PromptForCredentialWithOptions? || call.ReadLine? || call.ReadLineAsSecureString?
  }

  /** The event a write call raises, before it reaches a subscriber. */
  function EventOf(call: UICall): (e: Option<LogEvent>)
    requires !AsksForInput(call)
    ensures e.None? <==> call.WriteProgress?
  {
    match call
    case WriteColored(_, _, value) => Some(LogEvent(Information, value))
    case Write(value) => Some(LogEvent(Information, value))
    case WriteLine(value) => Some(LogEvent(Information, value))
    case WriteDebugLine(message) => Some(LogEvent(Debug, message))
    case WriteErrorLine(value) => Some(LogEvent(Error, value))
    case WriteVerboseLine(message) => Some(LogEvent(Debug, message))
    case WriteWarningLine(message) => Some(LogEvent(Information, WarningPrefix + message))
    case WriteProgress(_) => None
  }

  /** A call on the user interface; `subscribed` says whether LogReceived has a handler. */
  function Respond(call: UICall, subscribed: bool): (r: Reply)
    ensures r.Refused? <==> AsksForInput(call)
    ensures r.Logged? ==> |r.events| <= 1
    ensures r.Logged? ==> (r.events == [] <==> !subscribed || call.WriteProgress?)
  {
    if AsksForInput(call) then
      match call
      case Prompt(_, message) => Refused(PromptRefusal + message)
      case PromptForChoice(_, message, _) => Refused(PromptRefusal + message)
      case PromptForCredential(_, message, _, _) => Refused(CredentialRefusal + message)
      case PromptForCredentialWithOptions(_, message, _, _) => Refused(CredentialRefusal + message)
      case ReadLine => Refused(ReadRefusal)
      case ReadLineAsSecureString => Refused(ReadRefusal)
    else
      match EventOf(call)
      case None => Logged([])
      case Some(e) => if subscribed then Logged([e]) else Logged([])
  }

  /** Writes pass their text through unchanged: Write, WriteLine and the coloured Write at
      Information, debug and verbose lines at Debug, error lines at Error. */
  lemma WritesKeepText(text: string)
    ensures Respond(Write(text), true) == Logged([LogEvent(Information, text)])
    ensures Respond(WriteLine(text), true) == Logged([LogEvent(Information, text)])
    ensures forall f, b :: Respond(WriteColored(f, b, text), true) == Logged([LogEvent(Information, text)])
    ensures Respond(WriteDebugLine(text), true) == Logged([LogEvent(Debug, text)])
    ensures Respond(WriteVerboseLine(text), true) == Logged([LogEvent(Debug, text)])
    ensures Respond(WriteErrorLine(text), true) == Logged([LogEvent(Error, text)])
  {
  }

  /** A warning line is logged with a "WARNING: " prefix at Information, not at Warning. */
  lemma WarningIsInformation(message: string)
    ensures Respond(WriteWarningLine(message), true) == Logged([LogEvent(Information, WarningPrefix + message)])
  {
  }

  /** So no call on the user interface ever raises a Warning-level event. */
  lemma NoWarningLevel(call: UICall, subscribed: bool)
    ensures Respond(call, subscribed).Logged? ==>
              forall e :: e in Respond(call, subscribed).events ==> e.level != Warning
  {
  }

  /** A prompt is refused with a message that ends with the prompt's own message. */
  lemma PromptRefusalQuotesMessage(call: UICall)
    requires call.Prompt? || call.PromptForChoice? || call.PromptForCredential? || call.PromptForCredentialWithOptions?
    ensures var r := Respond(call, false);
            && r.Refused?
            && |r.message| >= |call.message|
            && r.message[|r.message| - |call.message|..] == call.message
  {
  }

  // ---------------------------------------------------------------------------------------
  // The host.

  datatype Version = Version(major: int, minor: int, build: int, revision: int)

  datatype Culture = InvariantCulture

  const HostName := "BuildMasterPowerShellHost"
  const HostVersion := Version(0, 0, 0, 0)
  const HostCulture := InvariantCulture
  const HostUICulture := InvariantCulture

  class Host {
    /** ExitCode: the code of the last SetShouldExit call. */
    var exitCode: int
    /** InstanceId: chosen at construction (a new Guid) and never changed. */
    const instanceId: nat
    /** Whether LogReceived has a handler. */
    var hasSubscriber: bool
    /** What the LogReceived handlers received, in order. */
    var received: seq<LogEvent>

    constructor (id: nat)
      ensures exitCode == 0 && instanceId == id
      ensures !hasSubscriber && received == []
    {
      exitCode := 0;
      instanceId := id;
      hasSubscriber := false;
      received := [];
    }

    method Subscribe()
      modifies this`hasSubscriber
      ensures hasSubscriber
    {
      hasSubscriber := true;
    }

    method SetShouldExit(code: int)
      modifies this`exitCode
      ensures exitCode == code
    {
      exitCode := code;
    }

    /** A call on the host's UI. The host always listens to its UI, so a write raises its event,
        which the host passes on unchanged when it has a handler of its own and drops otherwise. */
    method CallUI(call: UICall) returns (r: Reply)
      modifies this`received
      ensures r == Respond(call, true)
      ensures r.Logged? && hasSubscriber ==> received == old(received) + r.events
      ensures !(r.Logged? && hasSubscriber) ==> received == old(received)
    {
      r := Respond(call, true);
      if r.Logged? && hasSubscriber {
        received := received + r.events;
      }
    }
  }
}

=== FILE: ps_job.dfy ===
/** PowerShell.ExecutePowerShellJob: the remote job that carries a script, its variables and the
    names of its out variables to an agent, runs it there, and carries the exit code, the
    collected output and the out variables back. Both directions go through a BinaryWriter /
    BinaryReader pair over UTF-8. */
module PowerShellJob {
  import opened Text
  import opened Wire
  import opened Dictionary
  import opened Logging
  import opened PowerShellRunner

  // ---------------------------------------------------------------------------------------
  // Wire layout of lists of strings and of string pairs.

  /** Each string as written: a null string is written as the empty string. */
  function OrEmptyAll(ss: seq<Option<string>>): (r: seq<string>)
    ensures |r| == |ss| && forall i :: 0 <= i < |ss| ==> r[i] == OrEmpty(ss[i])
  {
    seq(|ss|, i requires 0 <= i < |ss| => OrEmpty(ss[i]))
  }

  /** A dictionary as it is read back: every value present, a null one as the empty string. */
  function Normalize(d: Dict<Option<string>>): (r: Dict<Option<string>>)
    ensures |r| == |d| && forall i :: 0 <= i < |d| ==> r[i] == (d[i].0, Some(OrEmpty(d[i].1)))
  {
    seq(|d|, i requires 0 <= i < |d| => (d[i].0, Some(OrEmpty(d[i].1))))
  }

  predicate AllWritable(ss: seq<string>) {
    forall i :: 0 <= i < |ss| ==> Writable(ss[i])
  }

  predicate PairsWritable(d: Dict<Option<string>>) {
    forall i :: 0 <= i < |d| ==> Writable(d[i].0) && Writable(OrEmpty(d[i].1))
  }

  /** `foreach (var s in ss) writer.Write(s)` */
  function StringsBytes(ss: seq<string>): seq<byte>
    decreases |ss|
  {
    if ss == [] then [] else EncString(ss[0]) + StringsBytes(ss[1..])
  }

  function PairBytes(p: (string, Option<string>)): seq<byte> {
    EncString(p.0) + EncString(OrEmpty(p.1))
  }

  /** `foreach (var v in d) { writer.Write(v.Key); writer.Write(v.Value ?? "") }` */
  function PairsBytes(d: Dict<Option<string>>): seq<byte>
    decreases |d|
  {
    if d == [] then [] else PairBytes(d[0]) + PairsBytes(d[1..])
  }

  /** Reading `n` more strings after `acc`. */
  function DecStrings(data: seq<byte>, n: nat, acc: seq<string>): Option<(seq<string>, seq<byte>)>
    decreases n
  {
    if n == 0 then Some((acc, data))
    else match DecString(data)
      case None => None
      case Some((s, rest)) => DecStrings(rest, n - 1, acc + [s])
  }

  /** Reading `n` more key/value pairs after `acc`. */
  function DecPairs(data: seq<byte>, n: nat, acc: Dict<Option<string>>): Option<(Dict<Option<string>>, seq<byte>)>
    decreases n
  {
    if n == 0 then Some((acc, data))
    else match DecPair(data)
      case None => None
      case Some((k, v, d2)) => DecPairs(d2, n - 1, acc + [(k, Some(v))])
  }

  /** One key/value pair: the key's string, then the value's. */
  function DecPair(data: seq<byte>): Option<(string, string, seq<byte>)> {
    match DecString(data)
    case None => None
    case Some((k, d1)) =>
      match DecString(d1)
      case None => None
      case Some((v, d2)) => Some((k, v, d2))
  }

  lemma {:induction false} StringsBytesAppend(ss: seq<string>, s: string)
    ensures StringsBytes(ss + [s]) == StringsBytes(ss) + EncString(s)
    decreases |ss|
  {
    if ss == [] {
      assert StringsBytes([s]) == EncString(s) + StringsBytes([]);
    } else {
      assert (ss + [s])[1..] == ss[1..] + [s];
      StringsBytesAppend(ss[1..], s);
    }
  }

  lemma {:induction false} PairsBytesAppend(d: Dict<Option<string>>, p: (string, Option<string>))
    ensures PairsBytes(d + [p]) == PairsBytes(d) + PairBytes(p)
    decreases |d|
  {
    if d == [] {
      assert PairsBytes([p]) == PairBytes(p) + PairsBytes([]);
    } else {
      assert (d + [p])[1..] == d[1..] + [p];
      PairsBytesAppend(d[1..], p);
    }
  }

  lemma Assoc<T>(a: seq<T>, b: seq<T>, c: seq<T>)
    ensures (a + b) + c == a + (b + c)
  {
  }

  lemma StringsBytesStep(prefix: seq<byte>, ss: seq<string>, i: nat)
    requires i < |ss|
    ensures prefix + StringsBytes(ss[..i + 1]) == prefix + StringsBytes(ss[..i]) + EncString(ss[i])
  {
    assert ss[..i + 1] == ss[..i] + [ss[i]];
    StringsBytesAppend(ss[..i], ss[i]);
  }

  lemma PairsBytesStep(prefix: seq<byte>, d: Dict<Option<string>>, i: nat)
    requires i < |d|
    ensures prefix + PairsBytes(d[..i + 1]) == prefix + PairsBytes(d[..i]) + PairBytes(d[i])
  {
    assert d[..i + 1] == d[..i] + [d[i]];
    PairsBytesAppend(d[..i], d[i]);
  }

  /** The strings written are the strings read, and the reader stops right after them. */
  lemma {:induction false} StringsRoundTrip(ss: seq<string>, acc: seq<string>, rest: seq<byte>)
    requires AllWritable(ss)
    ensures DecStrings(StringsBytes(ss) + rest, |ss|, acc) == Some((acc + ss, rest))
    decreases |ss|
  {
    if ss == [] {
      assert StringsBytes(ss) + rest == rest;
      assert acc + ss == acc;
    } else {
      Assoc(EncString(ss[0]), StringsBytes(ss[1..]), rest);
      StringRoundTrip(ss[0], StringsBytes(ss[1..]) + rest);
      StringsRoundTrip(ss[1..], acc + [ss[0]], rest);
      assert (acc + [ss[0]]) + ss[1..] == acc + ss;
    }
  }

  /** One pair written is read back as its key and its value, null as the empty string. */
  lemma PairRoundTrip(p: (string, Option<string>), tail: seq<byte>)
    requires Writable(p.0) && Writable(OrEmpty(p.1))
    ensures DecPair(PairBytes(p) + tail) == Some((p.0, OrEmpty(p.1), tail))
  {
    Assoc(EncString(p.0), EncString(OrEmpty(p.1)), tail);
    StringRoundTrip(p.0, EncString(OrEmpty(p.1)) + tail);
    StringRoundTrip(OrEmpty(p.1), tail);
  }

  /** Reading the pairs of a non-empty dictionary reads its first pair, then the rest. */
  lemma DecPairsStep(d: Dict<Option<string>>, acc: Dict<Option<string>>, rest: seq<byte>)
    requires d != [] && PairsWritable(d)
    ensures DecPairs(PairsBytes(d) + rest, |d|, acc) ==
              DecPairs(PairsBytes(d[1..]) + rest, |d| - 1, acc + [(d[0].0, Some(OrEmpty(d[0].1)))])
  {
    var tail := PairsBytes(d[1..]) + rest;
    Assoc(PairBytes(d[0]), PairsBytes(d[1..]), rest);
    PairRoundTrip(d[0], tail);
  }

  lemma NormalizeCons(d: Dict<Option<string>>, acc: Dict<Option<string>>)
    requires d != []
    ensures (acc + [(d[0].0, Some(OrEmpty(d[0].1)))]) + Normalize(d[1..]) == acc + Normalize(d)
  {
    assert Normalize(d) == [(d[0].0, Some(OrEmpty(d[0].1)))] + Normalize(d[1..]);
  }

  /** The pairs written are read back in order, each value present (null as the empty string). */
  lemma {:induction false} PairsRoundTrip(d: Dict<Option<string>>, acc: Dict<Option<string>>, rest: seq<byte>)
    requires PairsWritable(d)
    ensures DecPairs(PairsBytes(d) + rest, |d|, acc) == Some((acc + Normalize(d), rest))
    decreases |d|
  {
    if d == [] {
      assert PairsBytes(d) + rest == rest;
      assert acc + Normalize(d) == acc;
    } else {
      DecPairsStep(d, acc, rest);
      assert PairsWritable(d[1..]) by {
        forall i | 0 <= i < |d[1..]| ensures Writable(d[1..][i].0) && Writable(OrEmpty(d[1..][i].1)) {
          assert d[1..][i] == d[i + 1];
        }
      }
      PairsRoundTrip(d[1..], acc + [(d[0].0, Some(OrEmpty(d[0].1)))], rest);
      NormalizeCons(d, acc);
    }
  }

  // ---------------------------------------------------------------------------------------
  // Stream helpers shared by the request and the response.

  method WriteStrings(w: BinaryWriter, ss: seq<string>)
    requires AllWritable(ss)
    modifies w
    ensures w.written == old(w.written) + StringsBytes(ss)
  {
    for i := 0 to |ss|
      invariant w.written == old(w.written) + StringsBytes(ss[..i])
    {
      StringsBytesStep(old(w.written), ss, i);
      w.WriteString(ss[i]);
    }
    assert ss[..|ss|] == ss;
  }

  method WritePairs(w: BinaryWriter, d: Dict<Option<string>>)
    requires PairsWritable(d)
    modifies w
    ensures w.written == old(w.written) + PairsBytes(d)
  {
    for i := 0 to |d|
      invariant w.written == old(w.written) + PairsBytes(d[..i])
    {
      PairsBytesStep(old(w.written), d, i);
      WritePair(w, d[i]);
    }
    assert d[..|d|] == d;
  }

  method WritePair(w: BinaryWriter, p: (string, Option<string>))
    requires Writable(p.0) && Writable(OrEmpty(p.1))
    modifies w
    ensures w.written == old(w.written) + PairBytes(p)
  {
    w.WriteString(p.0);
    w.WriteString(OrEmpty(p.1));
  }

  /** Reads `count` strings into a fresh list or array; None when the stream ends or holds a bad
      string first. */
  method ReadStrings(r: BinaryReader, count: nat) returns (ss: Option<seq<string>>)
    modifies r
    ensures ss.Some? <==> DecStrings(old(r.unread), count, []).Some?
    ensures ss.Some? ==> (ss.value, r.unread) == DecStrings(old(r.unread), count, []).value
  {
    var read: seq<string> := [];
    for i := 0 to count
      invariant DecStrings(old(r.unread), count, []) == DecStrings(r.unread, count - i, read)
    {
      var s := r.ReadString();
      if s.None? {
        return None;
      }
      read := read + [s.value];
    }
    return Some(read);
  }

  /** A key, then its value. `left` and `read` are the pairs still to come and those already
      read: the pair read here is the next step of DecPairs. */
  method ReadPair(r: BinaryReader, ghost left: nat, ghost read: Dict<Option<string>>) returns (p: Option<(string, string)>)
    requires left > 0
    modifies r
    ensures p.None? ==> DecPairs(old(r.unread), left, read) == None
    ensures p.Some? ==>
              DecPairs(old(r.unread), left, read) == DecPairs(r.unread, left - 1, read + [(p.value.0, Some(p.value.1))])
  {
    var key := r.ReadString();
    if key.None? {
      return None;
    }
    var value := r.ReadString();
    if value.None? {
      return None;
    }
    return Some((key.value, value.value));
  }

  /** Reads `count` key/value pairs in stream order; None when the stream ends or holds a bad
      string first. */
  method ReadPairList(r: BinaryReader, count: nat) returns (pairs: Option<Dict<Option<string>>>)
    modifies r
    ensures pairs.Some? <==> DecPairs(old(r.unread), count, []).Some?
    ensures pairs.Some? ==> (pairs.value, r.unread) == DecPairs(old(r.unread), count, []).value
  {
    var read: Dict<Option<string>> := [];
    for i := 0 to count
      invariant DecPairs(old(r.unread), count, []) == DecPairs(r.unread, count - i, read)
    {
      var p := ReadPair(r, count - i, read);
      if p.None? {
        return None;
      }
      read := read + [(p.value.0, Some(p.value.1))];
    }
    return Some(read);
  }

  /** Reads `count` key/value pairs, assigning each with the indexer of a dictionary that uses
      comparer `c`: a key read twice keeps its first spelling and takes the later value. */
  method ReadPairs(r: BinaryReader, count: nat, c: Comparer) returns (d: Option<Dict<Option<string>>>)
    modifies r
    ensures d.Some? <==> DecPairs(old(r.unread), count, []).Some?
    ensures d.Some? ==> d.value == PutAll(c, [], DecPairs(old(r.unread), count, []).value.0)
    ensures d.Some? ==> r.unread == DecPairs(old(r.unread), count, []).value.1
  {
    var pairs := ReadPairList(r, count);
    if pairs.None? {
      return None;
    }
    return Some(PutAll(c, [], pairs.value));
  }

  /** A dictionary built by the reader holds, for every key, the last value the stream sent for
      it, and no two of its keys are equal under the comparer. */
  lemma LastSentValueWins(c: Comparer, pairs: Dict<Option<string>>, k: string)
    ensures Dictionary.Valid(c, PutAll(c, [], pairs))
    ensures Get(c, PutAll(c, [], pairs), k) == LastValue(c, pairs, k)
  {
    PutAllLastWins(c, [], pairs);
  }

  // ---------------------------------------------------------------------------------------
  // The request.

  /** The job's properties. A null dictionary or array is None. */
  datatype Request = Request(
    scriptText: Option<string>,
    debugLogging: bool,
    verboseLogging: bool,
    collectOutput: bool,
    logOutput: bool,
    variables: Option<Dict<Option<string>>>,
    outVariables: Option<seq<string>>)

  /** What the writer accepts: every string's byte count and every count fit an Int32. */
  predicate Serializable(q: Request) {
    && Writable(OrEmpty(q.scriptText))
    && (q.variables.Some? ==> |q.variables.value| < TWO_31 && PairsWritable(q.variables.value))
    && (q.outVariables.Some? ==> |q.outVariables.value| < TWO_31 && AllWritable(q.outVariables.value))
  }

  function VariablesOrEmpty(q: Request): Dict<Option<string>> {
    if q.variables.Some? then q.variables.value else []
  }

  function OutVariablesOrEmpty(q: Request): seq<string> {
    if q.outVariables.Some? then q.outVariables.value else []
  }

  /** A count followed by that many pairs. */
  function PairsSection(d: Dict<Option<string>>): seq<byte>
    requires |d| < TWO_31
  {
    EncInt32(|d|) + PairsBytes(d)
  }

  /** A count followed by that many strings. */
  function StringsSection(ss: seq<string>): seq<byte>
    requires |ss| < TWO_31
  {
    EncInt32(|ss|) + StringsBytes(ss)
  }

  function FlagBytes(a: bool, b: bool, c: bool, e: bool): seq<byte> {
    EncBool(a) + EncBool(b) + EncBool(c) + EncBool(e)
  }

  /** Serialize: the script (null as empty), the four flags, then the variables and the out
      variable names, each list preceded by its count (0 for a null one). */
  function RequestBytes(q: Request): seq<byte>
    requires Serializable(q)
  {
    EncString(OrEmpty(q.scriptText))
      + (FlagBytes(q.debugLogging, q.verboseLogging, q.collectOutput, q.logOutput)
      + (PairsSection(VariablesOrEmpty(q)) + StringsSection(OutVariablesOrEmpty(q))))
  }

  /** The four flags that follow the script text. */
  function DecFlags(data: seq<byte>): Option<(bool, bool, bool, bool, seq<byte>)> {
    match DecBool(data)
    case None => None
    case Some((a, d1)) =>
      match DecBool(d1)
      case None => None
      case Some((b, d2)) =>
        match DecBool(d2)
        case None => None
        case Some((c, d3)) =>
          match DecBool(d3)
          case None => None
          case Some((e, d4)) => Some((a, b, c, e, d4))
  }

  /** A count followed by that many pairs, assigned into an Ordinal dictionary; a negative count is
      an error, as `new Dictionary(count)` throws on it. */
  function DecVariables(data: seq<byte>, c: Comparer): Option<(Dict<Option<string>>, seq<byte>)> {
    match DecInt32(data)
    case None => None
    case Some((count, d1)) =>
      if count < 0 then None
      else match DecPairs(d1, count, [])
        case None => None
        case Some((pairs, d2)) => Some((PutAll(c, [], pairs), d2))
  }

  /** A count followed by that many strings; a negative count is an error, as the array
      allocation throws on it. */
  function DecStringList(data: seq<byte>): Option<(seq<string>, seq<byte>)> {
    match DecInt32(data)
    case None => None
    case Some((count, d1)) =>
      if count < 0 then None else DecStrings(d1, count, [])
  }

  /** Deserialize: the script text, then the rest. */
  function DecodeRequest(data: seq<byte>): Option<(Request, seq<byte>)> {
    match DecString(data)
    case None => None
    case Some((script, d1)) => DecodeAfterScript(script, d1)
  }

  function DecodeAfterScript(script: string, d1: seq<byte>): Option<(Request, seq<byte>)> {
    match DecFlags(d1)
    case None => None
    case Some((dbg, vrb, collect, logOut, d2)) => DecodeAfterFlags(script, (dbg, vrb, collect, logOut), d2)
  }

  function DecodeAfterFlags(script: string, flags: (bool, bool, bool, bool), d2: seq<byte>): Option<(Request, seq<byte>)> {
    match DecVariables(d2, Ordinal)
    case None => None
    case Some((vars, d3)) =>
      match DecStringList(d3)
      case None => None
      case Some((names, d4)) =>
        Some((Request(Some(script), flags.0, flags.1, flags.2, flags.3, Some(vars), Some(names)), d4))
  }

  /** What a request looks like after the trip: nulls become empty, null values the empty string. */
  function NormalizeRequest(q: Request): Request {
    Request(Some(OrEmpty(q.scriptText)), q.debugLogging, q.verboseLogging, q.collectOutput,
            q.logOutput, Some(Normalize(VariablesOrEmpty(q))), Some(OutVariablesOrEmpty(q)))
  }

  lemma FlagsRoundTrip(a: bool, b: bool, c: bool, e: bool, rest: seq<byte>)
    ensures DecFlags(FlagBytes(a, b, c, e) + rest) == Some((a, b, c, e, rest))
  {
    assert EncBool(a) + EncBool(b) + EncBool(c) + EncBool(e) + rest
      == EncBool(a) + (EncBool(b) + (EncBool(c) + (EncBool(e) + rest)));
    BoolRoundTrip(a, EncBool(b) + (EncBool(c) + (EncBool(e) + rest)));
    BoolRoundTrip(b, EncBool(c) + (EncBool(e) + rest));
    BoolRoundTrip(c, EncBool(e) + rest);
    BoolRoundTrip(e, rest);
  }

  lemma DecVariablesAt(n: int, tail: seq<byte>, c: Comparer)
    requires IsInt32(n)
    ensures n < 0 ==> DecVariables(EncInt32(n) + tail, c) == None
    ensures n >= 0 && DecPairs(tail, n, []).None? ==> DecVariables(EncInt32(n) + tail, c) == None
    ensures n >= 0 && DecPairs(tail, n, []).Some? ==>
              var (pairs, d2) := DecPairs(tail, n, []).value;
              DecVariables(EncInt32(n) + tail, c) == Some((PutAll(c, [], pairs), d2))
  {
    Int32RoundTrip(n, tail);
  }

  lemma DecStringListAt(n: int, tail: seq<byte>)
    requires IsInt32(n)
    ensures DecStringList(EncInt32(n) + tail) == if n < 0 then None else DecStrings(tail, n, [])
  {
    Int32RoundTrip(n, tail);
  }

  lemma VariablesRoundTrip(d: Dict<Option<string>>, c: Comparer, rest: seq<byte>)
    requires |d| < TWO_31 && PairsWritable(d) && Dictionary.Valid(c, d)
    ensures DecVariables(PairsSection(d) + rest, c) == Some((Normalize(d), rest))
  {
    Assoc(EncInt32(|d|), PairsBytes(d), rest);
    DecVariablesAt(|d|, PairsBytes(d) + rest, c);
    PairsRoundTrip(d, [], rest);
    assert [] + Normalize(d) == Normalize(d);
    NormalizeValid(c, d);
    PutAllFresh(c, [], Normalize(d));
  }

  lemma NormalizeValid(c: Comparer, d: Dict<Option<string>>)
    requires Dictionary.Valid(c, d)
    ensures Dictionary.Valid(c, Normalize(d))
  {
    forall i, j | 0 <= i < j < |d| ensures !KeyEq(c, Normalize(d)[i].0, Normalize(d)[j].0) {
      assert Normalize(d)[i].0 == d[i].0 && Normalize(d)[j].0 == d[j].0;
    }
  }

  lemma StringListRoundTrip(ns: seq<string>, rest: seq<byte>)
    requires |ns| < TWO_31 && AllWritable(ns)
    ensures DecStringList(StringsSection(ns) + rest) == Some((ns, rest))
  {
    Assoc(EncInt32(|ns|), StringsBytes(ns), rest);
    DecStringListAt(|ns|, StringsBytes(ns) + rest);
    StringsRoundTrip(ns, [], rest);
    assert [] + ns == ns;
  }

  /** Deserialize reads back what Serialize wrote, up to the nulls the wire cannot carry, and
      stops where the request ends. The variables must have distinct keys, as a dictionary's do. */
  lemma RequestRoundTrip(q: Request, rest: seq<byte>)
    requires Serializable(q)
    requires q.variables.Some? ==> Dictionary.Valid(Ordinal, q.variables.value)
    ensures DecodeRequest(RequestBytes(q) + rest) == Some((NormalizeRequest(q), rest))
  {
    var vs := VariablesOrEmpty(q);
    var ns := OutVariablesOrEmpty(q);
    var script := EncString(OrEmpty(q.scriptText));
    var flags := FlagBytes(q.debugLogging, q.verboseLogging, q.collectOutput, q.logOutput);
    var tail := PairsSection(vs) + (StringsSection(ns) + rest);
    Assoc(script, flags + (PairsSection(vs) + StringsSection(ns)), rest);
    Assoc(flags, PairsSection(vs) + StringsSection(ns), rest);
    Assoc(PairsSection(vs), StringsSection(ns), rest);
    assert RequestBytes(q) + rest == script + (flags + tail);
    StringRoundTrip(OrEmpty(q.scriptText), flags + tail);
    FlagsRoundTrip(q.debugLogging, q.verboseLogging, q.collectOutput, q.logOutput, tail);
    VariablesRoundTrip(vs, Ordinal, StringsSection(ns) + rest);
    StringListRoundTrip(ns, rest);
    DecodeRequestSteps(RequestBytes(q) + rest, flags + tail, tail, StringsSection(ns) + rest, rest,
                       NormalizeRequest(q));
  }

  /** DecodeRequest reads the script, the flags, the variables and the names in turn. */
  lemma DecodeRequestSteps(d0: seq<byte>, d1: seq<byte>, d2: seq<byte>, d3: seq<byte>, d4: seq<byte>,
                           q: Request)
    requires q.scriptText.Some? && q.variables.Some? && q.outVariables.Some?
    requires DecString(d0) == Some((q.scriptText.value, d1))
    requires DecFlags(d1) == Some((q.debugLogging, q.verboseLogging, q.collectOutput, q.logOutput, d2))
    requires DecVariables(d2, Ordinal) == Some((q.variables.value, d3))
    requires DecStringList(d3) == Some((q.outVariables.value, d4))
    ensures DecodeRequest(d0) == Some((q, d4))
  {
  }

  /** The variables of a decoded request: each key the stream sent holds the last value sent
      for it. */
  lemma DecodedVariablesLastWins(data: seq<byte>, k: string)
    requires DecVariables(data, Ordinal).Some?
    ensures DecInt32(data).Some? && DecInt32(data).value.0 >= 0
    ensures DecPairs(DecInt32(data).value.1, DecInt32(data).value.0, []).Some?
    ensures
      var pairs := DecPairs(DecInt32(data).value.1, DecInt32(data).value.0, []).value.0;
      Get(Ordinal, DecVariables(data, Ordinal).value.0, k) == LastValue(Ordinal, pairs, k)
  {
    var pairs := DecPairs(DecInt32(data).value.1, DecInt32(data).value.0, []).value.0;
    LastSentValueWins(Ordinal, pairs, k);
  }

  // ---------------------------------------------------------------------------------------
  // The response.

  /** Result: the exit code, the collected output and the out variables. */
  datatype Response = Response(
    exitCode: Option<int>,
    output: seq<Option<string>>,
    outVariables: Dict<Option<string>>)

  predicate ResponseSerializable(x: Response) {
    && (x.exitCode.Some? ==> IsInt32(x.exitCode.value))
    && |x.output| < TWO_31 && AllWritable(OrEmptyAll(x.output))
    && |x.outVariables| < TWO_31 && PairsWritable(x.outVariables)
  }

  function ExitCodeBytes(exitCode: Option<int>): seq<byte>
    requires exitCode.Some? ==> IsInt32(exitCode.value)
  {
    if exitCode.None? then [0 as byte] else [1 as byte] + EncInt32(exitCode.value)
  }

  /** SerializeResponse: a 0 byte for a null exit code, otherwise a 1 byte and the code; then the
      output lines and the out variables, each list preceded by its count. */
  function ResponseBytes(x: Response): seq<byte>
    requires ResponseSerializable(x)
  {
    ExitCodeBytes(x.exitCode) + (StringsSection(OrEmptyAll(x.output)) + PairsSection(x.outVariables))
  }

  /** The exit code: a 0 byte (the stream's first) means none; any other value, including the
      end of the stream, means an Int32 follows. */
  function DecExitCode(data: seq<byte>): Option<(Option<int>, seq<byte>)> {
    var (b, d1) := DecByte(data);
    if b == 0 then Some((None, d1))
    else match DecInt32(d1)
      case None => None
      case Some((code, d2)) => Some((Some(code), d2))
  }

  function Somes(ss: seq<string>): (r: seq<Option<string>>)
    ensures |r| == |ss| && forall i :: 0 <= i < |ss| ==> r[i] == Some(ss[i])
  {
    seq(|ss|, i requires 0 <= i < |ss| => Some(ss[i]))
  }

  /** DeserializeResponse; the out variables go into an OrdinalIgnoreCase dictionary. */
  function DecodeResponse(data: seq<byte>): Option<(Response, seq<byte>)> {
    match DecExitCode(data)
    case None => None
    case Some((exitCode, d1)) =>
      match DecStringList(d1)
      case None => None
      case Some((output, d2)) =>
        match DecVariables(d2, OrdinalIgnoreCase)
        case None => None
        case Some((vars, d3)) => Some((Response(exitCode, Somes(output), vars), d3))
  }

  function NormalizeResponse(x: Response): Response {
    Response(x.exitCode, Somes(OrEmptyAll(x.output)), Normalize(x.outVariables))
  }

  /** DeserializeResponse reads back what SerializeResponse wrote, with null strings read as empty
      ones; the out variables have distinct keys ignoring case, as the runner's dictionary does. */
  lemma ResponseRoundTrip(x: Response, rest: seq<byte>)
    requires ResponseSerializable(x)
    requires Dictionary.Valid(OrdinalIgnoreCase, x.outVariables)
    ensures DecodeResponse(ResponseBytes(x) + rest) == Some((NormalizeResponse(x), rest))
  {
    var out := StringsSection(OrEmptyAll(x.output));
    var vars := PairsSection(x.outVariables);
    Assoc(ExitCodeBytes(x.exitCode), out + vars, rest);
    Assoc(out, vars, rest);
    ExitCodeRoundTrip(x.exitCode, out + (vars + rest));
    StringListRoundTrip(OrEmptyAll(x.output), vars + rest);
    VariablesRoundTrip(x.outVariables, OrdinalIgnoreCase, rest);
  }

  lemma ExitCodeRoundTrip(exitCode: Option<int>, rest: seq<byte>)
    requires exitCode.Some? ==> IsInt32(exitCode.value)
    ensures DecExitCode(ExitCodeBytes(exitCode) + rest) == Some((exitCode, rest))
  {
    if exitCode.Some? {
      Assoc([1 as byte], EncInt32(exitCode.value), rest);
      Int32RoundTrip(exitCode.value, rest);
    }
  }

  /** The reader treats any nonzero first byte as "an exit code follows". */
  lemma AnyNonzeroByteMeansExitCode(b: byte, code: int, rest: seq<byte>)
    requires b != 0 && IsInt32(code)
    ensures DecExitCode([b] + EncInt32(code) + rest) == Some((Some(code), rest))
  {
    assert [b] + EncInt32(code) + rest == [b] + (EncInt32(code) + rest);
    Int32RoundTrip(code, rest);
  }

  /** An out variable whose value is null on the agent arrives as the empty string: the caller
      cannot tell "never set" from "set to empty". */
  lemma NullOutVariableArrivesEmpty(x: Response, rest: seq<byte>, i: nat)
    requires ResponseSerializable(x)
    requires Dictionary.Valid(OrdinalIgnoreCase, x.outVariables)
    requires i < |x.outVariables| && x.outVariables[i].1.None?
    ensures DecodeResponse(ResponseBytes(x) + rest).Some?
    ensures
      var received := DecodeResponse(ResponseBytes(x) + rest).value.0;
      i < |received.outVariables| && received.outVariables[i] == (x.outVariables[i].0, Some(""))
  {
    ResponseRoundTrip(x, rest);
  }

  method SerializeResponse(w: BinaryWriter, data: Response)
    requires ResponseSerializable(data)
    modifies w
    ensures w.written == old(w.written) + ResponseBytes(data)
  {
    if data.exitCode.None? {
      w.WriteByte(0);
    } else {
      w.WriteByte(1);
      w.WriteInt32(data.exitCode.value);
      Assoc(old(w.written), [1 as byte], EncInt32(data.exitCode.value));
    }
    ghost var afterExit := w.written;
    WriteStringsSection(w, OrEmptyAll(data.output));
    ghost var afterOutput := w.written;
    WritePairsSection(w, data.outVariables);
    Assoc(old(w.written), ExitCodeBytes(data.exitCode), StringsSection(OrEmptyAll(data.output)));
    Assoc(old(w.written) + ExitCodeBytes(data.exitCode), StringsSection(OrEmptyAll(data.output)),
          PairsSection(data.outVariables));
    Assoc(old(w.written), ExitCodeBytes(data.exitCode),
          StringsSection(OrEmptyAll(data.output)) + PairsSection(data.outVariables));
  }

  method WriteStringsSection(w: BinaryWriter, ss: seq<string>)
    requires |ss| < TWO_31 && AllWritable(ss)
    modifies w
    ensures w.written == old(w.written) + StringsSection(ss)
  {
    w.WriteInt32(|ss|);
    WriteStrings(w, ss);
    Assoc(old(w.written), EncInt32(|ss|), StringsBytes(ss));
  }

  method WritePairsSection(w: BinaryWriter, d: Dict<Option<string>>)
    requires |d| < TWO_31 && PairsWritable(d)
    modifies w
    ensures w.written == old(w.written) + PairsSection(d)
  {
    w.WriteInt32(|d|);
    WritePairs(w, d);
    Assoc(old(w.written), EncInt32(|d|), PairsBytes(d));
  }

  method DeserializeResponse(r: BinaryReader) returns (result: Option<Response>)
    modifies r
    ensures result.Some? <==> DecodeResponse(old(r.unread)).Some?
    ensures result.Some? ==> (result.value, r.unread) == DecodeResponse(old(r.unread)).value
  {
    var exitCode: Option<int>;
    var b := r.ReadByte();
    ghost var afterByte := r.unread;
    if b == 0 {
      exitCode := None;
    } else {
      var code := r.ReadInt32();
      if code.None? {
        return None;
      }
      exitCode := Some(code.value);
    }
    var output := ReadStringList(r);
    if output.None? {
      return None;
    }
    var vars := ReadVariables(r, OrdinalIgnoreCase);
    if vars.None? {
      return None;
    }
    return Some(Response(exitCode, Somes(output.value), vars.value));
  }

  /** A count, then an array or list of that many strings. */
  method ReadStringList(r: BinaryReader) returns (ss: Option<seq<string>>)
    modifies r
    ensures ss.Some? <==> DecStringList(old(r.unread)).Some?
    ensures ss.Some? ==> (ss.value, r.unread) == DecStringList(old(r.unread)).value
  {
    var count := r.ReadInt32();
    if count.None? || count.value < 0 {
      return None;
    }
    ss := ReadStrings(r, count.value);
  }

  /** A count, then a dictionary of that many assignments. */
  method ReadVariables(r: BinaryReader, c: Comparer) returns (d: Option<Dict<Option<string>>>)
    modifies r
    ensures d.Some? <==> DecVariables(old(r.unread), c).Some?
    ensures d.Some? ==> (d.value, r.unread) == DecVariables(old(r.unread), c).value
  {
    var count := r.ReadInt32();
    if count.None? || count.value < 0 {
      return None;
    }
    d := ReadPairs(r, count.value, c);
  }

  /** The flags that follow the script text. */
  method ReadFlags(r: BinaryReader) returns (flags: Option<(bool, bool, bool, bool)>)
    modifies r
    ensures flags.Some? <==> DecFlags(old(r.unread)).Some?
    ensures flags.Some? ==>
              var (a, b, c, e, rest) := DecFlags(old(r.unread)).value;
              flags.value == (a, b, c, e) && r.unread == rest
  {
    var a := r.ReadBoolean();
    if a.None? {
      return None;
    }
    var b := r.ReadBoolean();
    if b.None? {
      return None;
    }
    var c := r.ReadBoolean();
    if c.None? {
      return None;
    }
    var e := r.ReadBoolean();
    if e.None? {
      return None;
    }
    return Some((a.value, b.value, c.value, e.value));
  }

  // ---------------------------------------------------------------------------------------
  // Running the job.

  /** `OutVariables.ToDictionary(v => v, v => null, OrdinalIgnoreCase)`: None when two names are
      equal ignoring case (the call throws). */
  function OutVariableTable(names: seq<string>): Option<Dict<Option<string>>>
    decreases |names|
  {
    if names == [] then Some([])
    else match OutVariableTable(names[..|names| - 1])
      case None => None
      case Some(d) =>
        var n := names[|names| - 1];
        if ContainsKey(OrdinalIgnoreCase, d, n) then None else Some(d + [(n, None)])
  }

  /** The table exists exactly when the names are distinct ignoring case; it then holds every name,
      in order, each with a null value. */
  lemma {:induction false} OutVariableTableSpec(names: seq<string>)
    ensures OutVariableTable(names).Some? <==> DistinctIgnoreCase(names)
    ensures OutVariableTable(names).Some? ==>
              var d := OutVariableTable(names).value;
              && Keys(d) == names && Dictionary.Valid(OrdinalIgnoreCase, d)
              && forall i :: 0 <= i < |d| ==> d[i].1 == None
    decreases |names|
  {
    if names != [] {
      var init := names[..|names| - 1];
      var n := names[|names| - 1];
      OutVariableTableSpec(init);
      assert DistinctIgnoreCase(names) ==> DistinctIgnoreCase(init) by {
        if DistinctIgnoreCase(names) {
          forall i, j | 0 <= i < j < |init| ensures !EqualsIgnoreCase(init[i], init[j]) {
            assert init[i] == names[i] && init[j] == names[j];
          }
        }
      }
      match OutVariableTable(init)
      case None =>
      case Some(d) =>
        assert Keys(d) == init;
        if ContainsKey(OrdinalIgnoreCase, d, n) {
          var k := Find(OrdinalIgnoreCase, d, n).value;
          assert d[k].0 == Keys(d)[k] == names[k];
          assert !DistinctIgnoreCase(names);
        } else {
          var e := d + [(n, None)];
          assert Keys(e) == names;
          forall i, j | 0 <= i < j < |names| ensures !EqualsIgnoreCase(names[i], names[j]) {
            if j == |names| - 1 {
              assert d[i].0 == Keys(d)[i] == names[i];
              KeyEqIsEquivalence(OrdinalIgnoreCase, names[i], n, n);
            } else {
              assert names[i] == init[i] && names[j] == init[j];
            }
          }
          forall i, j | 0 <= i < j < |e| ensures !KeyEq(OrdinalIgnoreCase, e[i].0, e[j].0) {
            assert e[i].0 == Keys(e)[i] == names[i] && e[j].0 == Keys(e)[j] == names[j];
          }
        }
    }
  }

  /** CollectOutput: the outputs that are not null or white space, in order. */
  function Collected(outputs: seq<Option<string>>): seq<Option<string>>
    decreases |outputs|
  {
    if outputs == [] then []
    else
      var last := outputs[|outputs| - 1];
      Collected(outputs[..|outputs| - 1]) + (if IsNullOrWhiteSpace(last) then [] else [last])
  }

  /** Exactly the outputs with visible text are collected. */
  lemma {:induction false} CollectedSpec(outputs: seq<Option<string>>)
    ensures forall o :: o in Collected(outputs) <==> o in outputs && !IsNullOrWhiteSpace(o)
    decreases |outputs|
  {
    if outputs != [] {
      var init := outputs[..|outputs| - 1];
      CollectedSpec(init);
      assert outputs == init + [outputs[|outputs| - 1]];
    }
  }

  /** LogOutput: each output is logged at Information level, a null one as an empty message. */
  function InfoLines(outputs: seq<Option<string>>): (r: seq<LogEvent>)
    ensures |r| == |outputs| && forall i :: 0 <= i < |outputs| ==> r[i] == LogEvent(Information, OrEmpty(outputs[i]))
  {
    seq(|outputs|, i requires 0 <= i < |outputs| => LogEvent(Information, OrEmpty(outputs[i])))
  }

  /** The job's handlers on the runner: each message is logged as it is and, with LogOutput, each
      output at Information (a null one as an empty message). */
  function JobLog(rs: seq<Raised>, logOutput: bool): seq<LogEvent>
    decreases |rs|
  {
    if rs == [] then []
    else
      (match rs[0]
       case Message(e) => [e]
       case Output(o) => if logOutput then [LogEvent(Information, OrEmpty(o))] else []) + JobLog(rs[1..], logOutput)
  }

  /** The outputs among the raised events, in order. */
  function OutputValues(rs: seq<Raised>): seq<Option<string>>
    decreases |rs|
  {
    if rs == [] then []
    else (match rs[0] case Output(o) => [o] case _ => []) + OutputValues(rs[1..])
  }

  lemma {:induction false} JobLogAppend(a: seq<Raised>, b: seq<Raised>, logOutput: bool)
    ensures JobLog(a + b, logOutput) == JobLog(a, logOutput) + JobLog(b, logOutput)
    ensures OutputValues(a + b) == OutputValues(a) + OutputValues(b)
    decreases |a|
  {
    if a == [] {
      assert a + b == b;
    } else {
      assert (a + b)[0] == a[0] && (a + b)[1..] == a[1..] + b;
      JobLogAppend(a[1..], b, logOutput);
    }
  }

  /** Messages reach the job's log unchanged and carry no output. */
  lemma {:induction false} JobLogOfMessages(es: seq<LogEvent>, logOutput: bool)
    ensures JobLog(AsMessages(es), logOutput) == es
    ensures OutputValues(AsMessages(es)) == []
    decreases |es|
  {
    if es != [] {
      assert AsMessages(es)[1..] == AsMessages(es[1..]);
      JobLogOfMessages(es[1..], logOutput);
    }
  }

  /** The outputs the runner raises are the objects the script emits, in order. */
  lemma {:induction false} OutputValuesOfRun(run: seq<Effect>)
    ensures OutputValues(RaisedBy(run)) == Outputs(run)
    decreases |run|
  {
    if run != [] {
      var head := match run[0] case Record(e) => [Message(e)] case Emit(o) => [Output(o)] case _ => [];
      assert RaisedBy(run) == head + RaisedBy(run[1..]);
      JobLogAppend(head, RaisedBy(run[1..]), false);
      OutputValuesOfRun(run[1..]);
    }
  }

  lemma InfoLinesCons(o: Option<string>, rest: seq<Option<string>>)
    ensures InfoLines([o] + rest) == [LogEvent(Information, OrEmpty(o))] + InfoLines(rest)
  {
    var l, r := InfoLines([o] + rest), [LogEvent(Information, OrEmpty(o))] + InfoLines(rest);
    assert |l| == |r|;
    forall i | 0 <= i < |l| ensures l[i] == r[i] {
      if i > 0 {
        assert ([o] + rest)[i] == rest[i - 1];
      }
    }
  }

  /** A script that relays no record logs only its output lines, and only with LogOutput. */
  lemma {:induction false} OutputOnlyJobLog(run: seq<Effect>, logOutput: bool)
    requires forall i :: 0 <= i < |run| ==> !run[i].Record?
    ensures JobLog(RaisedBy(run), logOutput) == if logOutput then InfoLines(Outputs(run)) else []
    decreases |run|
  {
    if run == [] {
      assert InfoLines([]) == [];
    } else {
      assert !run[0].Record?;
      OutputOnlyJobLog(run[1..], logOutput);
      if run[0].Emit? {
        var o := run[0].output;
        assert RaisedBy(run) == [Output(o)] + RaisedBy(run[1..]);
        assert Outputs(run) == [o] + Outputs(run[1..]);
        JobLogAppend([Output(o)], RaisedBy(run[1..]), logOutput);
        InfoLinesCons(o, Outputs(run[1..]));
      } else {
        assert RaisedBy(run) == RaisedBy(run[1..]);
        assert Outputs(run) == Outputs(run[1..]);
      }
    }
  }

  /** What the job sees of a fresh runner's events: the import messages, then the run's own
      messages and output lines, and as output exactly the objects the script emitted. */
  lemma RunnerEventsForJob(vars: Dict<Option<string>>, run: seq<Effect>, logOutput: bool)
    ensures JobLog(AsMessages(ImportMessages(vars)) + RaisedBy(run), logOutput)
            == ImportMessages(vars) + JobLog(RaisedBy(run), logOutput)
    ensures OutputValues(AsMessages(ImportMessages(vars)) + RaisedBy(run)) == Outputs(run)
  {
    JobLogAppend(AsMessages(ImportMessages(vars)), RaisedBy(run), logOutput);
    JobLogOfMessages(ImportMessages(vars), logOutput);
    OutputValuesOfRun(run);
  }

  /** Every record the script relays before a terminating error reaches the job's log, whatever
      the output flags; a Warning record stays a Warning. */
  lemma {:induction false} RecordsReachJobLog(run: seq<Effect>, logOutput: bool, i: nat)
    requires i < |run| && run[i].Record?
    ensures run[i].event in JobLog(RaisedBy(run), logOutput)
    decreases |run|
  {
    if i > 0 {
      RecordsReachJobLog(run[1..], logOutput, i - 1);
      var head := match run[0] case Record(e) => [Message(e)] case Emit(o) => [Output(o)] case _ => [];
      assert RaisedBy(run) == head + RaisedBy(run[1..]);
      JobLogAppend(head, RaisedBy(run[1..]), logOutput);
    } else {
      assert RaisedBy(run) == [Message(run[0].event)] + RaisedBy(run[1..]);
    }
  }

  /** The job object: its serialized properties and the messages it has logged. */
  class Job {
    var scriptText: Option<string>
    var debugLogging: bool
    var verboseLogging: bool
    var collectOutput: bool
    var logOutput: bool
    var variables: Option<Dict<Option<string>>>
    var outVariables: Option<seq<string>>
    var log: seq<LogEvent>

    function Snapshot(): Request
      reads this
    {
      Request(scriptText, debugLogging, verboseLogging, collectOutput, logOutput, variables, outVariables)
    }

    constructor(q: Request)
      ensures Snapshot() == q && log == []
    {
      scriptText, debugLogging, verboseLogging := q.scriptText, q.debugLogging, q.verboseLogging;
      collectOutput, logOutput := q.collectOutput, q.logOutput;
      variables, outVariables := q.variables, q.outVariables;
      log := [];
    }

    method Serialize(w: BinaryWriter)
      requires Serializable(Snapshot())
      modifies w
      ensures w.written == old(w.written) + RequestBytes(Snapshot())
    {
      var q := Snapshot();
      w.WriteString(OrEmpty(scriptText));
      ghost var afterScript := w.written;
      w.WriteBool(debugLogging);
      w.WriteBool(verboseLogging);
      w.WriteBool(collectOutput);
      w.WriteBool(logOutput);
      ghost var afterFlags := w.written;
      WritePairsSection(w, VariablesOrEmpty(q));
      ghost var afterVariables := w.written;
      WriteStringsSection(w, OutVariablesOrEmpty(q));
      RequestLayout(old(w.written), EncString(OrEmpty(scriptText)),
                    EncBool(debugLogging), EncBool(verboseLogging), EncBool(collectOutput), EncBool(logOutput),
                    PairsSection(VariablesOrEmpty(q)), StringsSection(OutVariablesOrEmpty(q)));
    }

    /** Deserialize: the properties are read in order; a failed read is the exception the
        reader throws, after which the job's properties are not described. */
    method Deserialize(r: BinaryReader) returns (ok: bool)
      modifies this`scriptText, this`debugLogging, this`verboseLogging, this`collectOutput, this`logOutput
      modifies this`variables, this`outVariables, r
      ensures ok <==> DecodeRequest(old(r.unread)).Some?
      ensures ok ==> (Snapshot(), r.unread) == DecodeRequest(old(r.unread)).value
    {
      ghost var d0 := r.unread;
      var script := r.ReadString();
      if script.None? {
        return false;
      }
      scriptText := Some(script.value);
      var flags := ReadFlags(r);
      if flags.None? {
        return false;
      }
      debugLogging, verboseLogging, collectOutput, logOutput := flags.value.0, flags.value.1, flags.value.2, flags.value.3;
      assert DecodeRequest(d0) == DecodeAfterFlags(script.value, flags.value, r.unread);
      DecodeAfterFlagsLists(script.value, flags.value, r.unread);
      var lists := ReadLists(r);
      if lists.None? {
        return false;
      }
      variables, outVariables := Some(lists.value.0), Some(lists.value.1);
      return true;
    }

    /** ExecuteAsync: run the script (given as the effects it has) in a fresh runner, forward the
        runner's messages to the job's log, log and/or collect the output as the flags say, and
        return the exit code, the collected output and the out variables. None is an exception:
        the out-variable table could not be built, the script text is null (the runner logs the
        imports, then `AddScript` refuses it), or the script hit a terminating error. */
    method ExecuteAsync(run: seq<Effect>) returns (result: Option<Response>)
      modifies this`log
      ensures Failed(Snapshot()) ==> result.None? && log == old(log)
      ensures !Failed(Snapshot()) && scriptText.None? ==>
                result.None? && log == old(log) + ImportMessages(variables.value)
      ensures !Failed(Snapshot()) && scriptText.Some? ==>
                var vars := variables.value;
                var done := Executed(run);
                && log == old(log) + (ImportMessages(vars) + JobLog(RaisedBy(done), logOutput))
                && (result.None? <==> Terminated(run).Some?)
      ensures !Failed(Snapshot()) && scriptText.Some? && result.Some? ==>
                var final := Perform(Prepared([], variables.value, debugLogging, verboseLogging), run);
                && result.value.exitCode == LastExit(run)
                && result.value.output == (if collectOutput then Collected(Outputs(run)) else [])
                && Keys(result.value.outVariables) == outVariables.value
                && ReadBack(result.value.outVariables, final)
    {
      if outVariables.None? {
        return None;
      }
      var table := OutVariableTable(outVariables.value);
      OutVariableTableSpec(outVariables.value);
      if table.None? || variables.None? {
        return None;
      }
      if scriptText.None? {
        log := log + ImportMessages(variables.value);
        return None;
      }
      result := RunAndForward(variables.value, table.value, run);
    }

    /** The part of ExecuteAsync past the argument checks: run, forward the events, respond. */
    method RunAndForward(vars: Dict<Option<string>>, table: Dict<Option<string>>, run: seq<Effect>)
      returns (result: Option<Response>)
      requires Dictionary.Valid(OrdinalIgnoreCase, table)
      modifies this`log
      ensures log == old(log) + (ImportMessages(vars) + JobLog(RaisedBy(Executed(run)), logOutput))
      ensures result.None? <==> Terminated(run).Some?
      ensures result.Some? ==>
                var final := Perform(Prepared([], vars, debugLogging, verboseLogging), run);
                && result.value.exitCode == LastExit(run)
                && result.value.output == (if collectOutput then Collected(Outputs(run)) else [])
                && Keys(result.value.outVariables) == Keys(table)
                && ReadBack(result.value.outVariables, final)
    {
      var exitCode, outValues, raised, threw :=
        RunInFreshRunner(debugLogging, verboseLogging, vars, table, run);
      RunnerEventsForJob(vars, Executed(run), logOutput);
      var forwarded := JobLog(raised, logOutput);
      assert forwarded == ImportMessages(vars) + JobLog(RaisedBy(Executed(run)), logOutput);
      if threw.None? {
        CompleteRun(run);
        var outputs := OutputValues(raised);
        assert outputs == Outputs(run);
        var outputData := if collectOutput then Collected(outputs) else [];
        result := Some(Response(exitCode, outputData, outValues));
      } else {
        result := None;
      }
      log := log + forwarded;
    }
  }

  /** The `using` block of ExecuteAsync: a new runner runs the script once and is disposed; the
      results are its exit code, the out variables it read back, the events it raised in order,
      and the terminating error, if the script hit one. */
  method RunInFreshRunner(debugLogging: bool, verboseLogging: bool, variables: Dict<Option<string>>,
                          outVariables: Dict<Option<string>>, run: seq<Effect>)
    returns (exitCode: Option<int>, outValues: Dict<Option<string>>, raised: seq<Raised>,
             threw: Option<string>)
    requires Dictionary.Valid(OrdinalIgnoreCase, outVariables)
    ensures raised == AsMessages(ImportMessages(variables)) + RaisedBy(Executed(run))
    ensures threw == Terminated(run)
    ensures threw.None? ==> exitCode == LastExit(run)
    ensures Keys(outValues) == Keys(outVariables)
    ensures threw.None? ==> ReadBack(outValues, Perform(Prepared([], variables, debugLogging, verboseLogging), run))
  {
    var runner := new Runner(debugLogging, verboseLogging);
    exitCode, outValues, threw := runner.RunAsync(variables, outVariables, run);
    CompleteRun(run);
    assert runner.raised == [] + AsMessages(ImportMessages(variables)) + RaisedBy(Executed(run));
    raised := runner.raised;
    runner.Dispose();
  }

  /** The variables and then the out variable names of a request. */
  method ReadLists(r: BinaryReader) returns (lists: Option<(Dict<Option<string>>, seq<string>)>)
    modifies r
    ensures lists.Some? <==> DecodeAfterFlags("", (false, false, false, false), old(r.unread)).Some?
    ensures lists.Some? ==>
              var (q, rest) := DecodeAfterFlags("", (false, false, false, false), old(r.unread)).value;
              lists.value == (q.variables.value, q.outVariables.value) && r.unread == rest
  {
    var vars := ReadVariables(r, Ordinal);
    if vars.None? {
      return None;
    }
    var names := ReadStringList(r);
    if names.None? {
      return None;
    }
    return Some((vars.value, names.value));
  }

  /** The script text and flags do not affect how the lists are read. */
  lemma DecodeAfterFlagsLists(script: string, flags: (bool, bool, bool, bool), data: seq<byte>)
    ensures DecodeAfterFlags(script, flags, data).Some? <==> DecodeAfterFlags("", (false, false, false, false), data).Some?
    ensures DecodeAfterFlags(script, flags, data).Some? ==>
              var (q, rest) := DecodeAfterFlags(script, flags, data).value;
              var (q', rest') := DecodeAfterFlags("", (false, false, false, false), data).value;
              q.variables == q'.variables && q.outVariables == q'.outVariables && rest == rest'
  {
  }

  /** The job cannot run: a null name list, two names equal ignoring case, or null variables. */
  predicate Failed(q: Request) {
    q.outVariables.None? || !DistinctIgnoreCase(q.outVariables.value) || q.variables.None?
  }

  lemma RequestLayout(o: seq<byte>, s: seq<byte>, a: seq<byte>, b: seq<byte>, c: seq<byte>, e: seq<byte>,
                      p: seq<byte>, n: seq<byte>)
    ensures o + s + a + b + c + e + p + n == o + (s + ((a + b + c + e) + (p + n)))
  {
  }
}

=== FILE: ps_runner.dfy ===
/** PowerShell.PowerShellScriptRunner: which names in a script are variables, which of them are
    legal, and running a script in a lazily created runspace. The PowerShell engine is outside the
    model: the tokenizer's output is an input, and what an invocation does to the session is a
    list of effects. */
module PowerShellRunner {
  import opened Text
  import opened Dictionary
  import opened Logging
  import opened PSTokens

  // ---------------------------------------------------------------------------------------
  // Legal variable names.

  predicate IsLegalBasicVariableCharacter(c: char) {
    IsLetterOrDigit(c) || c == '_'
  }

  predicate IsLegalExpandedVariableCharacter(c: char) {
    IsLegalBasicVariableCharacter(c) || c == '-' || c == '.' || c == ' '
  }

  /** IsLegalVariableName, check by check. */
  predicate IsLegalVariableName(s: Option<string>) {
    if IsNullOrWhiteSpace(s) then false
    else if |s.value| > 50 then false
    else if IsWhiteSpace(s.value[0]) || IsWhiteSpace(s.value[|s.value| - 1]) then false
    else forall i :: 0 <= i < |s.value| ==> IsLegalExpandedVariableCharacter(s.value[i])
  }

  lemma BasicIsExpanded(c: char)
    ensures IsLegalBasicVariableCharacter(c) ==> IsLegalExpandedVariableCharacter(c)
  {
  }

  /** The only white-space character a legal name may hold is the space. */
  lemma ExpandedWhiteSpaceIsSpace(c: char)
    ensures IsLegalExpandedVariableCharacter(c) && IsWhiteSpace(c) <==> c == ' '
  {
  }

  /** A name is legal exactly when it is 1 to 50 legal characters that neither begin nor end with
      a space: the null and white-space checks are subsumed by the others. */
  lemma LegalVariableNameIff(s: Option<string>)
    ensures IsLegalVariableName(s) <==>
      && s.Some? && 1 <= |s.value| <= 50
      && s.value[0] != ' ' && s.value[|s.value| - 1] != ' '
      && forall i :: 0 <= i < |s.value| ==> IsLegalExpandedVariableCharacter(s.value[i])
  {
    if s.Some? && 1 <= |s.value| && IsLegalExpandedVariableCharacter(s.value[0]) {
      ExpandedWhiteSpaceIsSpace(s.value[0]);
      ExpandedWhiteSpaceIsSpace(s.value[|s.value| - 1]);
    }
  }

  /** A legal name holds none of the characters that delimit a variable in a string. */
  lemma LegalNameHasNoDelimiters(name: string)
    requires IsLegalVariableName(Some(name))
    ensures '$' !in name && '{' !in name && '}' !in name
  {
  }

  // ---------------------------------------------------------------------------------------
  // The variable expression `(?>\$(?<1>[a-zA-Z0-9_]+)|\${(?<2>[^}]+)})` applied to a string.

  predicate IsWordChar(c: char) {
    ('a' <= c <= 'z') || ('A' <= c <= 'Z') || ('0' <= c <= '9') || c == '_'
  }

  /** The end of the longest run of [a-zA-Z0-9_] starting at p. */
  function WordRunEnd(s: string, p: nat): (q: nat)
    requires p <= |s|
    ensures p <= q <= |s| && (q == |s| || !IsWordChar(s[q]))
    ensures forall k :: p <= k < q ==> IsWordChar(s[k])
    decreases |s| - p
  {
    if p < |s| && IsWordChar(s[p]) then WordRunEnd(s, p + 1) else p
  }

  /** The first `}` at or after p. */
  function CloseBrace(s: string, p: nat): (r: Option<nat>)
    requires p <= |s|
    ensures r.Some? ==> p <= r.value < |s| && s[r.value] == '}'
    ensures r.Some? ==> forall k :: p <= k < r.value ==> s[k] != '}'
    ensures r.None? ==> forall k :: p <= k < |s| ==> s[k] != '}'
    decreases |s| - p
  {
    if p == |s| then None else if s[p] == '}' then Some(p) else CloseBrace(s, p + 1)
  }

  lemma CloseBraceFirst(s: string, p: nat, e: nat)
    requires p <= e < |s| && s[e] == '}'
    requires forall k :: p <= k < e ==> s[k] != '}'
    ensures CloseBrace(s, p) == Some(e)
  {
  }

  /** The match the expression finds at p, if any: the captured name and where the match ends. */
  function VariableAt(s: string, p: nat): (r: Option<(string, nat)>)
    requires p <= |s|
    ensures r.Some? ==> p < r.value.1 <= |s| && |r.value.0| > 0
  {
    if p < |s| && s[p] == '$' then
      var q := WordRunEnd(s, p + 1);
      if q > p + 1 then Some((s[p + 1..q], q))
      else if p + 1 < |s| && s[p + 1] == '{' then
        match CloseBrace(s, p + 2)
        case Some(e) => if e > p + 2 then Some((s[p + 2..e], e + 1)) else None
        case None => None
      else None
    else None
  }

  /** Regex.Matches from p: tried left to right, resuming after each match. */
  function VariableMatches(s: string, p: nat): seq<string>
    requires p <= |s|
    decreases |s| - p
  {
    if p == |s| then []
    else match VariableAt(s, p)
      case Some((name, e)) => [name] + VariableMatches(s, e)
      case None => VariableMatches(s, p + 1)
  }

  /** The lookup expression `${name}` of a legal name is itself read back as exactly that name. */
  lemma BracedNameMatches(name: string)
    requires IsLegalVariableName(Some(name))
    ensures VariableMatches("${" + name + "}", 0) == [name]
  {
    var s := "${" + name + "}";
    LegalNameHasNoDelimiters(name);
    assert WordRunEnd(s, 1) == 1;
    forall k | 2 <= k < |s| - 1 ensures s[k] != '}' {
      assert s[k] == name[k - 2] && name[k - 2] in name;
    }
    CloseBraceFirst(s, 2, |s| - 1);
    assert s[2..|s| - 1] == name;
    assert VariableAt(s, 0) == Some((name, |s|));
  }

  // ---------------------------------------------------------------------------------------
  // A HashSet<string> with the OrdinalIgnoreCase comparer, in insertion order.

  predicate ContainsIgnoreCase(xs: seq<string>, x: string) {
    exists i :: 0 <= i < |xs| && EqualsIgnoreCase(xs[i], x)
  }

  predicate DistinctIgnoreCase(xs: seq<string>) {
    forall i, j :: 0 <= i < j < |xs| ==> !EqualsIgnoreCase(xs[i], xs[j])
  }

  /** HashSet.Add: an element equal to one already present is not added. */
  function HashSetAdd(xs: seq<string>, x: string): seq<string> {
    if ContainsIgnoreCase(xs, x) then xs else xs + [x]
  }

  function AddAll(xs: seq<string>, ys: seq<string>): seq<string>
    decreases |ys|
  {
    if ys == [] then xs else AddAll(HashSetAdd(xs, ys[0]), ys[1..])
  }

  lemma {:induction false} AddAllAppend(xs: seq<string>, ys: seq<string>, y: string)
    ensures AddAll(xs, ys + [y]) == HashSetAdd(AddAll(xs, ys), y)
    decreases |ys|
  {
    if ys != [] {
      assert (ys + [y])[1..] == ys[1..] + [y];
      AddAllAppend(HashSetAdd(xs, ys[0]), ys[1..], y);
    }
  }

  lemma HashSetAddSpec(xs: seq<string>, x: string)
    requires DistinctIgnoreCase(xs)
    ensures DistinctIgnoreCase(HashSetAdd(xs, x))
    ensures forall y :: ContainsIgnoreCase(HashSetAdd(xs, x), y) <==>
      ContainsIgnoreCase(xs, y) || EqualsIgnoreCase(x, y)
    ensures forall y :: y in HashSetAdd(xs, x) ==> y in xs || y == x
  {
    var r := HashSetAdd(xs, x);
    forall y ensures ContainsIgnoreCase(r, y) <==> ContainsIgnoreCase(xs, y) || EqualsIgnoreCase(x, y) {
      if ContainsIgnoreCase(r, y) {
        var i :| 0 <= i < |r| && EqualsIgnoreCase(r[i], y);
        if i >= |xs| {
          assert r[i] == x;
        }
      }
      if EqualsIgnoreCase(x, y) && !ContainsIgnoreCase(xs, x) {
        assert r[|xs|] == x;
      }
      if EqualsIgnoreCase(x, y) && ContainsIgnoreCase(xs, x) {
        var i :| 0 <= i < |xs| && EqualsIgnoreCase(xs[i], x);
      }
      if ContainsIgnoreCase(xs, y) {
        var i :| 0 <= i < |xs| && EqualsIgnoreCase(xs[i], y);
        assert r[i] == xs[i];
      }
    }
  }

  /** Adding elements one by one keeps them distinct, ignoring case, and the set holds exactly
      what was there and what was added; each element keeps the spelling it was first added in. */
  lemma {:induction false} AddAllSpec(xs: seq<string>, ys: seq<string>)
    requires DistinctIgnoreCase(xs)
    ensures DistinctIgnoreCase(AddAll(xs, ys))
    ensures forall y :: ContainsIgnoreCase(AddAll(xs, ys), y) <==>
      ContainsIgnoreCase(xs, y) || ContainsIgnoreCase(ys, y)
    ensures forall y :: y in AddAll(xs, ys) ==> y in xs || y in ys
    decreases |ys|
  {
    if ys != [] {
      HashSetAddSpec(xs, ys[0]);
      AddAllSpec(HashSetAdd(xs, ys[0]), ys[1..]);
      forall y ensures ContainsIgnoreCase(ys, y) <==> EqualsIgnoreCase(ys[0], y) || ContainsIgnoreCase(ys[1..], y) {
        if ContainsIgnoreCase(ys, y) {
          var i :| 0 <= i < |ys| && EqualsIgnoreCase(ys[i], y);
          if i > 0 {
            assert ys[1..][i - 1] == ys[i];
          }
        }
        if ContainsIgnoreCase(ys[1..], y) {
          var i :| 0 <= i < |ys[1..]| && EqualsIgnoreCase(ys[1..][i], y);
          assert ys[i + 1] == ys[1..][i];
        }
      }
      forall y | y in ys[1..] ensures y in ys { }
    }
  }

  // ---------------------------------------------------------------------------------------
  // ExtractVariablesInternal and ExtractVariables.

  /** The contents of the Variable tokens, in order. */
  function VariableTokenNames(ts: seq<Token>): seq<string>
    decreases |ts|
  {
    if ts == [] then []
    else
      var last := ts[|ts| - 1];
      VariableTokenNames(ts[..|ts| - 1]) + (if last.kind == Variable then [last.content] else [])
  }

  /** The names the variable expression captures in the String tokens, in order. */
  function StringTokenNames(ts: seq<Token>): seq<string>
    decreases |ts|
  {
    if ts == [] then []
    else
      var last := ts[|ts| - 1];
      StringTokenNames(ts[..|ts| - 1]) + (if last.kind == String then VariableMatches(last.content, 0) else [])
  }

  /** Every name the script mentions, in the order the set is filled. */
  function Mentioned(ts: seq<Token>): seq<string> {
    VariableTokenNames(ts) + StringTokenNames(ts)
  }

  method ExtractVariablesInternal(tokens: Option<seq<Token>>) returns (vars: seq<string>)
    ensures tokens.None? ==> vars == []
    ensures tokens.Some? ==> vars == AddAll([], Mentioned(tokens.value))
  {
    if tokens.None? {
      return [];
    }
    var ts := tokens.value;
    vars := [];
    for i := 0 to |ts|
      invariant vars == AddAll([], VariableTokenNames(ts[..i]))
    {
      VariableTokenNamesStep(ts, i);
      if ts[i].kind == Variable {
        AddAllAppend([], VariableTokenNames(ts[..i]), ts[i].content);
        vars := HashSetAdd(vars, ts[i].content);
      }
    }
    assert ts[..|ts|] == ts;
    ghost var fromVariables := vars;
    for i := 0 to |ts|
      invariant vars == AddAll(fromVariables, StringTokenNames(ts[..i]))
    {
      StringTokenNamesStep(fromVariables, ts, i);
      if ts[i].kind == String {
        vars := AddEach(vars, VariableMatches(ts[i].content, 0));
      }
    }
    assert ts[..|ts|] == ts;
    AddAllConcat([], VariableTokenNames(ts), StringTokenNames(ts));
  }

  lemma VariableTokenNamesStep(ts: seq<Token>, i: nat)
    requires i < |ts|
    ensures VariableTokenNames(ts[..i + 1]) ==
      VariableTokenNames(ts[..i]) + (if ts[i].kind == Variable then [ts[i].content] else [])
    ensures ts[i].kind != Variable ==> VariableTokenNames(ts[..i + 1]) == VariableTokenNames(ts[..i])
  {
    assert ts[..i + 1][..i] == ts[..i];
  }

  lemma StringTokenNamesStep(xs: seq<string>, ts: seq<Token>, i: nat)
    requires i < |ts|
    ensures ts[i].kind == String ==>
              AddAll(xs, StringTokenNames(ts[..i + 1])) ==
              AddAll(AddAll(xs, StringTokenNames(ts[..i])), VariableMatches(ts[i].content, 0))
    ensures ts[i].kind != String ==> StringTokenNames(ts[..i + 1]) == StringTokenNames(ts[..i])
  {
    assert ts[..i + 1][..i] == ts[..i];
    if ts[i].kind == String {
      AddAllConcat(xs, StringTokenNames(ts[..i]), VariableMatches(ts[i].content, 0));
    }
  }

  /** Adding each element of `items` in turn, as a foreach over the matches does. */
  method AddEach(xs: seq<string>, items: seq<string>) returns (r: seq<string>)
    ensures r == AddAll(xs, items)
  {
    r := xs;
    for j := 0 to |items|
      invariant r == AddAll(xs, items[..j])
    {
      assert items[..j + 1] == items[..j] + [items[j]];
      AddAllAppend(xs, items[..j], items[j]);
      r := HashSetAdd(r, items[j]);
    }
    assert items[..|items|] == items;
  }

  lemma {:induction false} AddAllConcat(xs: seq<string>, ys: seq<string>, zs: seq<string>)
    ensures AddAll(xs, ys + zs) == AddAll(AddAll(xs, ys), zs)
    decreases |ys|
  {
    if ys == [] {
      assert ys + zs == zs;
    } else {
      assert (ys + zs)[1..] == ys[1..] + zs;
      AddAllConcat(HashSetAdd(xs, ys[0]), ys[1..], zs);
    }
  }

  /** The extracted names are distinct ignoring case, and a name is among them (in some spelling)
      exactly when a Variable token or a string's variable expression mentions it. */
  lemma ExtractedNamesSpec(ts: seq<Token>)
    ensures DistinctIgnoreCase(AddAll([], Mentioned(ts)))
    ensures forall y :: ContainsIgnoreCase(AddAll([], Mentioned(ts)), y) <==>
      ContainsIgnoreCase(Mentioned(ts), y)
    ensures forall y :: y in AddAll([], Mentioned(ts)) ==> y in Mentioned(ts)
  {
    AddAllSpec([], Mentioned(ts));
  }

  /** `${name}`: the expression ExtractVariables asks the execution context to evaluate. */
  function Braced(name: string): string {
    "${" + name + "}"
  }

  /** The names kept by ExtractVariables, with the values the context gives for them. */
  function Lookups(vars: seq<string>, lookup: string -> Option<string>): (d: Dict<string>)
    ensures forall i :: 0 <= i < |d| ==> d[i].0 in vars
    decreases |vars|
  {
    if vars == [] then []
    else
      var v := vars[|vars| - 1];
      var earlier := Lookups(vars[..|vars| - 1], lookup);
      assert forall i :: 0 <= i < |earlier| ==> earlier[i].0 in vars;
      if IsLegalVariableName(Some(v)) && lookup(Braced(v)).Some? then earlier + [(v, lookup(Braced(v)).value)]
      else earlier
  }

  /** ExtractVariables: the legal extracted names whose lookup gives a value. */
  method ExtractVariables(tokens: Option<seq<Token>>, lookup: string -> Option<string>)
    returns (results: Dict<string>)
    ensures tokens.None? ==> results == []
    ensures tokens.Some? ==> results == Lookups(AddAll([], Mentioned(tokens.value)), lookup)
  {
    var vars := ExtractVariablesInternal(tokens);
    ghost var distinct := tokens.None? || DistinctIgnoreCase(vars);
    if tokens.Some? {
      ExtractedNamesSpec(tokens.value);
    }
    results := [];
    for i := 0 to |vars|
      invariant results == Lookups(vars[..i], lookup)
    {
      assert vars[..i + 1][..i] == vars[..i];
      if IsLegalVariableName(Some(vars[i])) {
        var value := lookup(Braced(vars[i]));
        if value.Some? {
          assert Find(Ordinal, results, vars[i]).None? by {
            forall j | 0 <= j < |results| ensures results[j].0 != vars[i] {
              assert results[j].0 in vars[..i];
              var k :| 0 <= k < i && vars[k] == results[j].0;
            }
          }
          results := Put(Ordinal, results, vars[i], value.value);
        }
      }
    }
    assert vars[..|vars|] == vars;
  }

  lemma DistinctFront(vars: seq<string>)
    requires vars != [] && DistinctIgnoreCase(vars)
    ensures DistinctIgnoreCase(vars[..|vars| - 1])
    ensures vars[|vars| - 1] !in vars[..|vars| - 1]
  {
    var pre := vars[..|vars| - 1];
    forall j | 0 <= j < |pre| ensures pre[j] != vars[|vars| - 1] {
      assert !EqualsIgnoreCase(vars[j], vars[|vars| - 1]);
    }
  }

  lemma {:induction false} LookupsValid(vars: seq<string>, lookup: string -> Option<string>)
    requires DistinctIgnoreCase(vars)
    ensures Valid(Ordinal, Lookups(vars, lookup))
    decreases |vars|
  {
    if vars != [] {
      var pre := vars[..|vars| - 1];
      DistinctFront(vars);
      LookupsValid(pre, lookup);
      var d := Lookups(pre, lookup);
      var r := Lookups(vars, lookup);
      forall i, j | 0 <= i < j < |r| ensures !KeyEq(Ordinal, r[i].0, r[j].0) {
        if j == |d| {
          assert r[i] == d[i] && d[i].0 in pre;
        } else {
          assert r[i] == d[i] && r[j] == d[j];
        }
      }
    }
  }

  lemma {:induction false} LookupsKeys(vars: seq<string>, lookup: string -> Option<string>)
    ensures forall k :: ContainsKey(Ordinal, Lookups(vars, lookup), k) <==>
      k in vars && IsLegalVariableName(Some(k)) && lookup(Braced(k)).Some?
    decreases |vars|
  {
    if vars != [] {
      var pre := vars[..|vars| - 1];
      var v := vars[|vars| - 1];
      LookupsKeys(pre, lookup);
      var d := Lookups(pre, lookup);
      forall k ensures ContainsKey(Ordinal, Lookups(vars, lookup), k) <==>
        k in vars && IsLegalVariableName(Some(k)) && lookup(Braced(k)).Some?
      {
        assert k in vars <==> k in pre || k == v;
        if IsLegalVariableName(Some(v)) && lookup(Braced(v)).Some? {
          FindAppend(Ordinal, d, v, lookup(Braced(v)).value, k);
        }
      }
    }
  }

  lemma {:induction false} LookupsValues(vars: seq<string>, lookup: string -> Option<string>)
    ensures forall i :: 0 <= i < |Lookups(vars, lookup)| ==>
      lookup(Braced(Lookups(vars, lookup)[i].0)) == Some(Lookups(vars, lookup)[i].1)
    decreases |vars|
  {
    if vars != [] {
      LookupsValues(vars[..|vars| - 1], lookup);
    }
  }

  /** The result maps each kept name to its looked-up value, keeps exactly the legal names that
      have a value, and has no repeated key. */
  lemma LookupsSpec(vars: seq<string>, lookup: string -> Option<string>)
    requires DistinctIgnoreCase(vars)
    ensures Valid(Ordinal, Lookups(vars, lookup))
    ensures forall k :: ContainsKey(Ordinal, Lookups(vars, lookup), k) <==>
      k in vars && IsLegalVariableName(Some(k)) && lookup(Braced(k)).Some?
    ensures forall i :: 0 <= i < |Lookups(vars, lookup)| ==>
      lookup(Braced(Lookups(vars, lookup)[i].0)) == Some(Lookups(vars, lookup)[i].1)
  {
    LookupsValid(vars, lookup);
    LookupsKeys(vars, lookup);
    LookupsValues(vars, lookup);
  }

  // ---------------------------------------------------------------------------------------
  // Running a script.

  /** What an invocation of the script does, in order. */
  datatype Effect =
    | Assign(name: string, value: Option<string>)  // a session variable is set
    | RequestExit(code: int)                       // the host is asked to exit with a code
    | Emit(output: Option<string>)                 // an object reaches the output, as its text
    | Record(event: LogEvent)                      // a stream record or a host write, relayed as a log message
    | Terminate(message: string)                   // a terminating error: Invoke throws

  /** What the runner raises, in order: a MessageLogged or an OutputReceived event. */
  datatype Raised = Message(event: LogEvent) | Output(value: Option<string>)

  /** The effects that happen: those before the first terminating error. */
  function Executed(run: seq<Effect>): (r: seq<Effect>)
    ensures |r| <= |run| && r == run[..|r|]
    ensures forall i :: 0 <= i < |r| ==> !r[i].Terminate?
    decreases |run|
  {
    if run == [] || run[0].Terminate? then [] else [run[0]] + Executed(run[1..])
  }

  /** The message of the first terminating error, if any. */
  function Terminated(run: seq<Effect>): Option<string>
    decreases |run|
  {
    if run == [] then None
    else if run[0].Terminate? then Some(run[0].message)
    else Terminated(run[1..])
  }

  /** A run without a terminating error happens in full. */
  lemma {:induction false} CompleteRun(run: seq<Effect>)
    ensures Terminated(run).None? ==> Executed(run) == run
    decreases |run|
  {
    if run != [] && !run[0].Terminate? {
      CompleteRun(run[1..]);
      assert run == [run[0]] + run[1..];
    }
  }

  /** A run stops exactly at its first terminating error: the effects before it happen and
      nothing after it does; a run without one happens in full. */
  lemma {:induction false} ExecutedStopsAtTerminate(run: seq<Effect>)
    ensures Terminated(run).None? <==> forall i :: 0 <= i < |run| ==> !run[i].Terminate?
    ensures Terminated(run).Some? ==>
              var k := |Executed(run)|;
              k < |run| && run[k] == Terminate(Terminated(run).value)
    decreases |run|
  {
    if run != [] && !run[0].Terminate? {
      ExecutedStopsAtTerminate(run[1..]);
    }
  }

  /** The events the effects raise, in order: a relayed record as a message, an output object as
      an output. */
  function RaisedBy(run: seq<Effect>): seq<Raised>
    decreases |run|
  {
    if run == [] then []
    else
      (match run[0]
       case Record(e) => [Message(e)]
       case Emit(o) => [Output(o)]
       case _ => []) + RaisedBy(run[1..])
  }

  /** Log messages as raised events. */
  function AsMessages(es: seq<LogEvent>): (rs: seq<Raised>)
    ensures |rs| == |es| && forall i :: 0 <= i < |es| ==> rs[i] == Message(es[i])
  {
    seq(|es|, i requires 0 <= i < |es| => Message(es[i]))
  }

  type Session = Dict<Option<string>>

  /** PowerShell variables are looked up ignoring case. */
  function SetVariable(session: Session, name: string, value: Option<string>): Session {
    Put(OrdinalIgnoreCase, session, name, value)
  }

  /** Every out variable holds what the session's variable of that name holds. */
  predicate ReadBack(outValues: Dict<Option<string>>, session: Session) {
    forall i :: 0 <= i < |outValues| ==> outValues[i].1 == GetVariable(session, outValues[i].0)
  }

  /** GetVariable(name)?.ToString(): null when the variable is missing or null. */
  function GetVariable(session: Session, name: string): Option<string> {
    match Get(OrdinalIgnoreCase, session, name)
    case None => None
    case Some(v) => v
  }

  function Perform(session: Session, run: seq<Effect>): Session
    decreases |run|
  {
    if run == [] then session
    else match run[0]
      case Assign(n, v) => Perform(SetVariable(session, n, v), run[1..])
      case _ => Perform(session, run[1..])
  }

  /** The code of the last exit request: the ShouldExit handler overwrites the local each time. */
  function LastExit(run: seq<Effect>): Option<int>
    decreases |run|
  {
    if run == [] then None
    else
      var later := LastExit(run[1..]);
      if later.Some? then later
      else match run[0]
        case RequestExit(c) => Some(c)
        case _ => None
  }

  function Outputs(run: seq<Effect>): seq<Option<string>>
    decreases |run|
  {
    if run == [] then []
    else (match run[0] case Emit(o) => [o] case _ => []) + Outputs(run[1..])
  }

  function ImportMessage(key: string, value: Option<string>): LogEvent {
    LogEvent(Debug, "Importing " + key + "=" + OrEmpty(value))
  }

  function ImportMessages(variables: Dict<Option<string>>): (ms: seq<LogEvent>)
    ensures |ms| == |variables|
    ensures forall i :: 0 <= i < |variables| ==> ms[i] == ImportMessage(variables[i].0, variables[i].1)
    decreases |variables|
  {
    if variables == [] then []
    else
      var last := variables[|variables| - 1];
      ImportMessages(variables[..|variables| - 1]) + [ImportMessage(last.0, last.1)]
  }

  /** The session after the supplied variables and the preference variables are set. */
  function Prepared(session: Session, variables: Dict<Option<string>>, debugLogging: bool,
                    verboseLogging: bool): Session
  {
    var s1 := PutAll(OrdinalIgnoreCase, session, variables);
    var s2 := if debugLogging then SetVariable(s1, "DebugPreference", Some("Continue")) else s1;
    if verboseLogging then SetVariable(s2, "VerbosePreference", Some("Continue")) else s2
  }

  /** The loop of RunAsync over the supplied variables: log each one, then set it. */
  method ImportVariables(session: Session, variables: Dict<Option<string>>)
    returns (imported: Session, logged: seq<LogEvent>)
    ensures imported == PutAll(OrdinalIgnoreCase, session, variables)
    ensures logged == ImportMessages(variables)
  {
    imported, logged := session, [];
    for i := 0 to |variables|
      invariant imported == PutAll(OrdinalIgnoreCase, session, variables[..i])
      invariant logged == ImportMessages(variables[..i])
    {
      TakeStep(variables, i);
      logged := logged + [ImportMessage(variables[i].0, variables[i].1)];
      PutAllAppend(OrdinalIgnoreCase, session, variables[..i], variables[i]);
      imported := SetVariable(imported, variables[i].0, variables[i].1);
    }
    assert variables[..|variables|] == variables;
  }

  class Runner {
    var debugLogging: bool
    var verboseLogging: bool
    /** Whether the lazy runspace has been created (Lazy.IsValueCreated). */
    var runspaceCreated: bool
    var runspaceClosed: bool
    var disposed: bool
    /** How many times the runspace has been closed. */
    var closeCount: nat
    var session: Session
    /** Handlers attached to the host's ShouldExit event. */
    var shouldExitHandlers: nat
    /** The MessageLogged and OutputReceived events raised so far, in order. */
    var raised: seq<Raised>

    predicate Valid()
      reads this
    {
      && (disposed ==> runspaceCreated && runspaceClosed)
      && (runspaceClosed <==> disposed)
      && closeCount == (if disposed then 1 else 0)
      && (!runspaceCreated ==> session == [])
      && Dictionary.Valid(OrdinalIgnoreCase, session)
    }

    constructor(debugLogging: bool, verboseLogging: bool)
      ensures Valid() && !runspaceCreated && !disposed
      ensures this.debugLogging == debugLogging && this.verboseLogging == verboseLogging
      ensures session == [] && raised == [] && shouldExitHandlers == 0
    {
      this.debugLogging := debugLogging;
      this.verboseLogging := verboseLogging;
      runspaceCreated, runspaceClosed, disposed := false, false, false;
      closeCount := 0;
      session := [];
      shouldExitHandlers := 0;
      raised := [];
    }

    /** RunAsync: import the variables, invoke, then read back every out variable. A terminating
        error makes Invoke throw (`threw`): what the script did before it stays done, and no out
        variable is read back. */
    method RunAsync(variables: Dict<Option<string>>, outVariables: Dict<Option<string>>,
                    run: seq<Effect>)
      returns (exitCode: Option<int>, outValues: Dict<Option<string>>, threw: Option<string>)
      requires Valid() && !disposed
      requires Dictionary.Valid(OrdinalIgnoreCase, outVariables)
      modifies this
      ensures Valid() && runspaceCreated && !disposed
      ensures debugLogging == old(debugLogging) && verboseLogging == old(verboseLogging)
      ensures session == Perform(Prepared(old(session), variables, debugLogging, verboseLogging), Executed(run))
      ensures raised == old(raised) + AsMessages(ImportMessages(variables)) + RaisedBy(Executed(run))
      ensures shouldExitHandlers == old(shouldExitHandlers)
      ensures threw == Terminated(run)
      ensures threw.Some? ==> outValues == outVariables
      ensures threw.None? ==> exitCode == LastExit(run)
      ensures Keys(outValues) == Keys(outVariables)
      ensures threw.None? ==> ReadBack(outValues, session)
    {
      runspaceCreated := true;
      Prepare(variables);
      exitCode, threw := Invoke(run);
      if threw.Some? {
        return exitCode, outVariables, threw;
      }
      outValues := ReadOutVariables(session, outVariables);
    }

    /** The invocation: a ShouldExit handler is attached for its duration (detached in `finally`)
        and records each exit request; the engine applies the script's effects, relays its records
        and raises its output, until a terminating error makes it throw. */
    method Invoke(run: seq<Effect>) returns (exitCode: Option<int>, threw: Option<string>)
      requires Dictionary.Valid(OrdinalIgnoreCase, session)
      modifies this`session, this`raised, this`shouldExitHandlers
      ensures Dictionary.Valid(OrdinalIgnoreCase, session)
      ensures session == Perform(old(session), Executed(run))
      ensures raised == old(raised) + RaisedBy(Executed(run))
      ensures shouldExitHandlers == old(shouldExitHandlers)
      ensures threw == Terminated(run)
      ensures threw.None? ==> exitCode == LastExit(run)
    {
      exitCode := None;
      shouldExitHandlers := shouldExitHandlers + 1;
      var done := Executed(run);
      PerformValid(session, done);
      session := Perform(session, done);
      raised := raised + RaisedBy(done);
      threw := Terminated(run);
      CompleteRun(run);
      exitCode := LastExit(done);
      shouldExitHandlers := shouldExitHandlers - 1;
    }

    /** The first half of RunAsync: log and set each supplied variable in order, then the
        preference variables the logging flags ask for. */
    method Prepare(variables: Dict<Option<string>>)
      requires Dictionary.Valid(OrdinalIgnoreCase, session)
      modifies this`session, this`raised
      ensures Dictionary.Valid(OrdinalIgnoreCase, session)
      ensures session == Prepared(old(session), variables, debugLogging, verboseLogging)
      ensures raised == old(raised) + AsMessages(ImportMessages(variables))
    {
      var imported, logged := ImportVariables(session, variables);
      PutAllValid(OrdinalIgnoreCase, session, variables);
      session := imported;
      raised := raised + AsMessages(logged);
      if debugLogging {
        PutSpec(OrdinalIgnoreCase, session, "DebugPreference", Some("Continue"));
        session := SetVariable(session, "DebugPreference", Some("Continue"));
      }
      if verboseLogging {
        PutSpec(OrdinalIgnoreCase, session, "VerbosePreference", Some("Continue"));
        session := SetVariable(session, "VerbosePreference", Some("Continue"));
      }
    }

    /** Dispose: close the runspace once, and only if it was ever created. */
    method Dispose()
      requires Valid()
      modifies this
      ensures Valid()
      ensures old(!disposed && runspaceCreated) ==> disposed && runspaceClosed && closeCount == 1
      ensures !old(!disposed && runspaceCreated) ==> unchanged(this)
      ensures session == old(session) && raised == old(raised)
    {
      if !disposed && runspaceCreated {
        runspaceClosed := true;
        closeCount := closeCount + 1;
        disposed := true;
      }
    }
  }

  /** The read-back loop of RunAsync: every out variable gets the session's value; no key is
      added or removed. */
  method ReadOutVariables(session: Session, outVariables: Dict<Option<string>>)
    returns (outValues: Dict<Option<string>>)
    requires Dictionary.Valid(OrdinalIgnoreCase, outVariables)
    ensures Keys(outValues) == Keys(outVariables)
    ensures ReadBack(outValues, session)
  {
    outValues := outVariables;
    for i := 0 to |outVariables|
      invariant Keys(outValues) == Keys(outVariables)
      invariant forall j :: 0 <= j < i ==> outValues[j].1 == GetVariable(session, outValues[j].0)
    {
      FindDistinct(OrdinalIgnoreCase, outValues, outVariables, i);
      outValues := Put(OrdinalIgnoreCase, outValues, outVariables[i].0,
                       GetVariable(session, outVariables[i].0));
    }
  }

  lemma {:induction false} PerformValid(session: Session, run: seq<Effect>)
    requires Dictionary.Valid(OrdinalIgnoreCase, session)
    ensures Dictionary.Valid(OrdinalIgnoreCase, Perform(session, run))
    decreases |run|
  {
    if run != [] {
      if run[0].Assign? {
        PutSpec(OrdinalIgnoreCase, session, run[0].name, run[0].value);
      }
      PerformValid(if run[0].Assign? then SetVariable(session, run[0].name, run[0].value) else session,
                   run[1..]);
    }
  }

  /** Running twice on the same runner: the exit code of a run without an exit request is null,
      even when an earlier run asked to exit, because the handler's local starts afresh. */
  lemma ExitCodeIsPerRun(run: seq<Effect>)
    requires forall i :: 0 <= i < |run| ==> !run[i].RequestExit?
    ensures LastExit(run) == None
    decreases |run|
  {
    if run != [] {
      ExitCodeIsPerRun(run[1..]);
    }
  }

  /** The exit code is the one of the last exit request. */
  lemma {:induction false} LastExitIsLast(run: seq<Effect>, k: nat)
    requires k < |run| && run[k].RequestExit?
    requires forall i :: k < i < |run| ==> !run[i].RequestExit?
    ensures LastExit(run) == Some(run[k].code)
    decreases |run|
  {
    if k == 0 {
      ExitCodeIsPerRun(run[1..]);
    } else {
      LastExitIsLast(run[1..], k - 1);
    }
  }
}

=== FILE: ps_script_type.dfy ===
/** Scripting.PowerShell.PowerShellScriptType: reading a script's metadata (its description and
    its parameters) from its tokens. The tokenizer and the documentation regular expressions are
    outside the model: the tokens are an input, and the matches of the documentation expression
    and the white-space collapsing replacement are function parameters. */
module PowerShellScriptType {
  import opened Text
  import opened PSTokens
  import PowerShellRunner

  /** The literals a boolean argument is written as. */
  const TrueValue: string := "$true"
  const FalseValue: string := "$false"

  // ---------------------------------------------------------------------------------------
  // Where the param block starts.

  predicate IsParamKeyword(t: Token) {
    t.kind == Keyword && EqualsIgnoreCase(t.content, "param")
  }

  /** The number of tokens before the first `param` keyword (all of them when there is none). */
  function ParamIndex(ts: seq<Token>): (n: nat)
    ensures n <= |ts|
    ensures forall i :: 0 <= i < n ==> !IsParamKeyword(ts[i])
    ensures n < |ts| ==> IsParamKeyword(ts[n])
    decreases |ts|
  {
    if ts == [] || IsParamKeyword(ts[0]) then 0 else 1 + ParamIndex(ts[1..])
  }

  /** The tokens after the `param` keyword; none when there is no such keyword. */
  function AfterParam(ts: seq<Token>): (rest: seq<Token>)
    ensures ParamIndex(ts) == |ts| ==> rest == []
    ensures ParamIndex(ts) < |ts| ==> ts == ts[..ParamIndex(ts)] + [ts[ParamIndex(ts)]] + rest
  {
    var n := ParamIndex(ts);
    if n == |ts| then [] else ts[n + 1..]
  }

  // ---------------------------------------------------------------------------------------
  // ScrapeParameters.

  predicate IsOpen(t: Token) {
    t.kind == GroupStart && t.content == "("
  }

  predicate IsClose(t: Token) {
    t.kind == GroupEnd && t.content == ")"
  }

  /** The parenthesis depth after the given tokens: `(` opens, `)` closes, nothing else counts. */
  function Depth(ts: seq<Token>): int
    decreases |ts|
  {
    if ts == [] then 0
    else
      var last := ts[|ts| - 1];
      Depth(ts[..|ts| - 1]) + (if IsOpen(last) then 1 else if IsClose(last) then -1 else 0)
  }

  /** Scanning stops after token k when it is a `)` that brings the depth to zero or below. */
  predicate StopsAt(ts: seq<Token>, k: nat)
    requires k < |ts|
  {
    IsClose(ts[k]) && Depth(ts[..k + 1]) <= 0
  }

  /** How many tokens the scan from i takes: up to and including the first stop, or all. */
  function SpanEnd(ts: seq<Token>, i: nat): (n: nat)
    requires i <= |ts|
    ensures i <= n <= |ts|
    ensures forall k :: i <= k < n - 1 ==> !StopsAt(ts, k)
    ensures n < |ts| ==> i < n && StopsAt(ts, n - 1)
    decreases |ts| - i
  {
    if i == |ts| then |ts| else if StopsAt(ts, i) then i + 1 else SpanEnd(ts, i + 1)
  }

  /** The tokens the first loop of ScrapeParameters collects. */
  function Span(ts: seq<Token>): seq<Token> {
    ts[..SpanEnd(ts, 0)]
  }

  datatype ParamInfo = ParamInfo(name: string, paramType: Option<string>)

  /** The type waiting for the next variable after the given tokens: set by a Type token,
      cleared by a Variable token. */
  function PendingType(ts: seq<Token>): Option<string>
    decreases |ts|
  {
    if ts == [] then None
    else
      var last := ts[|ts| - 1];
      if last.kind == Type then Some(last.content)
      else if last.kind == Variable then None
      else PendingType(ts[..|ts| - 1])
  }

  /** The parameters the second loop of ScrapeParameters yields from the given tokens. */
  function ParamsOf(ts: seq<Token>): seq<ParamInfo>
    decreases |ts|
  {
    if ts == [] then []
    else
      var last := ts[|ts| - 1];
      var init := ts[..|ts| - 1];
      ParamsOf(init) + (if last.kind == Variable then [ParamInfo(last.content, PendingType(init))] else [])
  }

  method ScrapeParameters(tokens: seq<Token>) returns (ps: seq<ParamInfo>)
    ensures ps == ParamsOf(Span(tokens))
  {
    var paramTokens := CollectParamTokens(tokens);
    var currentType: Option<string> := None;
    ps := [];
    var i := 0;
    while i < |paramTokens|
      invariant i <= |paramTokens|
      invariant ps == ParamsOf(paramTokens[..i])
      invariant currentType == PendingType(paramTokens[..i])
    {
      var token := paramTokens[i];
      assert paramTokens[..i + 1][..i] == paramTokens[..i];
      if token.kind == Type {
        currentType := Some(token.content);
      }
      if token.kind == Variable {
        ps := ps + [ParamInfo(token.content, currentType)];
        currentType := None;
      }
      i := i + 1;
    }
    assert paramTokens[..i] == paramTokens;
  }

  /** The first loop: every token up to the `)` that closes the outermost group. */
  method CollectParamTokens(tokens: seq<Token>) returns (paramTokens: seq<Token>)
    ensures paramTokens == Span(tokens)
  {
    var groupDepth := 0;
    paramTokens := [];
    var i := 0;
    while i < |tokens|
      invariant i <= |tokens|
      invariant paramTokens == tokens[..i]
      invariant groupDepth == Depth(tokens[..i])
      invariant SpanEnd(tokens, 0) == SpanEnd(tokens, i)
    {
      var token := tokens[i];
      assert tokens[..i + 1][..i] == tokens[..i];
      paramTokens := paramTokens + [token];
      if IsOpen(token) {
        groupDepth := groupDepth + 1;
      }
      if IsClose(token) {
        groupDepth := groupDepth - 1;
        if groupDepth <= 0 {
          assert StopsAt(tokens, i);
          return;
        }
      }
      i := i + 1;
    }
  }

  /** Each Variable token of the span yields one parameter, in order. */
  lemma {:induction false} ParamNamesAreVariables(ts: seq<Token>)
    ensures |ParamsOf(ts)| == |PowerShellRunner.VariableTokenNames(ts)|
    ensures forall i :: 0 <= i < |ParamsOf(ts)| ==> ParamsOf(ts)[i].name == PowerShellRunner.VariableTokenNames(ts)[i]
    decreases |ts|
  {
    if ts != [] {
      ParamNamesAreVariables(ts[..|ts| - 1]);
    }
  }

  /** The parameter a Variable token yields takes the type pending just before it. */
  lemma {:induction false} ParamOfVariable(ts: seq<Token>, k: nat)
    requires k < |ts| && ts[k].kind == Variable
    ensures |PowerShellRunner.VariableTokenNames(ts[..k])| < |ParamsOf(ts)|
    ensures ParamsOf(ts)[|PowerShellRunner.VariableTokenNames(ts[..k])|] == ParamInfo(ts[k].content, PendingType(ts[..k]))
    decreases |ts|
  {
    ParamNamesAreVariables(ts[..k]);
    ParamNamesAreVariables(ts);
    var init := ts[..|ts| - 1];
    if k < |ts| - 1 {
      assert init[..k] == ts[..k];
      ParamOfVariable(init, k);
    } else {
      assert init == ts[..k];
    }
  }

  /** The pending type is the latest Type token when no Variable or Type token follows it. */
  lemma {:induction false} PendingTypeIsLatest(ts: seq<Token>, k: nat)
    requires k < |ts| && ts[k].kind == Type
    requires forall j :: k < j < |ts| ==> ts[j].kind != Variable && ts[j].kind != Type
    ensures PendingType(ts) == Some(ts[k].content)
    decreases |ts|
  {
    if k < |ts| - 1 {
      var init := ts[..|ts| - 1];
      assert init[k] == ts[k];
      PendingTypeIsLatest(init, k);
    }
  }

  /** No type is pending when no Type token came since the start or since the last variable. */
  lemma {:induction false} NoPendingType(ts: seq<Token>, k: nat)
    requires k <= |ts|
    requires k == 0 || ts[k - 1].kind == Variable
    requires forall j :: k <= j < |ts| ==> ts[j].kind != Type
    ensures PendingType(ts) == None
    decreases |ts|
  {
    if ts != [] && k < |ts| {
      var init := ts[..|ts| - 1];
      assert k == 0 || init[k - 1] == ts[k - 1];
      NoPendingType(init, k);
    }
  }

  /** Without a `param` keyword, no parameters are scraped. */
  lemma NoParamKeywordNoParameters(ts: seq<Token>)
    requires forall i :: 0 <= i < |ts| ==> !IsParamKeyword(ts[i])
    ensures ParamsOf(Span(AfterParam(ts))) == []
  {
    assert AfterParam(ts) == [];
    assert Span(AfterParam(ts)) == [];
  }

  function ParamInfoToString(p: ParamInfo): (s: string)
    ensures EndsWith(s, p.name)
    ensures p.paramType.None? ==> s == p.name
    ensures p.paramType.Some? ==>
      StartsWith(s, p.paramType.value + " ") && |s| == |p.paramType.value| + 1 + |p.name|
  {
    if p.paramType.Some? then p.paramType.value + " " + p.name else p.name
  }

  // ---------------------------------------------------------------------------------------
  // The documentation comment.

  /** The position of the last Comment token, if any. */
  function LastComment(ts: seq<Token>): (r: Option<nat>)
    ensures r.Some? ==> r.value < |ts| && ts[r.value].kind == Comment
    ensures r.Some? ==> forall j :: r.value < j < |ts| ==> ts[j].kind != Comment
    ensures r.None? ==> forall j :: 0 <= j < |ts| ==> ts[j].kind != Comment
    decreases |ts|
  {
    if ts == [] then None
    else if ts[|ts| - 1].kind == Comment then Some(|ts| - 1)
    else LastComment(ts[..|ts| - 1])
  }

  /** The delimiter stripping as written: a comment that both starts with `<#` and ends with
      `#>` loses two characters at each end; `<#>` passes both tests and the cut then has a
      negative length (None: ArgumentOutOfRangeException). */
  function StripDelimitersAsWritten(doc: string): (r: Option<string>)
    ensures r.None? <==> StartsWith(doc, "<#") && EndsWith(doc, "#>") && |doc| < 4
  {
    if StartsWith(doc, "<#") && EndsWith(doc, "#>") then
      if |doc| - 4 < 0 then None else Some(doc[2..|doc| - 2])
    else Some(doc)
  }

  lemma ShortCommentThrows()
    ensures StripDelimitersAsWritten("<#>") == None
  {
    assert StartsWith("<#>", "<#") && EndsWith("<#>", "#>");
  }

  /** The delimiter stripping as intended: only a complete `<#`…`#>` block loses its delimiters. */
  function StripDelimiters(doc: string): (r: string)
    ensures StartsWith(doc, "<#") && EndsWith(doc, "#>") && |doc| >= 4 ==> doc == "<#" + r + "#>"
    ensures !(StartsWith(doc, "<#") && EndsWith(doc, "#>") && |doc| >= 4) ==> r == doc
  {
    if StartsWith(doc, "<#") && EndsWith(doc, "#>") && |doc| >= 4 then doc[2..|doc| - 2] else doc
  }

  /** The two agree wherever the written code does not throw. */
  lemma StripDelimitersAgree(doc: string)
    ensures StripDelimitersAsWritten(doc).Some? ==> StripDelimitersAsWritten(doc).value == StripDelimiters(doc)
  {
  }

  // ---------------------------------------------------------------------------------------
  // Documentation blocks.

  /** One match of the documentation expression: the section name, the rest of its line and the
      text below it ("" where a group did not take part). */
  datatype RawMatch = RawMatch(name: string, arg: string, text: string)

  /** A documentation block: a blank argument is null, the text is trimmed and collapsed. */
  datatype DocBlock = DocBlock(name: string, arg: Option<string>, value: string)

  function ToDocBlock(m: RawMatch, collapse: string -> string): DocBlock {
    DocBlock(m.name, if AllWhiteSpace(m.arg) then None else Some(Trim(m.arg)), collapse(Trim(m.text)))
  }

  /** The blocks with a non-blank text, in match order. */
  function DocBlocks(ms: seq<RawMatch>, collapse: string -> string): seq<DocBlock>
    decreases |ms|
  {
    if ms == [] then []
    else (if AllWhiteSpace(ms[0].text) then [] else [ToDocBlock(ms[0], collapse)]) + DocBlocks(ms[1..], collapse)
  }

  lemma {:induction false} DocBlocksSpec(ms: seq<RawMatch>, collapse: string -> string)
    ensures forall m :: m in ms && !AllWhiteSpace(m.text) ==> ToDocBlock(m, collapse) in DocBlocks(ms, collapse)
    ensures forall b :: b in DocBlocks(ms, collapse) ==>
      exists m :: m in ms && !AllWhiteSpace(m.text) && b == ToDocBlock(m, collapse)
    decreases |ms|
  {
    if ms != [] {
      DocBlocksSpec(ms[1..], collapse);
      assert ms == [ms[0]] + ms[1..];
      forall b | b in DocBlocks(ms, collapse)
        ensures exists m :: m in ms && !AllWhiteSpace(m.text) && b == ToDocBlock(m, collapse)
      {
        if b !in DocBlocks(ms[1..], collapse) {
          assert ms[0] in ms;
        }
      }
    }
  }

  /** Whether a block belongs to a section (ignoring case) and, when an argument is asked for,
      carries that argument (ignoring case; a null argument matches nothing). */
  predicate Selects(b: DocBlock, section: string, arg: Option<string>) {
    EqualsIgnoreCase(b.name, section) && (arg.None? || (b.arg.Some? && EqualsIgnoreCase(b.arg.value, arg.value)))
  }

  /** The lookup `docBlocks[section]`, narrowed by the join on the argument: the selected
      blocks in order. */
  function Selected(bs: seq<DocBlock>, section: string, arg: Option<string>): seq<DocBlock>
    decreases |bs|
  {
    if bs == [] then []
    else (if Selects(bs[0], section, arg) then [bs[0]] else []) + Selected(bs[1..], section, arg)
  }

  /** The position of the first selected block, if any. */
  function FirstSelected(bs: seq<DocBlock>, section: string, arg: Option<string>): (r: Option<nat>)
    ensures r.Some? ==> r.value < |bs| && Selects(bs[r.value], section, arg)
    ensures r.Some? ==> forall j :: 0 <= j < r.value ==> !Selects(bs[j], section, arg)
    ensures r.None? ==> forall j :: 0 <= j < |bs| ==> !Selects(bs[j], section, arg)
    decreases |bs|
  {
    if bs == [] then None
    else if Selects(bs[0], section, arg) then Some(0)
    else match FirstSelected(bs[1..], section, arg)
      case None => None
      case Some(j) => Some(j + 1)
  }

  lemma {:induction false} SelectedHead(bs: seq<DocBlock>, section: string, arg: Option<string>)
    ensures Selected(bs, section, arg) == [] <==> FirstSelected(bs, section, arg).None?
    ensures FirstSelected(bs, section, arg).Some? ==>
      Selected(bs, section, arg)[0] == bs[FirstSelected(bs, section, arg).value]
    decreases |bs|
  {
    if bs != [] {
      SelectedHead(bs[1..], section, arg);
    }
  }

  /** `FirstOrDefault` of the values. */
  function FirstValue(bs: seq<DocBlock>): Option<string> {
    if bs == [] then None else Some(bs[0].value)
  }

  /** The SYNOPSIS blocks followed by the DESCRIPTION blocks; the first value. */
  function Description(bs: seq<DocBlock>): Option<string> {
    FirstValue(Selected(bs, "SYNOPSIS", None) + Selected(bs, "DESCRIPTION", None))
  }

  /** The value of the first PARAMETER block whose argument is the parameter's name. */
  function ParameterDescription(bs: seq<DocBlock>, name: string): Option<string> {
    FirstValue(Selected(bs, "PARAMETER", Some(name)))
  }

  /** The description is the first SYNOPSIS block's value; failing that, the first DESCRIPTION
      block's; failing both, none. */
  lemma DescriptionSpec(bs: seq<DocBlock>)
    ensures FirstSelected(bs, "SYNOPSIS", None).Some? ==>
      Description(bs) == Some(bs[FirstSelected(bs, "SYNOPSIS", None).value].value)
    ensures FirstSelected(bs, "SYNOPSIS", None).None? && FirstSelected(bs, "DESCRIPTION", None).Some? ==>
      Description(bs) == Some(bs[FirstSelected(bs, "DESCRIPTION", None).value].value)
    ensures FirstSelected(bs, "SYNOPSIS", None).None? && FirstSelected(bs, "DESCRIPTION", None).None? ==>
      Description(bs) == None
  {
    SelectedHead(bs, "SYNOPSIS", None);
    SelectedHead(bs, "DESCRIPTION", None);
  }

  /** A parameter's description is the first PARAMETER block naming it, ignoring case. */
  lemma ParameterDescriptionSpec(bs: seq<DocBlock>, name: string)
    ensures FirstSelected(bs, "PARAMETER", Some(name)).None? ==> ParameterDescription(bs, name) == None
    ensures FirstSelected(bs, "PARAMETER", Some(name)).Some? ==>
      ParameterDescription(bs, name) == Some(bs[FirstSelected(bs, "PARAMETER", Some(name)).value].value)
  {
    SelectedHead(bs, "PARAMETER", Some(name));
  }

  // ---------------------------------------------------------------------------------------
  // GetScriptMetadata.

  datatype ScriptParameterMetadata = ScriptParameterMetadata(name: string, description: Option<string>)
  datatype ScriptMetadata = ScriptMetadata(description: Option<string>, parameters: seq<ScriptParameterMetadata>)

  /** What the documentation comment yields: nothing without a comment before the param keyword,
      the blocks of its text, or an ArgumentOutOfRangeException from the delimiter stripping. */
  datatype Documentation = Undocumented | Documented(blocks: seq<DocBlock>) | Malformed

  /** The documentation blocks of the script: those of the last comment before the param
      keyword, its delimiters stripped as the code strips them. */
  function ScriptDocBlocks(ts: seq<Token>, parseDoc: string -> seq<RawMatch>, collapse: string -> string)
    : (r: Documentation)
    ensures r.Undocumented? <==> forall j :: 0 <= j < ParamIndex(ts) ==> ts[j].kind != Comment
  {
    var before := ts[..ParamIndex(ts)];
    match LastComment(before)
    case None => Undocumented
    case Some(k) =>
      match StripDelimitersAsWritten(before[k].content)
      case None => Malformed
      case Some(doc) => Documented(DocBlocks(parseDoc(doc), collapse))
  }

  function Describe(ps: seq<ParamInfo>, bs: Option<seq<DocBlock>>): (r: seq<ScriptParameterMetadata>)
    ensures |r| == |ps|
    ensures forall i :: 0 <= i < |ps| ==> r[i].name == ps[i].name
    ensures forall i :: 0 <= i < |ps| ==>
      r[i].description == (if bs.None? then None else ParameterDescription(bs.value, ps[i].name))
  {
    seq(|ps|, i requires 0 <= i < |ps| =>
      ScriptParameterMetadata(ps[i].name, if bs.None? then None else ParameterDescription(bs.value, ps[i].name)))
  }

  /** The metadata GetScriptMetadata builds from the tokens; None when it throws. */
  function Metadata(ts: seq<Token>, parseDoc: string -> seq<RawMatch>, collapse: string -> string): Option<ScriptMetadata> {
    var ps := ParamsOf(Span(AfterParam(ts)));
    match ScriptDocBlocks(ts, parseDoc, collapse)
    case Undocumented => Some(ScriptMetadata(None, Describe(ps, None)))
    case Documented(bs) => Some(ScriptMetadata(Description(bs), Describe(ps, Some(bs))))
    case Malformed => None
  }

  /** GetScriptMetadata: the scraped parameters, described from the documentation comment when
      there is one; None is the exception a three-character `<#>` comment raises. */
  method GetScriptMetadata(tokens: seq<Token>, parseDoc: string -> seq<RawMatch>, collapse: string -> string)
    returns (m: Option<ScriptMetadata>)
    ensures m == Metadata(tokens, parseDoc, collapse)
    ensures m.None? <==>
              exists k :: 0 <= k < ParamIndex(tokens) && tokens[k].kind == Comment
                && (forall j :: k < j < ParamIndex(tokens) ==> tokens[j].kind != Comment)
                && StripDelimitersAsWritten(tokens[k].content).None?
  {
    var parameters := ScrapeParameters(AfterParam(tokens));
    var docBlocks := ScriptDocBlocks(tokens, parseDoc, collapse);
    ghost var before := tokens[..ParamIndex(tokens)];
    if LastComment(before).Some? {
      ghost var k := LastComment(before).value;
      assert before[k] == tokens[k];
      assert forall j :: k < j < ParamIndex(tokens) ==> tokens[j] == before[j];
    }
    match docBlocks
    case Undocumented =>
      m := Some(ScriptMetadata(None, Describe(parameters, None)));
    case Documented(bs) =>
      m := Some(ScriptMetadata(Description(bs), Describe(parameters, Some(bs))));
    case Malformed =>
      m := None;
  }

  /** Without a comment before the param keyword, neither the script nor any parameter has a
      description; the parameters are still those of the span. */
  lemma NoCommentNoDescriptions(ts: seq<Token>, parseDoc: string -> seq<RawMatch>, collapse: string -> string)
    requires forall j :: 0 <= j < ParamIndex(ts) ==> ts[j].kind != Comment
    ensures Metadata(ts, parseDoc, collapse).Some?
    ensures Metadata(ts, parseDoc, collapse).value.description == None
    ensures forall p :: p in Metadata(ts, parseDoc, collapse).value.parameters ==> p.description == None
    ensures |Metadata(ts, parseDoc, collapse).value.parameters| == |ParamsOf(Span(AfterParam(ts)))|
  {
  }

  /** The comment read is the last Comment token before the param keyword, with its delimiters
      stripped as the code strips them. */
  lemma DocumentationIsLastComment(ts: seq<Token>, parseDoc: string -> seq<RawMatch>, collapse: string -> string, k: nat)
    requires k < ParamIndex(ts) && ts[k].kind == Comment
    requires forall j :: k < j < ParamIndex(ts) ==> ts[j].kind != Comment
    ensures ScriptDocBlocks(ts, parseDoc, collapse) ==
              match StripDelimitersAsWritten(ts[k].content)
              case None => Malformed
              case Some(doc) => Documented(DocBlocks(parseDoc(doc), collapse))
  {
    var before := ts[..ParamIndex(ts)];
    assert before[k] == ts[k];
    assert forall j :: k < j < |before| ==> before[j] == ts[j];
  }

  /** A complete `<#`…`#>` comment is read without its delimiters and the read succeeds. */
  lemma CompleteBlockIsDocumented(ts: seq<Token>, parseDoc: string -> seq<RawMatch>, collapse: string -> string,
                                  k: nat, body: string)
    requires k < ParamIndex(ts) && ts[k].kind == Comment && ts[k].content == "<#" + body + "#>"
    requires forall j :: k < j < ParamIndex(ts) ==> ts[j].kind != Comment
    ensures ScriptDocBlocks(ts, parseDoc, collapse) == Documented(DocBlocks(parseDoc(body), collapse))
    ensures Metadata(ts, parseDoc, collapse).Some?
  {
    DocumentationIsLastComment(ts, parseDoc, collapse, k);
    var c := ts[k].content;
    assert c[..2] == "<#" && c[|c| - 2..] == "#>";
    assert c[2..|c| - 2] == body;
  }
}

=== FILE: ps_tokens.dfy ===
/** The tokens the PowerShell tokenizer (PSParser.Tokenize) produces. The tokenizer itself is
    outside the model: the components that use it take its token sequence as input. */
module PSTokens {

  /** PSTokenType */
  datatype TokenType =
    | Unknown | Command | CommandParameter | CommandArgument | Number | String | Variable
    | Member | LoopLabel | Attribute | Type | Operator | GroupStart | GroupEnd | Keyword
    | Comment | StatementSeparator | NewLine | LineContinuation | Position

  /** PSToken: its type and its content (for a Variable, the name without `$`). */
  datatype Token = Token(kind: TokenType, content: string)
}

=== FILE: pscall.dfy ===
/** Operations.PowerShell.PSCallOperation: `PSCall App::Script.ps1 (Arg: value, Out => $var)`. It
    finds a stored PowerShell script (optionally in another application), routes each named
    argument to the script's declared parameters or to plain variables, runs the script as an
    ExecutePowerShellJob, forwards the job's messages, and copies the job's out variables back
    into the operation's out arguments. */
module PSCall {
  import opened Text
  import opened Dictionary
  import opened Logging
  import opened PowerShellRunner
  import opened PowerShellJob

  // ---------------------------------------------------------------------------------------
  // Resolving the script.

  const Separator := "::"

  /** `Split(new[] { "::" }, 2)`: the whole name, or the text before and after the first "::". */
  function SplitQualified(full: string): (parts: seq<string>)
    ensures |parts| == 1 || |parts| == 2
    ensures |parts| == 1 <==> forall k: nat :: !OccursAt(full, Separator, k)
    ensures |parts| == 1 ==> parts[0] == full
    ensures |parts| == 2 ==> full == parts[0] + Separator + parts[1]
    ensures |parts| == 2 ==> forall k: nat :: k < |parts[0]| ==> !OccursAt(full, Separator, k)
  {
    match FindSub(full, Separator, 0)
    case None => [full]
    case Some(k) =>
      assert full[k..k + 2] == Separator;
      assert full == full[..k] + Separator + full[k + 2..];
      [full[..k], full[k + 2..]]
  }

  /** An application name, which holds no ':', joined to a script name splits back into the two. */
  lemma SplitQualifiedJoin(application: string, name: string)
    requires ':' !in application
    ensures SplitQualified(application + Separator + name) == [application, name]
  {
    var full := application + Separator + name;
    assert full[|application|..|application| + 2] == Separator;
    assert OccursAt(full, Separator, |application|);
    var parts := SplitQualified(full);
    assert |parts| == 2;
    assert |parts[0]| <= |application|;
    assert forall j :: 0 <= j < |application| ==> full[j] == application[j] != ':';
    assert (parts[0] + Separator + parts[1])[|parts[0]|] == ':';
    assert |parts[0]| == |application|;
    assert (parts[0] + Separator + parts[1])[..|parts[0]|] == parts[0];
    assert (parts[0] + Separator + parts[1])[|parts[0]| + 2..] == parts[1];
    assert full[..|application|] == application;
    assert full[|application| + 2..] == name;
  }

  /** An application of the instance, as Applications_GetApplications lists it. */
  datatype Application = Application(name: string, id: int)

  /** FirstOrDefault over the applications, comparing names ignoring case. */
  function FirstApplication(apps: seq<Application>, name: string): (r: Option<nat>)
    ensures r.Some? ==> r.value < |apps| && EqualsIgnoreCase(apps[r.value].name, name)
    ensures r.Some? ==> forall i :: 0 <= i < r.value ==> !EqualsIgnoreCase(apps[i].name, name)
    ensures r.None? ==> forall i :: 0 <= i < |apps| ==> !EqualsIgnoreCase(apps[i].name, name)
    decreases |apps|
  {
    if apps == [] then None
    else if EqualsIgnoreCase(apps[0].name, name) then Some(0)
    else match FirstApplication(apps[1..], name)
      case None => None
      case Some(j) => Some(j + 1)
  }

  /** ".ps1" is appended unless the name already ends with it ignoring case. */
  function WithScriptExtension(name: string): (r: string)
    ensures EndsWithIgnoreCase(r, ".ps1")
    ensures EndsWithIgnoreCase(name, ".ps1") ==> r == name
    ensures !EndsWithIgnoreCase(name, ".ps1") ==> r == name + ".ps1"
  {
    if EndsWithIgnoreCase(name, ".ps1") then name
    else
      assert (name + ".ps1")[|name + ".ps1"| - 4..] == ".ps1";
      name + ".ps1"
  }

  lemma WithScriptExtensionIdempotent(name: string)
    ensures WithScriptExtension(WithScriptExtension(name)) == WithScriptExtension(name)
  {
  }

  /** What the operation sees of its context and of the services it calls. `scripts` is
      ScriptAssets_GetScriptByName followed by UTF-8 decoding of the stored text;
      `declaredParameters` is PowerShellScriptInfo.TryParse, giving the declared parameter names
      or None when the script cannot be parsed; `runJob` is the remote job executer, given the
      job's request and the parameters set on it, and giving the messages the job logged and its
      result, None when the awaited job throws. */
  datatype JobRun = JobRun(messages: seq<LogEvent>, response: Option<Response>)

  datatype Context = Context(
    simulation: bool,
    applicationId: Option<int>,
    applications: seq<Application>,
    scripts: (string, Option<int>) -> Option<string>,
    declaredParameters: string -> Option<seq<string>>,
    runJob: (Request, Dict<string>) -> JobRun)

  /** The executer runs the job of PowerShellJob: a request the job refuses (out names equal
      ignoring case, no variables) throws before anything is logged. */
  ghost predicate RefusesFailedJobs(ctx: Context) {
    forall q: Request, parameters: Dict<string> :: Failed(q) ==> ctx.runJob(q, parameters) == JobRun([], None)
  }

  datatype Resolution =
    | Unresolved(message: string)
    | Resolved(scriptName: string, applicationId: Option<int>, scriptText: string)

  /** The name split, the application looked up and the script fetched, or the error logged. */
  function Resolve(ctx: Context, full: string): (r: Resolution)
    ensures r.Resolved? ==> EndsWithIgnoreCase(r.scriptName, ".ps1")
    ensures r.Resolved? ==> ctx.scripts(r.scriptName, r.applicationId) == Some(r.scriptText)
  {
    var parts := SplitQualified(full);
    if |parts| == 2 && FirstApplication(ctx.applications, parts[0]).None? then
      Unresolved("Invalid application name " + parts[0] + ".")
    else
      var applicationId :=
        if |parts| == 2 then Some(ctx.applications[FirstApplication(ctx.applications, parts[0]).value].id)
        else ctx.applicationId;
      var scriptName := WithScriptExtension(parts[|parts| - 1]);
      match ctx.scripts(scriptName, applicationId)
      case None => Unresolved("Script " + scriptName + " not found.")
      case Some(text) => Resolved(scriptName, applicationId, text)
  }

  /** An unqualified name is looked up in the context's application. */
  lemma ResolveUnqualified(ctx: Context, name: string)
    requires forall k: nat :: !OccursAt(name, Separator, k)
    ensures var r := Resolve(ctx, name);
            match ctx.scripts(WithScriptExtension(name), ctx.applicationId)
            case None => r == Unresolved("Script " + WithScriptExtension(name) + " not found.")
            case Some(text) => r == Resolved(WithScriptExtension(name), ctx.applicationId, text)
  {
  }

  /** `App::Name` is looked up in the first application named App ignoring case; when there is
      none the name is refused before any script is looked up. */
  lemma ResolveQualified(ctx: Context, application: string, name: string)
    requires ':' !in application
    ensures var r := Resolve(ctx, application + Separator + name);
            match FirstApplication(ctx.applications, application)
            case None => r == Unresolved("Invalid application name " + application + ".")
            case Some(i) =>
              var id := Some(ctx.applications[i].id);
              match ctx.scripts(WithScriptExtension(name), id)
              case None => r == Unresolved("Script " + WithScriptExtension(name) + " not found.")
              case Some(text) => r == Resolved(WithScriptExtension(name), id, text)
  {
    SplitQualifiedJoin(application, name);
  }

  // ---------------------------------------------------------------------------------------
  // Routing the arguments.

  /** The first declared parameter whose name equals the argument's ignoring case. */
  function FirstDeclared(declared: seq<string>, key: string): (r: Option<string>)
    ensures r.Some? ==> r.value in declared && EqualsIgnoreCase(r.value, key)
    ensures r.None? ==> forall n :: n in declared ==> !EqualsIgnoreCase(n, key)
    decreases |declared|
  {
    if declared == [] then None
    else if EqualsIgnoreCase(declared[0], key) then Some(declared[0])
    else FirstDeclared(declared[1..], key)
  }

  /** `parameters[param.Name] = value` for each argument matching a declared parameter, in order. */
  function ParameterPairs(declared: seq<string>, args: Dict<Option<string>>): seq<(string, string)>
    decreases |args|
  {
    if args == [] then []
    else
      var a := args[|args| - 1];
      ParameterPairs(declared, args[..|args| - 1]) +
      match FirstDeclared(declared, a.0)
      case Some(n) => [(n, OrEmpty(a.1))]
      case None => []
  }

  /** `variables[var.Key] = value` for each argument matching none, in order. */
  function VariablePairs(declared: seq<string>, args: Dict<Option<string>>): seq<(string, string)>
    decreases |args|
  {
    if args == [] then []
    else
      var a := args[|args| - 1];
      VariablePairs(declared, args[..|args| - 1]) +
      if FirstDeclared(declared, a.0).None? then [(a.0, OrEmpty(a.1))] else []
  }

  /** The parameters and variables built from the arguments (both Ordinal dictionaries); when the
      script cannot be parsed both stay empty. */
  function Routed(declared: Option<seq<string>>, args: Dict<Option<string>>): (Dict<string>, Dict<string>) {
    match declared
    case None => ([], [])
    case Some(names) =>
      (PutAll(Ordinal, [], ParameterPairs(names, args)), PutAll(Ordinal, [], VariablePairs(names, args)))
  }

  /** The argument loop. */
  method RouteArguments(declared: Option<seq<string>>, args: Dict<Option<string>>)
    returns (parameters: Dict<string>, variables: Dict<string>)
    ensures (parameters, variables) == Routed(declared, args)
  {
    parameters, variables := [], [];
    if declared.None? {
      return;
    }
    var names := declared.value;
    for i := 0 to |args|
      invariant parameters == PutAll(Ordinal, [], ParameterPairs(names, args[..i]))
      invariant variables == PutAll(Ordinal, [], VariablePairs(names, args[..i]))
    {
      var a := args[i];
      assert args[..i + 1][..i] == args[..i] && args[..i + 1][i] == a;
      var value := OrEmpty(a.1);
      var param := FirstDeclared(names, a.0);
      var ps, vs := ParameterPairs(names, args[..i]), VariablePairs(names, args[..i]);
      if param.Some? {
        assert ParameterPairs(names, args[..i + 1]) == ps + [(param.value, value)];
        assert VariablePairs(names, args[..i + 1]) == vs + [] == vs;
        PutAllAppend(Ordinal, [], ps, (param.value, value));
        parameters := Put(Ordinal, parameters, param.value, value);
      } else {
        assert ParameterPairs(names, args[..i + 1]) == ps + [] == ps;
        assert VariablePairs(names, args[..i + 1]) == vs + [(a.0, value)];
        PutAllAppend(Ordinal, [], vs, (a.0, value));
        variables := Put(Ordinal, variables, a.0, value);
      }
    }
    assert args[..|args|] == args;
  }

  lemma {:induction false} ParameterPairsKeys(declared: seq<string>, args: Dict<Option<string>>)
    ensures forall j :: 0 <= j < |ParameterPairs(declared, args)| ==> ParameterPairs(declared, args)[j].0 in declared
    decreases |args|
  {
    if args != [] {
      ParameterPairsKeys(declared, args[..|args| - 1]);
    }
  }

  lemma {:induction false} VariablePairsKeys(declared: seq<string>, args: Dict<Option<string>>)
    ensures forall j :: 0 <= j < |VariablePairs(declared, args)| ==>
              FirstDeclared(declared, VariablePairs(declared, args)[j].0).None?
    decreases |args|
  {
    if args != [] {
      VariablePairsKeys(declared, args[..|args| - 1]);
    }
  }

  /** Every argument that matches a declared parameter is assigned under the declared name. */
  lemma {:induction false} ParameterPairsCover(declared: seq<string>, args: Dict<Option<string>>, i: nat)
    requires i < |args| && FirstDeclared(declared, args[i].0).Some?
    ensures exists j :: 0 <= j < |ParameterPairs(declared, args)| &&
                        ParameterPairs(declared, args)[j].0 == FirstDeclared(declared, args[i].0).value
    decreases |args|
  {
    var front := args[..|args| - 1];
    var ps := ParameterPairs(declared, args);
    if i == |args| - 1 {
      assert ps[|ps| - 1].0 == FirstDeclared(declared, args[i].0).value;
    } else {
      assert front[i] == args[i];
      ParameterPairsCover(declared, front, i);
      var j :| 0 <= j < |ParameterPairs(declared, front)| &&
               ParameterPairs(declared, front)[j].0 == FirstDeclared(declared, args[i].0).value;
      assert ps[j] == ParameterPairs(declared, front)[j];
    }
  }

  /** An argument that matches no declared parameter is assigned under its own key, and since the
      argument keys are distinct no other assignment overrides it. */
  lemma {:induction false} VariablePairsValue(declared: seq<string>, args: Dict<Option<string>>, i: nat)
    requires Valid(Ordinal, args)
    requires i < |args| && FirstDeclared(declared, args[i].0).None?
    ensures LastValue(Ordinal, VariablePairs(declared, args), args[i].0) == Some(OrEmpty(args[i].1))
    decreases |args|
  {
    var front := args[..|args| - 1];
    var last := args[|args| - 1];
    var vs := VariablePairs(declared, front);
    if i == |args| - 1 {
      LastValueAppend(Ordinal, vs, (last.0, OrEmpty(last.1)), args[i].0);
    } else {
      assert front[i] == args[i];
      assert Valid(Ordinal, front) by {
        forall p, q | 0 <= p < q < |front| ensures !KeyEq(Ordinal, front[p].0, front[q].0) {
          assert front[p] == args[p] && front[q] == args[q];
        }
      }
      VariablePairsValue(declared, front, i);
      if FirstDeclared(declared, last.0).None? {
        LastValueAppend(Ordinal, vs, (last.0, OrEmpty(last.1)), args[i].0);
      } else {
        assert VariablePairs(declared, args) == vs + [];
        assert vs + [] == vs;
      }
    }
  }

  /** Each argument lands in exactly one of the two dictionaries: under the first matching declared
      name in the parameters, or under its own key, with its value (a null value as ""), in the
      variables. */
  lemma ArgumentRouting(names: seq<string>, args: Dict<Option<string>>, i: nat)
    requires Valid(Ordinal, args) && i < |args|
    ensures var (parameters, variables) := Routed(Some(names), args);
            match FirstDeclared(names, args[i].0)
            case Some(n) =>
              ContainsKey(Ordinal, parameters, n) && !ContainsKey(Ordinal, variables, args[i].0)
            case None =>
              Get(Ordinal, variables, args[i].0) == Some(OrEmpty(args[i].1)) &&
              !ContainsKey(Ordinal, parameters, args[i].0)
  {
    var key := args[i].0;
    var ps := ParameterPairs(names, args);
    var vs := VariablePairs(names, args);
    PutAllLastWins(Ordinal, [], ps);
    PutAllLastWins(Ordinal, [], vs);
    ParameterPairsKeys(names, args);
    VariablePairsKeys(names, args);
    match FirstDeclared(names, key)
    case Some(n) =>
      ParameterPairsCover(names, args, i);
      LastValuePresent(Ordinal, ps, n);
      LastValuePresent(Ordinal, vs, key);
    case None =>
      VariablePairsValue(names, args, i);
      LastValuePresent(Ordinal, ps, key);
  }

  /** When the script cannot be parsed the dictionary built from the arguments is discarded, so no
      argument reaches the job, neither as a parameter nor as a variable. */
  lemma UnparsableScriptDropsArguments(args: Dict<Option<string>>, i: nat)
    requires i < |args|
    ensures var (parameters, variables) := Routed(None, args);
            !ContainsKey(Ordinal, parameters, args[i].0) && !ContainsKey(Ordinal, variables, args[i].0)
  {
  }

  /** The evidently intended routing: when the script cannot be parsed every argument becomes a
      variable. */
  function RoutedIntended(declared: Option<seq<string>>, args: Dict<Option<string>>): (Dict<string>, Dict<string>) {
    match declared
    case None => ([], PutAll(Ordinal, [], VariablePairs([], args)))
    case Some(_) => Routed(declared, args)
  }

  /** With the intended routing an unparsable script gets every argument as a variable under its
      own key, with its value (a null value as ""). */
  lemma UnparsableScriptKeepsArguments(args: Dict<Option<string>>, i: nat)
    requires Valid(Ordinal, args) && i < |args|
    ensures var (parameters, variables) := RoutedIntended(None, args);
            parameters == [] && Get(Ordinal, variables, args[i].0) == Some(OrEmpty(args[i].1))
  {
    var vs := VariablePairs([], args);
    assert FirstDeclared([], args[i].0).None?;
    VariablePairsValue([], args, i);
    PutAllLastWins(Ordinal, [], vs);
  }

  /** The variables as the job carries them: every value is non-null. */
  function JobVariables(d: Dict<string>): (r: Dict<Option<string>>)
    ensures Keys(r) == Keys(d)
    ensures forall i :: 0 <= i < |d| ==> r[i].1 == Some(d[i].1)
  {
    seq(|d|, i requires 0 <= i < |d| => (d[i].0, Some(d[i].1)))
  }

  /** The job: the script text, debug and verbose logging on, output logged exactly when it is not
      collected, the routed variables, and the out arguments' names as the out variables. */
  function JobFor(scriptText: string, variables: Dict<string>, outNames: seq<string>, collectOutput: bool): Request {
    Request(Some(scriptText), true, true, collectOutput, !collectOutput, Some(JobVariables(variables)), Some(outNames))
  }

  /** The job refuses to run exactly when two out-argument names are equal ignoring case. */
  lemma JobAccepted(scriptText: string, variables: Dict<string>, outArguments: Dict<Option<string>>, collectOutput: bool)
    ensures !Failed(JobFor(scriptText, variables, Keys(outArguments), collectOutput)) <==>
            Valid(OrdinalIgnoreCase, outArguments)
  {
    var ks := Keys(outArguments);
    if DistinctIgnoreCase(ks) {
      forall i, j | 0 <= i < j < |outArguments|
        ensures !KeyEq(OrdinalIgnoreCase, outArguments[i].0, outArguments[j].0)
      {
        assert ks[i] == outArguments[i].0 && ks[j] == outArguments[j].0;
      }
    }
    if Valid(OrdinalIgnoreCase, outArguments) {
      forall i, j | 0 <= i < j < |ks| ensures !EqualsIgnoreCase(ks[i], ks[j]) {
        assert !KeyEq(OrdinalIgnoreCase, outArguments[i].0, outArguments[j].0);
      }
    }
  }

  // ---------------------------------------------------------------------------------------
  // After the job.

  function ExitCodeMessages(exitCode: Option<int>): (r: seq<LogEvent>)
    ensures exitCode.None? <==> r == []
    ensures exitCode.Some? ==> r == [LogEvent(Debug, "Script exit code: " + IntToString(exitCode.value))]
  {
    if exitCode.Some? then [LogEvent(Debug, "Script exit code: " + IntToString(exitCode.value))] else []
  }

  /** `outArguments[var.Key] = var.Value` for each out variable of the result. */
  method WriteBack(c: Comparer, outArguments: Dict<Option<string>>, returned: Dict<Option<string>>)
    returns (r: Dict<Option<string>>)
    ensures r == PutAll(c, outArguments, returned)
  {
    r := outArguments;
    for i := 0 to |returned|
      invariant PutAll(c, outArguments, returned) == PutAll(c, r, returned[i..])
    {
      assert returned[i..][1..] == returned[i + 1..];
      r := Put(c, r, returned[i].0, returned[i].1);
    }
  }

  /** After the write-back each returned out variable holds its returned value, and every other
      out argument keeps its old value. */
  lemma WriteBackSpec(c: Comparer, outArguments: Dict<Option<string>>, returned: Dict<Option<string>>)
    requires Valid(c, outArguments) && Valid(c, returned)
    ensures Valid(c, PutAll(c, outArguments, returned))
    ensures forall i :: 0 <= i < |returned| ==>
              Get(c, PutAll(c, outArguments, returned), returned[i].0) == Some(returned[i].1)
    ensures forall k :: !ContainsKey(c, returned, k) ==>
              Get(c, PutAll(c, outArguments, returned), k) == Get(c, outArguments, k)
  {
    PutAllLastWins(c, outArguments, returned);
    forall k ensures LastValue(c, returned, k) == Get(c, returned, k) {
      LastValueOfValid(c, returned, k);
    }
    forall i | 0 <= i < |returned|
      ensures Get(c, returned, returned[i].0) == Some(returned[i].1)
    {
      KeyEqIsEquivalence(c, returned[i].0, returned[i].0, returned[i].0);
    }
  }

  // ---------------------------------------------------------------------------------------
  // The operation.

  class PSCallOperation {
    /** The default argument as a string (`App::Script`); None when it is missing. */
    var defaultArgument: Option<string>
    var namedArguments: Dict<Option<string>>
    var outArguments: Dict<Option<string>>
    /** The comparer of the out-argument dictionary the engine supplies. */
    const outComparer: Comparer
    var log: seq<LogEvent>

    constructor (defaultArgument: Option<string>, namedArguments: Dict<Option<string>>,
                 outArguments: Dict<Option<string>>, outComparer: Comparer)
      ensures this.defaultArgument == defaultArgument && this.namedArguments == namedArguments
      ensures this.outArguments == outArguments && this.outComparer == outComparer
      ensures log == []
    {
      this.defaultArgument := defaultArgument;
      this.namedArguments := namedArguments;
      this.outArguments := outArguments;
      this.outComparer := outComparer;
      log := [];
    }

    /** A simulation only logs that it would run; a missing script name is an error; otherwise
        the script runs with its output logged rather than collected. */
    method ExecuteAsync(ctx: Context) returns (result: Option<Response>)
      modifies this`log, this`outArguments
      ensures ctx.simulation ==>
                result.None? && log == old(log) + [LogEvent(Information, "Executing PowerShell Script...")] &&
                outArguments == old(outArguments)
      ensures !ctx.simulation && defaultArgument.None? ==>
                result.None? && log == old(log) + [LogEvent(Error, "Bad or missing script name.")] &&
                outArguments == old(outArguments)
      ensures !ctx.simulation && defaultArgument.Some? ==>
                Executed(ctx, defaultArgument.value, false, old(outArguments), old(log), result, outArguments, log)
    {
      if ctx.simulation {
        log := log + [LogEvent(Information, "Executing PowerShell Script...")];
        return None;
      }
      if defaultArgument.None? {
        log := log + [LogEvent(Error, "Bad or missing script name.")];
        return None;
      }
      result := ExecuteScriptAsync(ctx, defaultArgument.value, false);
    }

    /** The outcome of running `full` from the given out arguments and log: an unresolved name logs
        its error and changes nothing else; a resolved one sends the job with the routed parameters
        and forwards its messages; when the awaited job throws nothing else happens, otherwise a
        non-null exit code is logged and the out variables are written back. */
    ghost predicate Executed(ctx: Context, full: string, collectOutput: bool,
                             outBefore: Dict<Option<string>>, logBefore: seq<LogEvent>,
                             result: Option<Response>, outAfter: Dict<Option<string>>, logAfter: seq<LogEvent>)
      reads this
    {
      match Resolve(ctx, full)
      case Unresolved(message) =>
        result.None? && logAfter == logBefore + [LogEvent(Error, message)] && outAfter == outBefore
      case Resolved(_, _, text) =>
        var (parameters, variables) := Routed(ctx.declaredParameters(text), namedArguments);
        var run := ctx.runJob(JobFor(text, variables, Keys(outBefore), collectOutput), parameters);
        match run.response
        case None =>
          result.None? && logAfter == logBefore + run.messages && outAfter == outBefore
        case Some(response) =>
          && result == Some(response)
          && logAfter == logBefore + run.messages + ExitCodeMessages(response.exitCode)
          && outAfter == PutAll(outComparer, outBefore, response.outVariables)
    }

    method ExecuteScriptAsync(ctx: Context, full: string, collectOutput: bool) returns (result: Option<Response>)
      modifies this`log, this`outArguments
      ensures Executed(ctx, full, collectOutput, old(outArguments), old(log), result, outArguments, log)
    {
      var resolution := Resolve(ctx, full);
      if resolution.Unresolved? {
        log := log + [LogEvent(Error, resolution.message)];
        return None;
      }
      var text := resolution.scriptText;
      var parameters, variables := RouteArguments(ctx.declaredParameters(text), namedArguments);
      var job := JobFor(text, variables, Keys(outArguments), collectOutput);
      var run := ctx.runJob(job, parameters);
      log := log + run.messages;
      if run.response.None? {
        return None;
      }
      var response := run.response.value;
      if response.exitCode.Some? {
        log := log + [LogEvent(Debug, "Script exit code: " + IntToString(response.exitCode.value))];
      }
      outArguments := WriteBack(outComparer, outArguments, response.outVariables);
      result := Some(response);
    }

    /** Out arguments whose names are equal ignoring case make the job throw: the operation then
        returns nothing, logs nothing of its own and writes nothing back. */
    lemma OutNameClashThrows(ctx: Context, full: string, collectOutput: bool,
                             outBefore: Dict<Option<string>>, logBefore: seq<LogEvent>,
                             result: Option<Response>, outAfter: Dict<Option<string>>, logAfter: seq<LogEvent>)
      requires RefusesFailedJobs(ctx) && Resolve(ctx, full).Resolved? && !Valid(OrdinalIgnoreCase, outBefore)
      requires Executed(ctx, full, collectOutput, outBefore, logBefore, result, outAfter, logAfter)
      ensures result.None? && outAfter == outBefore && logAfter == logBefore
    {
      var text := Resolve(ctx, full).scriptText;
      var (parameters, variables) := Routed(ctx.declaredParameters(text), namedArguments);
      JobAccepted(text, variables, outBefore, collectOutput);
      assert ctx.runJob(JobFor(text, variables, Keys(outBefore), collectOutput), parameters) == JobRun([], None);
    }
  }
}

=== FILE: scripting_action.dfy ===
/** Scripting.PowerShell.ExecutePowerShellScriptAction: converting the properties saved by the
    legacy action into the script action's mode, script and value dictionaries, and filling in
    parameter defaults before running. The persisted-array format, the stored-procedure reads and
    the expression evaluator are outside the model: they are function parameters. */
module ScriptingScriptAction {
  import opened Text
  import opened Dictionary
  import PowerShellRunner

  // ---------------------------------------------------------------------------------------
  // BuildDictionary.

  /** `s.Split(new[] { '=' }, 2)` kept only when it has two parts. */
  function SplitEntry(s: string): (r: Option<(string, string)>)
    ensures r.None? <==> '=' !in s
    ensures r.Some? ==> s == r.value.0 + "=" + r.value.1 && '=' !in r.value.0
  {
    var parts := SplitFirst(s, '=');
    if |parts| == 2 then Some((parts[0], parts[1])) else None
  }

  /** The entries that hold an `=`, split, in order. */
  function Entries(items: seq<string>): seq<(string, string)>
    decreases |items|
  {
    if items == [] then []
    else
      var last := SplitEntry(items[|items| - 1]);
      Entries(items[..|items| - 1]) + (if last.Some? then [last.value] else [])
  }

  /** `Distinct(p => p[0], OrdinalIgnoreCase)`: a pair is dropped when an earlier kept pair has a
      key equal to its own ignoring case. */
  function DistinctFirst(pairs: seq<(string, string)>): seq<(string, string)>
    decreases |pairs|
  {
    if pairs == [] then []
    else
      var kept := DistinctFirst(pairs[..|pairs| - 1]);
      var last := pairs[|pairs| - 1];
      if ContainsKey(OrdinalIgnoreCase, kept, last.0) then kept else kept + [last]
  }

  /** BuildDictionary over the array the persisted text deserializes to. */
  function BuildDictionary(values: string, deserialize: string -> seq<string>): Dict<string> {
    DistinctFirst(Entries(deserialize(values)))
  }

  /** The rebuilt dictionary has distinct keys ignoring case, and looking a key up in it gives
      the value of the first entry with that key. */
  lemma {:induction false} DistinctFirstSpec(pairs: seq<(string, string)>)
    ensures Valid(OrdinalIgnoreCase, DistinctFirst(pairs))
    ensures forall k :: Get(OrdinalIgnoreCase, DistinctFirst(pairs), k) == Get(OrdinalIgnoreCase, pairs, k)
    decreases |pairs|
  {
    if pairs != [] {
      var init := pairs[..|pairs| - 1];
      var last := pairs[|pairs| - 1];
      var kept := DistinctFirst(init);
      DistinctFirstSpec(init);
      assert pairs == init + [last];
      forall k ensures Get(OrdinalIgnoreCase, DistinctFirst(pairs), k) == Get(OrdinalIgnoreCase, pairs, k) {
        GetAppend(OrdinalIgnoreCase, init, last, k);
        GetAppend(OrdinalIgnoreCase, kept, last, k);
        if ContainsKey(OrdinalIgnoreCase, kept, last.0) && KeyEq(OrdinalIgnoreCase, last.0, k) {
          DistinctFirstStep(kept, init, last, k);
        }
      }
      if !ContainsKey(OrdinalIgnoreCase, kept, last.0) {
        forall i, j | 0 <= i < j < |kept| + 1 ensures !KeyEq(OrdinalIgnoreCase, (kept + [last])[i].0, (kept + [last])[j].0) {
        }
      }
    }
  }

  /** A key the kept pairs already hold (ignoring case) is found in them. */
  lemma DistinctFirstStep(kept: Dict<string>, init: Dict<string>, last: (string, string), k: string)
    requires forall k :: Get(OrdinalIgnoreCase, kept, k) == Get(OrdinalIgnoreCase, init, k)
    requires ContainsKey(OrdinalIgnoreCase, kept, last.0) && KeyEq(OrdinalIgnoreCase, last.0, k)
    ensures Find(OrdinalIgnoreCase, init, k).Some?
  {
    var i := Find(OrdinalIgnoreCase, kept, last.0).value;
    KeyEqIsEquivalence(OrdinalIgnoreCase, kept[i].0, last.0, k);
    assert Find(OrdinalIgnoreCase, kept, k).Some?;
    assert Get(OrdinalIgnoreCase, kept, k).Some?;
  }

  /** The keys keep the spelling of the first entry with that key, in order. */
  lemma {:induction false} DistinctFirstKeys(pairs: seq<(string, string)>)
    ensures Keys(DistinctFirst(pairs)) == PowerShellRunner.AddAll([], Keys(pairs))
    decreases |pairs|
  {
    if pairs != [] {
      var init := pairs[..|pairs| - 1];
      var last := pairs[|pairs| - 1];
      var kept := DistinctFirst(init);
      DistinctFirstKeys(init);
      assert Keys(pairs) == Keys(init) + [last.0];
      PowerShellRunner.AddAllAppend([], Keys(init), last.0);
      assert ContainsKey(OrdinalIgnoreCase, kept, last.0) <==> PowerShellRunner.ContainsIgnoreCase(Keys(kept), last.0) by {
        if PowerShellRunner.ContainsIgnoreCase(Keys(kept), last.0) {
          var i :| 0 <= i < |Keys(kept)| && EqualsIgnoreCase(Keys(kept)[i], last.0);
          assert KeyEq(OrdinalIgnoreCase, kept[i].0, last.0);
        }
      }
      assert Keys(kept + [last]) == Keys(kept) + [last.0];
    }
  }

  /** An entry is split at its first `=`, so its value may itself hold `=`; an entry without
      `=` contributes nothing. */
  lemma EntrySplitsAtFirstEquals(key: string, value: string, other: string)
    requires '=' !in key && '=' !in other
    ensures Entries([key + "=" + value]) == [(key, value)]
    ensures Entries([other]) == []
  {
    SplitFirstAt(key, '=', value);
    assert [key + "=" + value][..0] == [];
    assert [other][..0] == [];
  }

  // ---------------------------------------------------------------------------------------
  // OnDeserializedMissingProperties.

  datatype ScriptMode = FileName | Direct

  /** What bool.Parse trims from both ends: white space and the null character. */
  predicate IsBoolPadding(c: char) {
    IsWhiteSpace(c) || c == '\0'
  }

  function TrimPaddingStart(s: string): (r: string)
    ensures |r| <= |s| && r == s[|s| - |r|..]
    ensures r == [] || !IsBoolPadding(r[0])
    ensures forall j :: 0 <= j < |s| - |r| ==> IsBoolPadding(s[j])
  {
    if s != [] && IsBoolPadding(s[0]) then TrimPaddingStart(s[1..]) else s
  }

  function TrimPaddingEnd(s: string): (r: string)
    ensures |r| <= |s| && r == s[..|r|]
    ensures r == [] || !IsBoolPadding(r[|r| - 1])
    ensures forall j :: |r| <= j < |s| ==> IsBoolPadding(s[j])
  {
    if s != [] && IsBoolPadding(s[|s| - 1]) then TrimPaddingEnd(s[..|s| - 1]) else s
  }

  /** bool.Parse: "True" or "False" ignoring case, white space and null characters around it;
      anything else throws (None). */
  function ParseBool(s: string): (r: Option<bool>)
    ensures r == Some(true) <==> EqualsIgnoreCase(TrimPaddingEnd(TrimPaddingStart(s)), "True")
    ensures r == Some(false) <==> EqualsIgnoreCase(TrimPaddingEnd(TrimPaddingStart(s)), "False")
  {
    var t := TrimPaddingEnd(TrimPaddingStart(s));
    if EqualsIgnoreCase(t, "True") then Some(true)
    else if EqualsIgnoreCase(t, "False") then Some(false)
    else None
  }

  /** Padding before a text that does not start with padding is trimmed exactly. */
  lemma {:induction false} TrimPaddingStartOf(pre: string, rest: string)
    requires forall j :: 0 <= j < |pre| ==> IsBoolPadding(pre[j])
    requires rest == [] || !IsBoolPadding(rest[0])
    ensures TrimPaddingStart(pre + rest) == rest
    decreases |pre|
  {
    if pre == [] {
      assert pre + rest == rest;
    } else {
      assert (pre + rest)[0] == pre[0];
      assert (pre + rest)[1..] == pre[1..] + rest;
      TrimPaddingStartOf(pre[1..], rest);
    }
  }

  /** Padding after a text that does not end with padding is trimmed exactly. */
  lemma {:induction false} TrimPaddingEndOf(front: string, post: string)
    requires forall j :: 0 <= j < |post| ==> IsBoolPadding(post[j])
    requires front == [] || !IsBoolPadding(front[|front| - 1])
    ensures TrimPaddingEnd(front + post) == front
    decreases |post|
  {
    if post == [] {
      assert front + post == front;
    } else {
      var s := front + post;
      assert s[|s| - 1] == post[|post| - 1];
      assert s[..|s| - 1] == front + post[..|post| - 1];
      TrimPaddingEndOf(front, post[..|post| - 1]);
    }
  }

  /** "True" and "False" in any case neither start nor end with padding, and are told apart. */
  lemma BoolWordEdges(word: string)
    requires EqualsIgnoreCase(word, "True") || EqualsIgnoreCase(word, "False")
    ensures word != [] && !IsBoolPadding(word[0]) && !IsBoolPadding(word[|word| - 1])
    ensures !(EqualsIgnoreCase(word, "True") && EqualsIgnoreCase(word, "False"))
  {
    assert |Fold(word)| == |word|;
    assert ToUpper(word[0]) == Fold(word)[0];
    assert ToUpper(word[|word| - 1]) == Fold(word)[|word| - 1];
  }

  /** A boolean word read by bool.Parse is found through any white space and null characters
      around it: `"True\0"` is true. */
  lemma ParseBoolPadded(pre: string, word: string, post: string)
    requires forall j :: 0 <= j < |pre| ==> IsBoolPadding(pre[j])
    requires forall j :: 0 <= j < |post| ==> IsBoolPadding(post[j])
    requires EqualsIgnoreCase(word, "True") || EqualsIgnoreCase(word, "False")
    ensures ParseBool(pre + word + post) == Some(EqualsIgnoreCase(word, "True"))
  {
    BoolWordEdges(word);
    assert (word + post)[0] == word[0];
    TrimPaddingStartOf(pre, word + post);
    assert pre + word + post == pre + (word + post);
    TrimPaddingEndOf(word, post);
  }

  /** `d.GetValueOrDefault(key)`: the saved properties are looked up by exact name. */
  function Saved(missing: Dict<string>, key: string): Option<string> {
    Get(Ordinal, missing, key)
  }

  // ---------------------------------------------------------------------------------------
  // The default-parameter fill of Execute.

  /** A parameter stored with the script: its name and the text of its default value. */
  datatype ScriptParameter = ScriptParameter(name: string, defaultText: Option<string>)

  /** The parameters whose default text is not empty, in order. */
  function WithDefaults(ps: seq<ScriptParameter>): (r: seq<ScriptParameter>)
    ensures forall p :: p in r <==> p in ps && !IsNullOrEmpty(p.defaultText)
    decreases |ps|
  {
    if ps == [] then []
    else (if IsNullOrEmpty(ps[0].defaultText) then [] else [ps[0]]) + WithDefaults(ps[1..])
  }

  predicate HasValue(d: Dict<string>, name: string) {
    !IsNullOrEmpty(Get(OrdinalIgnoreCase, d, name))
  }

  /** The value a default gives: the evaluated expression, or the raw text when evaluation
      throws (None). */
  function DefaultValue(p: ScriptParameter, evaluate: string -> Option<string>): string
    requires p.defaultText.Some?
  {
    var v := evaluate(p.defaultText.value);
    if v.Some? then v.value else p.defaultText.value
  }

  /** One parameter: filled in only when it has no value yet. */
  function FillOne(d: Dict<string>, p: ScriptParameter, evaluate: string -> Option<string>): Dict<string>
    requires p.defaultText.Some?
  {
    if HasValue(d, p.name) then d else Put(OrdinalIgnoreCase, d, p.name, DefaultValue(p, evaluate))
  }

  function FillDefaults(d: Dict<string>, ps: seq<ScriptParameter>, evaluate: string -> Option<string>): Dict<string>
    requires forall p :: p in ps ==> p.defaultText.Some?
    decreases |ps|
  {
    if ps == [] then d else FillDefaults(FillOne(d, ps[0], evaluate), ps[1..], evaluate)
  }

  /** One turn of the fill loop: the fill from parameter `i` on is parameter `i`'s fill followed
      by the fill of the rest. */
  lemma FillDefaultsStep(d: Dict<string>, ps: seq<ScriptParameter>, i: nat, evaluate: string -> Option<string>)
    requires forall p :: p in ps ==> p.defaultText.Some?
    requires i < |ps|
    ensures ps[i].defaultText.Some?
    ensures FillDefaults(d, ps[i..], evaluate) == FillDefaults(FillOne(d, ps[i], evaluate), ps[i + 1..], evaluate)
  {
    assert ps[i] in ps;
    assert ps[i..][0] == ps[i] && ps[i..][1..] == ps[i + 1..];
  }

  /** Lookups with keys equal ignoring case agree. */
  lemma GetSameKey(d: Dict<string>, a: string, b: string)
    requires EqualsIgnoreCase(a, b)
    ensures Get(OrdinalIgnoreCase, d, a) == Get(OrdinalIgnoreCase, d, b)
  {
    var fa := Find(OrdinalIgnoreCase, d, a);
    var fb := Find(OrdinalIgnoreCase, d, b);
    if fa.Some? {
      KeyEqIsEquivalence(OrdinalIgnoreCase, d[fa.value].0, a, b);
    }
    if fb.Some? {
      KeyEqIsEquivalence(OrdinalIgnoreCase, d[fb.value].0, b, a);
      KeyEqIsEquivalence(OrdinalIgnoreCase, a, b, a);
    }
  }

  /** Filling never overwrites a value that is already there, and keeps the keys distinct. */
  lemma {:induction false} FillKeepsValues(d: Dict<string>, ps: seq<ScriptParameter>, evaluate: string -> Option<string>, k: string)
    requires Valid(OrdinalIgnoreCase, d)
    requires forall p :: p in ps ==> p.defaultText.Some?
    requires HasValue(d, k)
    ensures Valid(OrdinalIgnoreCase, FillDefaults(d, ps, evaluate))
    ensures Get(OrdinalIgnoreCase, FillDefaults(d, ps, evaluate), k) == Get(OrdinalIgnoreCase, d, k)
    decreases |ps|
  {
    if ps != [] {
      var p := ps[0];
      var d1 := FillOne(d, p, evaluate);
      if !HasValue(d, p.name) {
        PutSpec(OrdinalIgnoreCase, d, p.name, DefaultValue(p, evaluate));
        if EqualsIgnoreCase(k, p.name) {
          GetSameKey(d, k, p.name);
        }
      }
      FillKeepsValues(d1, ps[1..], evaluate, k);
    }
  }

  /** Once filled, a parameter keeps a value: when no evaluation yields an empty string, every
      parameter with a default has a value afterwards. */
  lemma {:induction false} FillGivesValues(d: Dict<string>, ps: seq<ScriptParameter>, evaluate: string -> Option<string>, q: ScriptParameter)
    requires Valid(OrdinalIgnoreCase, d)
    requires forall p :: p in ps ==> p.defaultText.Some? && p.defaultText.value != "" && evaluate(p.defaultText.value) != Some("")
    requires q in ps
    ensures HasValue(FillDefaults(d, ps, evaluate), q.name)
    decreases |ps|
  {
    var p := ps[0];
    var d1 := FillOne(d, p, evaluate);
    if !HasValue(d, p.name) {
      PutSpec(OrdinalIgnoreCase, d, p.name, DefaultValue(p, evaluate));
    }
    if q == p {
      FillKeepsValues(d1, ps[1..], evaluate, p.name);
    } else {
      assert q in ps[1..];
      if !HasValue(d, p.name) {
        FillGivesValues(d1, ps[1..], evaluate, q);
      } else {
        FillGivesValues(d, ps[1..], evaluate, q);
      }
    }
  }

  class ScriptingAction {
    var scriptMode: ScriptMode
    var scriptFileName: Option<string>
    var scriptText: Option<string>
    var variableValues: Dict<string>
    var parameterValues: Dict<string>

    /** OnDeserializedMissingProperties: false when IsScriptFile is not a boolean (bool.Parse
        throws before anything is assigned). */
    method OnDeserializedMissingProperties(missing: Dict<string>, deserialize: string -> seq<string>)
      returns (ok: bool)
      modifies this
      ensures ok <==> IsScriptFileSetting(missing).Some?
      ensures !ok ==> unchanged(this)
      ensures ok && IsScriptFileSetting(missing).value ==>
        scriptMode == FileName && scriptFileName == Saved(missing, "Script") && scriptText == old(scriptText)
      ensures ok && !IsScriptFileSetting(missing).value ==>
        scriptMode == Direct && scriptText == Saved(missing, "Script") && scriptFileName == old(scriptFileName)
      ensures ok ==>
        variableValues == BuildDictionary(OrEmpty(Saved(missing, "Variables")), deserialize)
      ensures ok ==>
        parameterValues == BuildDictionary(OrEmpty(Saved(missing, "Parameters")), deserialize)
    {
      var variables := OrEmpty(Saved(missing, "Variables"));
      var parameters := OrEmpty(Saved(missing, "Parameters"));
      var script := Saved(missing, "Script");
      var isScriptFile := IsScriptFileSetting(missing);
      if isScriptFile.None? {
        return false;
      }
      SetScript(isScriptFile.value, script);
      variableValues := BuildDictionary(variables, deserialize);
      parameterValues := BuildDictionary(parameters, deserialize);
      ok := true;
    }

    /** A file name in FileName mode, inline text in Direct mode. */
    method SetScript(isScriptFile: bool, script: Option<string>)
      modifies this`scriptMode, this`scriptFileName, this`scriptText
      ensures isScriptFile ==> scriptMode == FileName && scriptFileName == script && scriptText == old(scriptText)
      ensures !isScriptFile ==> scriptMode == Direct && scriptText == script && scriptFileName == old(scriptFileName)
    {
      if isScriptFile {
        scriptMode := FileName;
        scriptFileName := script;
      } else {
        scriptMode := Direct;
        scriptText := script;
      }
    }

    /** The default fill at the start of Execute. */
    method FillParameterDefaults(overrideDefaults: bool, stored: seq<ScriptParameter>, evaluate: string -> Option<string>)
      modifies this`parameterValues
      ensures !overrideDefaults ==> parameterValues == old(parameterValues)
      ensures overrideDefaults ==> parameterValues == FillDefaults(old(parameterValues), WithDefaults(stored), evaluate)
    {
      if overrideDefaults {
        var parameterData := WithDefaults(stored);
        var values := parameterValues;
        var i := 0;
        while i < |parameterData|
          invariant i <= |parameterData|
          invariant forall p :: p in parameterData[i..] ==> p.defaultText.Some?
          invariant FillDefaults(old(parameterValues), parameterData, evaluate) ==
                    FillDefaults(values, parameterData[i..], evaluate)
        {
          var parameter := parameterData[i];
          FillDefaultsStep(values, parameterData, i, evaluate);
          ghost var next := FillOne(values, parameter, evaluate);
          if IsNullOrEmpty(Get(OrdinalIgnoreCase, values, parameter.name)) {
            var value := evaluate(parameter.defaultText.value);
            if value.Some? {
              values := Put(OrdinalIgnoreCase, values, parameter.name, value.value);
            } else {
              values := Put(OrdinalIgnoreCase, values, parameter.name, parameter.defaultText.value);
            }
          }
          assert values == next;
          assert forall p :: p in parameterData[i + 1..] ==> p in parameterData[i..];
          i := i + 1;
        }
        parameterValues := values;
      }
    }
  }

  /** `d.GetValueOrDefault(key, fallback)` when the key may be missing. */
  function OrEmptyOr(v: Option<string>, fallback: string): string {
    if v.Some? then v.value else fallback
  }

  /** `bool.Parse(missing.GetValueOrDefault("IsScriptFile", "False"))` */
  function IsScriptFileSetting(missing: Dict<string>): Option<bool> {
    ParseBool(OrEmptyOr(Saved(missing, "IsScriptFile"), "False"))
  }

  /** A missing IsScriptFile reads as False: the script becomes the inline text. */
  lemma MissingIsScriptFileIsFalse(missing: Dict<string>)
    requires Saved(missing, "IsScriptFile").None?
    ensures IsScriptFileSetting(missing) == Some(false)
  {
    var f := "False";
    assert !IsBoolPadding(f[0]) && !IsBoolPadding(f[|f| - 1]);
    assert TrimPaddingStart(f) == f;
    assert TrimPaddingEnd(f) == f;
  }
}

=== FILE: scripting_runner.dfy ===
/** Scripting.PowerShell.PowerShellScriptRunner: an active script that runs a PowerShell pipeline
    and relays what the script writes to its debug, error, verbose and warning streams and to its
    output collection as log events, until it is disposed. The pipeline itself is not modelled:
    each DataAdded event arrives as a call carrying the stream's collection and the new index. */
module ScriptingRunner {
  import opened Text
  import opened Logging

  datatype Stream = DebugStream | ErrorStream | VerboseStream | WarningStream | OutputStream

  /** The five handlers the constructor attaches. */
  const AllStreams: set<Stream> := {DebugStream, ErrorStream, VerboseStream, WarningStream, OutputStream}

  /** The level each handler logs at: debug and verbose records both at Debug, output at
      Information, errors and warnings at their own level. */
  function LevelOf(s: Stream): (l: Level)
    ensures l == Debug <==> s == DebugStream || s == VerboseStream
    ensures l == Error <==> s == ErrorStream
    ensures l == Warning <==> s == WarningStream
    ensures l == Information <==> s == OutputStream
  {
    match s
    case DebugStream => Debug
    case ErrorStream => Error
    case VerboseStream => Debug
    case WarningStream => Warning
    case OutputStream => Information
  }

  /** LogMessage: the item at `index` of the collection, by the text its ToString() gives (None
      for a null item). A null collection, a null item or an empty text logs nothing. */
  function Message(container: Option<seq<Option<string>>>, index: nat, level: Level): (evs: seq<LogEvent>)
    requires container.Some? ==> index < |container.value|
    ensures |evs| <= 1
    ensures |evs| == 1 <==>
              container.Some? && container.value[index].Some? && container.value[index].value != ""
    ensures |evs| == 1 ==> evs[0] == LogEvent(level, container.value[index].value)
  {
    if container.None? then []
    else match container.value[index]
      case None => []
      case Some(text) => if text == "" then [] else [LogEvent(level, text)]
  }

  class ScriptRunner {
    /** The streams whose DataAdded handler is attached. */
    var subscribed: set<Stream>
    var disposed: bool
    /** How many times the PowerShell object has been disposed. */
    var powerShellDisposals: nat
    /** What OnLogReceived raised, in order. */
    var log: seq<LogEvent>
    /** The arguments of each ScriptCompleted call, in order. */
    var completions: seq<bool>

    /** Live: every handler attached, the pipeline not disposed. Disposed: no handler attached,
        the pipeline disposed exactly once. */
    ghost predicate Valid()
      reads this
    {
      && (disposed ==> subscribed == {} && powerShellDisposals == 1)
      && (!disposed ==> subscribed == AllStreams && powerShellDisposals == 0)
    }

    constructor ()
      ensures Valid() && !disposed
      ensures log == [] && completions == []
    {
      subscribed := AllStreams;
      disposed := false;
      powerShellDisposals := 0;
      log := [];
      completions := [];
    }

    /** A record added to one of the streams; it is relayed only while that handler is attached. */
    method DataAdded(stream: Stream, container: Option<seq<Option<string>>>, index: nat)
      requires Valid()
      requires container.Some? ==> index < |container.value|
      modifies this`log
      ensures !disposed ==> log == old(log) + Message(container, index, LevelOf(stream))
      ensures disposed ==> log == old(log)
    {
      if stream in subscribed {
        log := log + Message(container, index, LevelOf(stream));
      }
    }

    /** The continuation after the pipeline ends: success without an exception; otherwise the
        inner exception's text is logged as an error and the script completes unsuccessfully. */
    method HandleScriptCompleted(innerException: Option<string>)
      modifies this`log, this`completions
      ensures innerException.None? ==> log == old(log) && completions == old(completions) + [true]
      ensures innerException.Some? ==>
                log == old(log) + [LogEvent(Error, innerException.value)] &&
                completions == old(completions) + [false]
    {
      if innerException.None? {
        completions := completions + [true];
        return;
      }
      log := log + [LogEvent(Error, innerException.value)];
      completions := completions + [false];
    }

    /** Dispose(disposing): the first disposing call detaches all five handlers and disposes the
        pipeline; any later call does neither. */
    method Dispose(disposing: bool)
      requires Valid()
      modifies this`subscribed, this`disposed, this`powerShellDisposals
      ensures Valid()
      ensures disposed == (old(disposed) || disposing)
      ensures old(disposed) ==> powerShellDisposals == old(powerShellDisposals)
    {
      if disposing && !disposed {
        subscribed := subscribed - AllStreams;
        powerShellDisposals := powerShellDisposals + 1;
        disposed := true;
      }
    }
  }
}

=== FILE: shell_action.dfy ===
/** Shell.ExecutePowerShellScriptAction: the legacy action's parsing of `Name=Value` lines into
    variables and parameters, its one-line description of the script, and how it logs the
    errors PowerShell reports. Running the script (a runspace and a host) is outside the model. */
module ShellScriptAction {
  import opened Text
  import opened Dictionary
  import opened Logging
  import PowerShellRunner

  /** A variable or parameter value: the text after `=`, or the boolean true for a bare name. */
  datatype Value = Str(text: string) | BoolTrue

  /** What one line contributes. */
  datatype Row =
    | Blank                                   // null or empty: skipped
    | Malformed                               // no name is left once `$` is trimmed: throws
    | NoValue(name: string)                   // `name=`: skipped with a debug message
    | Definition(name: string, value: Value)

  function ParseRow(row: Option<string>): Row {
    if IsNullOrEmpty(row) then Blank
    else
      var pair := SplitFirst(row.value, '=');
      var name := TrimStartChar(pair[0], '$');
      if name == "" then Malformed
      else if |pair| == 2 && pair[1] == "" then NoValue(name)
      else Definition(name, if |pair| == 2 then Str(pair[1]) else BoolTrue)
  }

  /** A line `name=value` defines the name without its leading `$`s as the whole text after the
      first `=`, which may itself hold `=`. */
  lemma DefinitionTakesRestOfLine(n: string, v: string)
    requires '=' !in n && TrimStartChar(n, '$') != "" && v != ""
    ensures ParseRow(Some(n + "=" + v)) == Definition(TrimStartChar(n, '$'), Str(v))
  {
    SplitFirstAt(n, '=', v);
  }

  /** A line `name=` defines nothing. */
  lemma EmptyValueIsSkipped(n: string)
    requires '=' !in n && TrimStartChar(n, '$') != ""
    ensures ParseRow(Some(n + "=")) == NoValue(TrimStartChar(n, '$'))
  {
    SplitFirstAt(n, '=', "");
    assert n + "=" + "" == n + "=";
  }

  /** A line without `=` sets the name to true. */
  lemma BareNameIsTrue(n: string)
    requires '=' !in n && TrimStartChar(n, '$') != ""
    ensures ParseRow(Some(n)) == Definition(TrimStartChar(n, '$'), BoolTrue)
  {
  }

  /** A line whose name is only `$`s (or nothing) is malformed. */
  lemma EmptyNameIsMalformed(n: string, v: Option<string>)
    requires '=' !in n && forall i :: 0 <= i < |n| ==> n[i] == '$'
    requires n != [] || v.Some?
    ensures ParseRow(Some(if v.Some? then n + "=" + v.value else n)) == Malformed
  {
    if v.Some? {
      SplitFirstAt(n, '=', v.value);
    }
    var k :| 0 <= k <= |n| && TrimStartChar(n, '$') == n[k..];
  }

  // ---------------------------------------------------------------------------------------
  // The dictionary the lines build.

  /** The debug message for a line with an empty value as intended, naming the variable. */
  function SkipMessage(name: string): (e: LogEvent)
    ensures e.level == Debug
  {
    LogEvent(Debug, "Variable or parameter \"" + name + "\" has no value, skipping.")
  }

  /** The debug message the parse logs for a line with an empty value: the format string is
      logged without an argument, so its format item is never filled in. */
  function SkipMessageAsWritten(name: string): (e: LogEvent)
    ensures e.level == Debug
  {
    LogEvent(Debug, "Variable or parameter \"{0}\" has no value, skipping.")
  }

  /** As written, the message cannot tell two skipped names apart. */
  lemma SkipMessageAsWrittenOmitsName()
    ensures SkipMessageAsWritten("a") == SkipMessageAsWritten("b")
  {
  }

  /** The corrected message names the variable it skips: different names give different
      messages. */
  lemma SkipMessageNamesVariable(a: string, b: string)
    ensures SkipMessage(a) == SkipMessage(b) ==> a == b
  {
    var pre := "Variable or parameter \"";
    var post := "\" has no value, skipping.";
    if SkipMessage(a) == SkipMessage(b) {
      var ma := pre + a + post;
      var mb := pre + b + post;
      assert |a| == |b|;
      forall i | 0 <= i < |a| ensures a[i] == b[i] {
        assert ma[|pre| + i] == a[i];
        assert mb[|pre| + i] == b[i];
      }
    }
  }

  /** The debug message the parse logs for a name it already holds; the name stands after the
      opening quote. */
  function OverwriteMessage(name: string): (e: LogEvent)
    ensures e.level == Debug
    ensures |e.message| > 23 + |name| && e.message[23..23 + |name|] == name
  {
    LogEvent(Debug, "Variable or parameter \"" + name + "\" already declared, existing value will be overwritten.")
  }

  /** The overwrite message names the variable: different names give different messages. */
  lemma OverwriteMessageNamesVariable(a: string, b: string)
    ensures OverwriteMessage(a) == OverwriteMessage(b) ==> a == b
  {
    var post := "\" already declared, existing value will be overwritten.";
    if OverwriteMessage(a) == OverwriteMessage(b) {
      assert |a| == |b| by {
        assert |OverwriteMessage(a).message| == 23 + |a| + |post|;
        assert |OverwriteMessage(b).message| == 23 + |b| + |post|;
      }
    }
  }

  /** The state of the parse after some lines: whether it threw, the dictionary and the debug
      messages logged. */
  datatype Parse = Parse(ok: bool, result: Dict<Value>, debug: seq<LogEvent>)

  /** One line applied to the state before it. */
  function ParseStep(p: Parse, row: Row): Parse {
    if !p.ok then p
    else match row
      case Blank => p
      case Malformed => Parse(false, p.result, p.debug)
      case NoValue(name) => Parse(true, p.result, p.debug + [SkipMessageAsWritten(name)])
      case Definition(name, value) =>
        var message := if ContainsKey(OrdinalIgnoreCase, p.result, name) then [OverwriteMessage(name)] else [];
        Parse(true, Put(OrdinalIgnoreCase, p.result, name, value), p.debug + message)
  }

  /** The lines, each read on its own. */
  function RowsOf(lines: seq<Option<string>>): (rs: seq<Row>)
    ensures |rs| == |lines| && forall i :: 0 <= i < |lines| ==> rs[i] == ParseRow(lines[i])
  {
    seq(|lines|, i requires 0 <= i < |lines| => ParseRow(lines[i]))
  }

  function ParseRows(rs: seq<Row>): Parse
    decreases |rs|
  {
    if rs == [] then Parse(true, [], [])
    else ParseStep(ParseRows(rs[..|rs| - 1]), rs[|rs| - 1])
  }

  /** The name/value pairs the lines define, in order. */
  function Definitions(rs: seq<Row>): seq<(string, Value)>
    decreases |rs|
  {
    if rs == [] then []
    else
      var last := rs[|rs| - 1];
      Definitions(rs[..|rs| - 1]) + (if last.Definition? then [(last.name, last.value)] else [])
  }

  predicate AnyMalformed(rs: seq<Row>) {
    exists i :: 0 <= i < |rs| && rs[i].Malformed?
  }

  /** The parse throws exactly when some line is malformed. */
  lemma {:induction false} ParseRowsFails(rs: seq<Row>)
    ensures ParseRows(rs).ok <==> !AnyMalformed(rs)
    decreases |rs|
  {
    if rs != [] {
      var init := rs[..|rs| - 1];
      ParseRowsFails(init);
      if AnyMalformed(init) {
        var i :| 0 <= i < |init| && init[i].Malformed?;
        assert rs[i].Malformed?;
      }
      if AnyMalformed(rs) && !rs[|rs| - 1].Malformed? {
        var i :| 0 <= i < |rs| && rs[i].Malformed?;
        assert init[i].Malformed?;
      }
    }
  }

  /** Without a malformed line, the dictionary is the definitions assigned in order. */
  lemma {:induction false} ParseRowsResult(rs: seq<Row>)
    ensures ParseRows(rs).ok ==> ParseRows(rs).result == PutAll(OrdinalIgnoreCase, [], Definitions(rs))
    decreases |rs|
  {
    if rs != [] {
      var init := rs[..|rs| - 1];
      var last := rs[|rs| - 1];
      ParseRowsResult(init);
      assert ParseRows(rs) == ParseStep(ParseRows(init), last);
      if ParseRows(rs).ok && last.Definition? {
        assert Definitions(rs) == Definitions(init) + [(last.name, last.value)];
        assert ParseRows(rs).result == Put(OrdinalIgnoreCase, ParseRows(init).result, last.name, last.value);
        PutAllAppend(OrdinalIgnoreCase, [], Definitions(init), (last.name, last.value));
      } else if ParseRows(rs).ok {
        assert ParseRows(init).ok;
        assert Definitions(rs) == Definitions(init);
      }
    }
  }

  /** Names compare ignoring case; a later definition overwrites an earlier one. */
  lemma ParseLastWins(rs: seq<Row>, k: string)
    requires !AnyMalformed(rs)
    ensures Valid(OrdinalIgnoreCase, ParseRows(rs).result)
    ensures Get(OrdinalIgnoreCase, ParseRows(rs).result, k) == LastValue(OrdinalIgnoreCase, Definitions(rs), k)
  {
    ParseRowsFails(rs);
    ParseRowsResult(rs);
    PutAllLastWins(OrdinalIgnoreCase, [], Definitions(rs));
  }

  /** A key keeps the spelling of its first definition: the keys are the names added, in order,
      to a case-insensitive set. */
  lemma ParseKeepsFirstSpelling(rs: seq<Row>)
    requires !AnyMalformed(rs)
    ensures Keys(ParseRows(rs).result) == PowerShellRunner.AddAll([], Keys(Definitions(rs)))
  {
    ParseRowsFails(rs);
    ParseRowsResult(rs);
    PutAllKeys(Definitions(rs));
  }

  lemma KeysPut<V>(d: Dict<V>, k: string, v: V)
    ensures Keys(Put(OrdinalIgnoreCase, d, k, v)) == PowerShellRunner.HashSetAdd(Keys(d), k)
  {
    match Find(OrdinalIgnoreCase, d, k)
    case None =>
      assert !PowerShellRunner.ContainsIgnoreCase(Keys(d), k);
      assert Keys(d + [(k, v)]) == Keys(d) + [k];
    case Some(i) =>
      assert Keys(d)[i] == d[i].0;
  }

  lemma {:induction false} PutAllKeys<V>(pairs: seq<(string, V)>)
    ensures Keys(PutAll(OrdinalIgnoreCase, [], pairs)) == PowerShellRunner.AddAll([], Keys(pairs))
    decreases |pairs|
  {
    if pairs != [] {
      var init := pairs[..|pairs| - 1];
      var last := pairs[|pairs| - 1];
      assert pairs == init + [last];
      assert Keys(pairs) == Keys(init) + [last.0];
      PutAllKeys(init);
      PutAllAppend(OrdinalIgnoreCase, [], init, last);
      KeysPut(PutAll(OrdinalIgnoreCase, [], init), last.0, last.1);
      PowerShellRunner.AddAllAppend([], Keys(init), last.0);
    }
  }

  /** Once the parse has thrown, later lines change nothing. */
  lemma {:induction false} FailureStays(rs: seq<Row>, j: nat)
    requires j <= |rs| && !ParseRows(rs[..j]).ok
    ensures ParseRows(rs) == ParseRows(rs[..j])
    decreases |rs|
  {
    if j < |rs| {
      var init := rs[..|rs| - 1];
      assert init[..j] == rs[..j];
      FailureStays(init, j);
    } else {
      assert rs[..j] == rs;
    }
  }

  /** One well-formed line: the new dictionary and the debug messages it logs. */
  method ApplyRow(d: Dict<Value>, row: Row) returns (r: Dict<Value>, messages: seq<LogEvent>)
    requires !row.Malformed?
    ensures forall prior :: ParseStep(Parse(true, d, prior), row) == Parse(true, r, prior + messages)
  {
    r, messages := d, [];
    if row.NoValue? {
      messages := [SkipMessageAsWritten(row.name)];
    } else if row.Definition? {
      if ContainsKey(OrdinalIgnoreCase, d, row.name) {
        messages := [OverwriteMessage(row.name)];
      }
      r := Put(OrdinalIgnoreCase, d, row.name, row.value);
    }
  }

  /** The loop of ParseKeyValuePairsFromLines: stops at the first malformed line. */
  method ParseLines(rows: seq<Option<string>>) returns (ok: bool, d: Dict<Value>, debug: seq<LogEvent>)
    ensures ParseRows(RowsOf(rows)) == Parse(ok, d, debug)
  {
    ghost var rs := RowsOf(rows);
    d, debug := [], [];
    var i := 0;
    while i < |rows|
      invariant i <= |rows|
      invariant ParseRows(rs[..i]) == Parse(true, d, debug)
    {
      assert rs[..i + 1][..i] == rs[..i];
      var row := ParseRow(rows[i]);
      if row.Malformed? {
        FailureStays(rs, i + 1);
        return false, d, debug;
      }
      var messages;
      d, messages := ApplyRow(d, row);
      debug := debug + messages;
      i := i + 1;
    }
    assert rs[..i] == rs;
    ok := true;
  }

  // ---------------------------------------------------------------------------------------
  // The description of the script.

  const NewLine: string := "\r\n"
  const MaxShown: nat := 100

  /** GetScriptText: a file is named as such; inline text is cut to 100 characters and an
      ellipsis, its line breaks become spaces, and it is quoted. */
  function GetScriptText(isScriptFile: bool, script: Option<string>): (r: string)
    ensures |r| >= 2 && r[|r| - 1] == '\''
  {
    if isScriptFile then "file '" + OrEmpty(script) + "'"
    else
      var text := OrEmpty(script);
      var shown := if |text| > MaxShown then text[..MaxShown] + "..." else text;
      "'" + ReplaceAll(shown, NewLine, " ") + "'"
  }

  /** ToString */
  function Describe(isScriptFile: bool, script: Option<string>): string {
    "Runs the PowerShell script " + GetScriptText(isScriptFile, script)
  }

  /** The inline text shown never holds a line break and is at most 105 characters with its
      quotes; a short one-line script is shown whole. */
  lemma InlineScriptText(script: Option<string>)
    ensures forall k: nat :: !OccursAt(GetScriptText(false, script), NewLine, k)
    ensures |GetScriptText(false, script)| <= MaxShown + 5
    ensures |OrEmpty(script)| <= MaxShown && '\r' !in OrEmpty(script) ==>
      GetScriptText(false, script) == "'" + OrEmpty(script) + "'"
  {
    var text := OrEmpty(script);
    var shown := if |text| > MaxShown then text[..MaxShown] + "..." else text;
    var replaced := ReplaceAll(shown, NewLine, " ");
    ReplaceNewLineSpec(shown);
    var r := "'" + replaced + "'";
    forall k: nat ensures !OccursAt(r, NewLine, k) {
      NewLineAt(r, k);
      if 0 < k {
        NewLineAt(replaced, k - 1);
      }
    }
    if '\r' !in text && |text| <= MaxShown {
      ReplaceWithoutReturn(text);
    }
  }

  /** A file is named with its (possibly null) name in quotes. */
  lemma FileScriptText(script: Option<string>)
    ensures GetScriptText(true, script) == "file '" + OrEmpty(script) + "'"
  {
  }

  lemma NewLineAt(s: string, k: nat)
    ensures OccursAt(s, NewLine, k) <==> k + 1 < |s| && s[k] == '\r' && s[k + 1] == '\n'
  {
    if k + 1 < |s| {
      assert s[k..k + 2] == [s[k], s[k + 1]];
    }
  }

  lemma {:induction false} ReplaceNewLineSpec(s: string)
    ensures |ReplaceAll(s, NewLine, " ")| <= |s|
    ensures forall k: nat :: !OccursAt(ReplaceAll(s, NewLine, " "), NewLine, k)
    ensures s != [] ==> ReplaceAll(s, NewLine, " ")[0] == (if OccursAt(s, NewLine, 0) then ' ' else s[0])
    decreases |s|
  {
    var r := ReplaceAll(s, NewLine, " ");
    NewLineAt(s, 0);
    if |s| >= 2 {
      var rest := if s[..2] == NewLine then s[2..] else s[1..];
      ReplaceNewLineSpec(rest);
      var tail := ReplaceAll(rest, NewLine, " ");
      assert r == [r[0]] + tail;
      forall k: nat ensures !OccursAt(r, NewLine, k) {
        NewLineAt(r, k);
        if k == 0 {
          NewLineAt(rest, 0);
        } else {
          NewLineAt(tail, k - 1);
        }
      }
    } else {
      assert r == s;
      forall k: nat ensures !OccursAt(r, NewLine, k) {
        NewLineAt(r, k);
      }
    }
  }

  lemma {:induction false} ReplaceWithoutReturn(s: string)
    requires '\r' !in s
    ensures ReplaceAll(s, NewLine, " ") == s
    decreases |s|
  {
    if |s| >= 2 {
      assert s[0] != '\r';
      assert s[1..][..] == s[1..];
      assert forall c :: c in s[1..] ==> c in s;
      ReplaceWithoutReturn(s[1..]);
    }
  }

  // ---------------------------------------------------------------------------------------
  // Errors.

  const WriteHostErrorId: string := "HostFunctionNotImplemented,Microsoft.PowerShell.Commands.WriteHostCommand"
  const WriteHostExplanation: string :=
    "PowerShell returned the error: \"Cannot invoke this function because the current host does not implement it\". BuildMaster cannot handle the \"write-host\" cmdlet, please use \"write-output\" instead."

  /** An error record: its fully qualified id and its exception's message. */
  datatype ErrorRecord = ErrorRecord(fullyQualifiedErrorId: string, message: string)

  /** The event LogPowerShellError logs for a record. */
  function ErrorEvent(error: ErrorRecord): (e: LogEvent)
    ensures e.level == Error
    ensures error.fullyQualifiedErrorId == WriteHostErrorId ==> e.message == WriteHostExplanation
    ensures error.fullyQualifiedErrorId != WriteHostErrorId ==> e.message == error.message
  {
    if error.fullyQualifiedErrorId == WriteHostErrorId then LogEvent(Error, WriteHostExplanation)
    else LogEvent(Error, error.message)
  }

  function ErrorEvents(errors: seq<ErrorRecord>): (es: seq<LogEvent>)
    ensures |es| == |errors| && forall i :: 0 <= i < |errors| ==> es[i] == ErrorEvent(errors[i])
  {
    seq(|errors|, i requires 0 <= i < |errors| => ErrorEvent(errors[i]))
  }

  class ShellAction {
    var isScriptFile: bool
    var script: Option<string>
    var variables: Option<seq<Option<string>>>
    var parameters: Option<seq<Option<string>>>
    var logResults: bool
    /** What the action has logged. */
    var log: seq<LogEvent>

    /** A new action logs its results. */
    constructor()
      ensures logResults && !isScriptFile && script.None? && variables.None? && parameters.None?
      ensures log == []
    {
      isScriptFile := false;
      script := None;
      variables := None;
      parameters := None;
      logResults := true;
      log := [];
    }

    /** ParseKeyValuePairsFromLines: None when it throws InvalidDataException. The debug
        messages of the lines before are logged either way. */
    method ParseKeyValuePairsFromLines(lines: Option<seq<Option<string>>>) returns (result: Option<Dict<Value>>)
      modifies this`log
      ensures var p := ParseRows(RowsOf(if lines.Some? then lines.value else []));
        && (result.Some? <==> p.ok)
        && (result.Some? ==> result.value == p.result)
        && log == old(log) + p.debug
    {
      var ok, d, debug := ParseLines(if lines.Some? then lines.value else []);
      log := log + debug;
      result := if ok then Some(d) else None;
    }

    method LogPowerShellError(error: ErrorRecord)
      modifies this`log
      ensures log == old(log) + [ErrorEvent(error)]
    {
      log := log + [ErrorEvent(error)];
    }

    /** Error_DataAdded: every record the error stream holds is logged, each time one arrives. */
    method ErrorDataAdded(errors: seq<ErrorRecord>)
      modifies this`log
      ensures log == old(log) + ErrorEvents(errors)
    {
      var i := 0;
      while i < |errors|
        invariant i <= |errors|
        invariant log == old(log) + ErrorEvents(errors[..i])
      {
        LogPowerShellError(errors[i]);
        assert ErrorEvents(errors[..i + 1]) == ErrorEvents(errors[..i]) + [ErrorEvent(errors[i])];
        i := i + 1;
      }
      assert errors[..i] == errors;
    }
  }
}

=== FILE: sql_provider.dfy ===
/** SqlServer.SqlServerDatabaseProvider: the change-script provider for SQL Server. It checks the
    version of its bookkeeping schema, runs a change script batch by batch while recording each
    batch in __BuildMaster_DbSchemaChanges, builds the SQL text of its inserts, backups and
    restores with the quoting SQL Server needs, and may hold one shared connection. The database
    is not modelled: the schema version it reports is an input, and each batch's outcome (the
    messages SQL Server sent while it ran and the exception it threw, if any) is an oracle. */
module SqlProvider {
  import opened Text
  import opened Logging
  import opened SqlSplitter

  // ---------------------------------------------------------------------------------------
  // ValidateInitialization.

  datatype ProviderScript = ReInitFrom1 | ReInitFrom2

  /** What a schema version leads to: an InvalidOperationException, or the upgrade script run
      (None when the schema is current). */
  datatype Dispatch = Throws(message: string) | Runs(script: Option<ProviderScript>)

  function ValidateInitialization(version: int): (d: Dispatch)
    ensures d.Runs? <==> 1 <= version <= 3
    ensures d == Runs(None) <==> version == 3
    ensures version == 1 ==> d == Runs(Some(ReInitFrom1))
    ensures version == 2 ==> d == Runs(Some(ReInitFrom2))
    ensures version == 0 ==> d == Throws("Database Not Initialized")
    ensures !(0 <= version <= 3) ==> d == Throws("Unexpected Ver:" + IntToString(version))
  {
    if version == 0 then Throws("Database Not Initialized")
    else if version == 1 then Runs(Some(ReInitFrom1))
    else if version == 2 then Runs(Some(ReInitFrom2))
    else if version == 3 then Runs(None)
    else Throws("Unexpected Ver:" + IntToString(version))
  }

  // ---------------------------------------------------------------------------------------
  // Quoting.

  /** `Replace("'", "''")` or `Replace("]", "]]")`: the quote character doubled. */
  function Escape(s: string, q: char): string {
    ReplaceAll(s, [q], [q, q])
  }

  /** How SQL Server reads the body of a literal closed by `q`: a doubled `q` stands for one; a
      lone `q` would end the literal early (None). */
  function Unescape(t: string, q: char): (r: Option<string>)
    decreases |t|
  {
    if t == [] then Some([])
    else if t[0] != q then
      match Unescape(t[1..], q)
      case None => None
      case Some(u) => Some([t[0]] + u)
    else if |t| >= 2 && t[1] == q then
      match Unescape(t[2..], q)
      case None => None
      case Some(u) => Some([q] + u)
    else None
  }

  /** Every quote is doubled, so the escaped text stays inside its literal and reads back as the
      original. */
  lemma {:induction false} UnescapeEscape(s: string, q: char)
    ensures Unescape(Escape(s, q), q) == Some(s)
    decreases |s|
  {
    if |s| >= 1 {
      UnescapeEscape(s[1..], q);
      if s[..1] == [q] {
        assert Escape(s, q) == [q, q] + Escape(s[1..], q);
        assert ([q, q] + Escape(s[1..], q))[2..] == Escape(s[1..], q);
        assert s == [q] + s[1..];
      } else {
        assert Escape(s, q) == [s[0]] + Escape(s[1..], q);
        assert ([s[0]] + Escape(s[1..], q))[1..] == Escape(s[1..], q);
        assert s == [s[0]] + s[1..];
      }
    }
  }

  /** Text without the quote character is left as it is. */
  lemma {:induction false} EscapeWithoutQuote(s: string, q: char)
    requires q !in s
    ensures Escape(s, q) == s
    decreases |s|
  {
    if |s| >= 1 {
      assert s[..1] != [q] by {
        assert s[..1][0] == s[0];
      }
      EscapeWithoutQuote(s[1..], q);
      assert s == [s[0]] + s[1..];
    }
  }

  function Indicator(success: bool): string {
    if success then "Y" else "N"
  }

  /** A row of __BuildMaster_DbSchemaChanges. */
  datatype SchemaChange = SchemaChange(release: int, scriptId: int, batchName: string, sequence: int, success: bool)

  /** The statement InsertSchemaChange sends. */
  function InsertStatement(c: SchemaChange): string {
    "INSERT INTO __BuildMaster_DbSchemaChanges  (Numeric_Release_Number, Script_Id, Script_Sequence, " +
    "Batch_Name, Executed_Date, Success_Indicator) VALUES (" +
    IntToString(c.release) + ", " + IntToString(c.scriptId) + ", " + IntToString(c.sequence) + ", '" +
    Escape(c.batchName, '\'') + "', GETDATE(), '" + Indicator(c.success) + "')"
  }

  function InsertStatements(cs: seq<SchemaChange>): seq<string> {
    seq(|cs|, i requires 0 <= i < |cs| => InsertStatement(cs[i]))
  }

  function BackupStatement(databaseName: string, destinationPath: string): string {
    "BACKUP DATABASE [" + Escape(databaseName, ']') + "] TO DISK = N'" + Escape(destinationPath, '\'') +
    "' WITH FORMAT"
  }

  /** The four statements of RestoreDatabase, in order. */
  function RestoreStatements(databaseName: string, sourcePath: string): (ss: seq<string>)
    ensures |ss| == 4
  {
    var bracketed := Escape(databaseName, ']');
    [ "USE master IF DB_ID('" + Escape(databaseName, '\'') + "') IS NULL CREATE DATABASE [" + bracketed + "]",
      "ALTER DATABASE [" + bracketed + "] SET SINGLE_USER WITH ROLLBACK IMMEDIATE",
      "USE master RESTORE DATABASE [" + bracketed + "] FROM DISK = N'" + Escape(sourcePath, '\'') + "' WITH REPLACE",
      "ALTER DATABASE [" + bracketed + "] SET MULTI_USER" ]
  }

  // ---------------------------------------------------------------------------------------
  // ExecuteChangeScript.

  datatype ResultKind = Success | Failed | Skipped

  datatype ExecutionResult = ExecutionResult(result: ResultKind, message: string)

  /** What one batch did: the messages logged while it ran, and the exception's message if it threw. */
  datatype BatchOutcome = BatchOutcome(messages: seq<LogEvent>, exception: Option<string>)

  /** Util.ConcatNE: the concatenation, or "" when the text is empty. */
  function ConcatNE(prefix: string, text: string): string {
    if text == "" then "" else prefix + text
  }

  function ScriptPrefix(scriptName: string): string {
    "The script \"" + scriptName + "\""
  }

  function GetExecutionResult(kind: ResultKind, scriptName: string, ex: Option<string>, buffer: string): (r: ExecutionResult)
    ensures r.result == kind
    ensures StartsWith(r.message, ScriptPrefix(scriptName))
    ensures kind == Skipped ==> r.message == ScriptPrefix(scriptName) + " was already executed."
  {
    var prefix := ScriptPrefix(scriptName);
    var m :=
      if kind == Skipped then prefix + " was already executed."
      else if kind == Success then prefix + " executed successfully." + ConcatNE(" SQL Output: ", buffer)
      else if ex.Some? then
        prefix + " execution encountered a fatal error. Error details: " + ex.value +
        ConcatNE(" Additional SQL Output: ", buffer)
      else prefix + " execution failed." + ConcatNE(" SQL Error: ", buffer);
    assert m[..|prefix|] == prefix;
    ExecutionResult(kind, m)
  }

  /** StringBuilder.AppendLine for each message. */
  function Lines(events: seq<LogEvent>): string
    decreases |events|
  {
    if events == [] then ""
    else Lines(events[..|events| - 1]) + events[|events| - 1].message + "\r\n"
  }

  lemma {:induction false} LinesAppend(a: seq<LogEvent>, b: seq<LogEvent>)
    ensures Lines(a + b) == Lines(a) + Lines(b)
    decreases |b|
  {
    if b == [] {
      assert a + b == a;
    } else {
      assert (a + b)[..|a + b| - 1] == a + b[..|b| - 1];
      LinesAppend(a, b[..|b| - 1]);
    }
  }

  /** The messages of the given batches, in order. */
  function AllMessages(outcomes: seq<BatchOutcome>): seq<LogEvent>
    decreases |outcomes|
  {
    if outcomes == [] then []
    else AllMessages(outcomes[..|outcomes| - 1]) + outcomes[|outcomes| - 1].messages
  }

  /** A batch ends the script when it throws, or when an error-level message arrived while it ran. */
  predicate Stops(o: BatchOutcome) {
    o.exception.Some? || HasError(o.messages)
  }

  /** Whether an error-level message is among the events (the handler's errorOccured flag). */
  predicate HasError(events: seq<LogEvent>) {
    exists i :: 0 <= i < |events| && events[i].level == Error
  }

  /** The first batch at or after `from` that ends the script, or the number of batches. */
  function FirstStop(outcomes: seq<BatchOutcome>, from: nat): (k: nat)
    requires from <= |outcomes|
    ensures from <= k <= |outcomes|
    ensures k < |outcomes| ==> Stops(outcomes[k])
    ensures forall j :: from <= j < k ==> !Stops(outcomes[j])
    decreases |outcomes| - from
  {
    if from == |outcomes| || Stops(outcomes[from]) then from else FirstStop(outcomes, from + 1)
  }

  /** The outcome of each batch, numbered from 1. */
  function Outcomes(batches: seq<string>, run: (nat, string) -> BatchOutcome): (os: seq<BatchOutcome>)
    ensures |os| == |batches| && forall i :: 0 <= i < |batches| ==> os[i] == run(i + 1, batches[i])
  {
    seq(|batches|, i requires 0 <= i < |batches| => run(i + 1, batches[i]))
  }

  /** A run of the batches: the rows it recorded, how it ended, the exception that ended it, and
      the SQL output buffered while it ran. */
  datatype Execution = Execution(rows: seq<SchemaChange>, kind: ResultKind, exception: Option<string>, output: string)

  function ResultOf(scriptName: string, e: Execution): ExecutionResult {
    GetExecutionResult(e.kind, scriptName, e.exception, e.output)
  }

  /** Running the batches: every batch up to and including the first that ends the script is
      recorded, 'N' only for one that threw; the messages of those batches are the SQL output. */
  function Execute(release: int, scriptId: int, scriptName: string, outcomes: seq<BatchOutcome>): Execution {
    var k := FirstStop(outcomes, 0);
    var attempted := if k < |outcomes| then k + 1 else |outcomes|;
    var buffer := Lines(AllMessages(outcomes[..attempted]));
    Execution(
      seq(attempted, j requires 0 <= j < attempted =>
        SchemaChange(release, scriptId, scriptName, j + 1, j < k || outcomes[j].exception.None?)),
      if k == |outcomes| then Success else Failed,
      if k == |outcomes| then None else outcomes[k].exception,
      buffer)
  }

  /** The records: one per attempted batch, numbered from 1, no batch after the first that ends
      the script; only a batch that threw is recorded as failed, and success means no batch ended
      the script. */
  lemma ExecuteRecords(release: int, scriptId: int, scriptName: string, outcomes: seq<BatchOutcome>)
    ensures var e := Execute(release, scriptId, scriptName, outcomes);
            var k := FirstStop(outcomes, 0);
            && |e.rows| == (if k < |outcomes| then k + 1 else |outcomes|)
            && (forall j :: 0 <= j < |e.rows| ==>
                  e.rows[j] == SchemaChange(release, scriptId, scriptName, j + 1, e.rows[j].success))
            && (forall j :: 0 <= j < |e.rows| ==>
                  (!e.rows[j].success <==> j == k && outcomes[j].exception.Some?))
            && (e.kind == Success <==> forall j :: 0 <= j < |outcomes| ==> !Stops(outcomes[j]))
            && (e.kind == Success || e.kind == Failed)
            && (e.exception.Some? <==> k < |outcomes| && outcomes[k].exception.Some?)
            && (e.exception.Some? ==> e.exception == outcomes[k].exception)
  {
  }

  /** SqlCommand refuses an empty command text: running an empty batch throws. */
  ghost predicate RefusesEmptyBatch(run: (nat, string) -> BatchOutcome) {
    forall i: nat :: run(i, "").exception.Some?
  }

  /** A script with an empty batch (a script starting with a `GO` line has one) fails at that
      batch at the latest. */
  lemma EmptyBatchFails(release: int, scriptId: int, scriptName: string, batches: seq<string>,
                        run: (nat, string) -> BatchOutcome, i: nat)
    requires RefusesEmptyBatch(run) && i < |batches| && batches[i] == ""
    ensures var e := Execute(release, scriptId, scriptName, Outcomes(batches, run));
            e.kind == Failed && FirstStop(Outcomes(batches, run), 0) <= i
  {
    var os := Outcomes(batches, run);
    assert os[i] == run(i + 1, "");
    assert Stops(os[i]);
    ExecuteRecords(release, scriptId, scriptName, os);
  }

  /** A script whose run recorded at least one batch is found by the next run's check. */
  lemma RecordedAfterRun(changes: seq<SchemaChange>, release: int, scriptId: int, scriptName: string,
                         outcomes: seq<BatchOutcome>)
    requires Execute(release, scriptId, scriptName, outcomes).rows != []
    ensures Recorded(changes + Execute(release, scriptId, scriptName, outcomes).rows, scriptId)
  {
    var rows := Execute(release, scriptId, scriptName, outcomes).rows;
    assert (changes + rows)[|changes|] == rows[0];
  }

  /** `tables.Select("Script_Id=" + scriptId).Length > 0` */
  predicate Recorded(changes: seq<SchemaChange>, scriptId: int) {
    exists i :: 0 <= i < |changes| && changes[i].scriptId == scriptId
  }

  /** The rows of `n` batches that all completed without ending the script. */
  function SucceededRows(release: int, scriptId: int, scriptName: string, n: nat): seq<SchemaChange> {
    seq(n, j requires 0 <= j < n => SchemaChange(release, scriptId, scriptName, j + 1, true))
  }

  lemma SucceededRowsNext(release: int, scriptId: int, scriptName: string, n: nat, success: bool)
    ensures SucceededRows(release, scriptId, scriptName, n) + [SchemaChange(release, scriptId, scriptName, n + 1, success)]
            == seq(n + 1, j requires 0 <= j < n + 1 =>
                 SchemaChange(release, scriptId, scriptName, j + 1, j < n || success))
  {
  }

  /** Execute when batch `k` is the first to end the script. */
  lemma ExecuteStopped(release: int, scriptId: int, scriptName: string, os: seq<BatchOutcome>, k: nat)
    requires k < |os| && Stops(os[k])
    requires forall j :: 0 <= j < k ==> !Stops(os[j])
    ensures Execute(release, scriptId, scriptName, os) ==
              Execution(SucceededRows(release, scriptId, scriptName, k) +
                          [SchemaChange(release, scriptId, scriptName, k + 1, os[k].exception.None?)],
                        Failed, os[k].exception, Lines(AllMessages(os[..k + 1])))
  {
    assert FirstStop(os, 0) == k;
    SucceededRowsNext(release, scriptId, scriptName, k, os[k].exception.None?);
  }

  /** Execute when no batch ends the script. */
  lemma ExecuteCompleted(release: int, scriptId: int, scriptName: string, os: seq<BatchOutcome>)
    requires forall j :: 0 <= j < |os| ==> !Stops(os[j])
    ensures Execute(release, scriptId, scriptName, os) ==
              Execution(SucceededRows(release, scriptId, scriptName, |os|),
                        Success, None, Lines(AllMessages(os)))
  {
    assert FirstStop(os, 0) == |os|;
    assert os[..|os|] == os;
  }

  /** The batch loop: each batch is run, its messages buffered, then recorded; a throw or an error
      message ends the loop. */
  method RunBatches(release: int, scriptId: int, scriptName: string, batches: seq<string>,
                    run: (nat, string) -> BatchOutcome)
    returns (e: Execution)
    ensures e == Execute(release, scriptId, scriptName, Outcomes(batches, run))
  {
    ghost var os := Outcomes(batches, run);
    var buffer := "";
    var errorOccurred := false;
    var rows := [];
    var i := 0;
    while i < |batches|
      invariant 0 <= i <= |batches|
      invariant forall j :: 0 <= j < i ==> !Stops(os[j])
      invariant !errorOccurred
      invariant buffer == Lines(AllMessages(os[..i]))
      invariant rows == SucceededRows(release, scriptId, scriptName, i)
    {
      var o := run(i + 1, batches[i]);
      assert os[..i + 1][..i] == os[..i] && os[..i + 1][i] == o;
      assert AllMessages(os[..i + 1]) == AllMessages(os[..i]) + o.messages;
      LinesAppend(AllMessages(os[..i]), o.messages);
      buffer := buffer + Lines(o.messages);
      errorOccurred := errorOccurred || HasError(o.messages);
      if o.exception.Some? {
        rows := rows + [SchemaChange(release, scriptId, scriptName, i + 1, false)];
        e := Execution(rows, Failed, o.exception, buffer);
        assert Stops(os[i]);
        ExecuteStopped(release, scriptId, scriptName, os, i);
        return;
      }
      rows := rows + [SchemaChange(release, scriptId, scriptName, i + 1, true)];
      if errorOccurred {
        e := Execution(rows, Failed, None, buffer);
        assert Stops(os[i]) && os[i].exception == None;
        ExecuteStopped(release, scriptId, scriptName, os, i);
        return;
      }
      SucceededRowsNext(release, scriptId, scriptName, i, true);
      i := i + 1;
    }
    ExecuteCompleted(release, scriptId, scriptName, os);
    assert os[..|batches|] == os;
    e := Execution(rows, Success, None, buffer);
  }

  /** The batches SqlSplitter cuts a script into. */
  function Batches(scriptText: Option<string>): seq<string> {
    if IsNullOrEmpty(scriptText) then []
    else
      GoMatchesChain(scriptText.value);
      Pieces(scriptText.value, AcceptedGos(scriptText.value), 0)
  }

  /** What ExecuteChangeScript returns: its result, or the exception it lets escape. */
  datatype Outcome = Returned(result: ExecutionResult) | Threw(message: string)

  // ---------------------------------------------------------------------------------------
  // The shared connection.

  datatype Connection = Connection(id: nat)

  /** OpenConnection as written: a connection is created only when one is already shared. */
  function OpenedAsWritten(shared: Option<Connection>, created: Connection): Option<Connection> {
    if shared.Some? then Some(created) else shared
  }

  /** From no shared connection, OpenConnection as written still shares none; from a shared one,
      it replaces it without disposing it. */
  lemma OpenAsWrittenNeverShares(a: Connection, created: Connection)
    ensures OpenedAsWritten(None, created) == None
    ensures OpenedAsWritten(Some(a), created) == Some(created)
  {
  }

  /** OpenConnection as intended: create (and open) a connection when none is shared. */
  function Opened(shared: Option<Connection>, created: Connection): (r: Option<Connection>)
    ensures r.Some?
    ensures shared.Some? ==> r == shared
  {
    if shared.None? then Some(created) else shared
  }

  /** Opening twice keeps the first connection. */
  lemma OpenedIdempotent(shared: Option<Connection>, c1: Connection, c2: Connection)
    ensures Opened(Opened(shared, c1), c2) == Opened(shared, c1)
  {
  }

  class SqlServerDatabaseProvider {
    var sharedConnection: Option<Connection>
    /** How many connections CreateConnection has made (the next one's id). */
    var connectionsCreated: nat
    var disposedConnections: seq<Connection>
    /** The rows of __BuildMaster_DbSchemaChanges. */
    var changes: seq<SchemaChange>
    /** The statements sent to the database through ExecuteNonQuery / ExecuteQuery, in order. */
    var executed: seq<string>
    /** The upgrade scripts ValidateInitialization ran. */
    var reinitializations: seq<ProviderScript>

    constructor (changes: seq<SchemaChange>)
      ensures this.changes == changes
      ensures sharedConnection.None? && connectionsCreated == 0
      ensures disposedConnections == [] && executed == [] && reinitializations == []
    {
      this.changes := changes;
      sharedConnection := None;
      connectionsCreated := 0;
      disposedConnections := [];
      executed := [];
      reinitializations := [];
    }

    /** `version` is what the schema-version query returns. */
    method CheckInitialization(version: int) returns (error: Option<string>)
      modifies this`reinitializations
      ensures ValidateInitialization(version).Throws? ==>
                error == Some(ValidateInitialization(version).message) && reinitializations == old(reinitializations)
      ensures ValidateInitialization(version).Runs? ==>
                error.None? &&
                reinitializations == old(reinitializations) +
                  (if ValidateInitialization(version).script.Some? then [ValidateInitialization(version).script.value] else [])
    {
      var d := ValidateInitialization(version);
      if d.Throws? {
        return Some(d.message);
      }
      if d.script.Some? {
        reinitializations := reinitializations + [d.script.value];
      }
      return None;
    }

    method ExecuteChangeScript(version: int, release: int, scriptId: int, scriptName: string,
                               scriptText: Option<string>, run: (nat, string) -> BatchOutcome)
      returns (outcome: Outcome)
      modifies this`changes, this`executed, this`reinitializations
      ensures ValidateInitialization(version).Throws? ==>
                outcome == Threw(ValidateInitialization(version).message) &&
                changes == old(changes) && executed == old(executed)
      ensures reinitializations == old(reinitializations) +
                (if ValidateInitialization(version).Runs? && ValidateInitialization(version).script.Some?
                 then [ValidateInitialization(version).script.value] else [])
      ensures ValidateInitialization(version).Runs? && Recorded(old(changes), scriptId) ==>
                outcome == Returned(GetExecutionResult(Skipped, scriptName, None, "")) &&
                changes == old(changes) && executed == old(executed)
      ensures ValidateInitialization(version).Runs? && !Recorded(old(changes), scriptId) ==>
                var e := Execute(release, scriptId, scriptName, Outcomes(Batches(scriptText), run));
                && outcome == Returned(ResultOf(scriptName, e))
                && changes == old(changes) + e.rows
                && executed == old(executed) + InsertStatements(e.rows)
    {
      var error := CheckInitialization(version);
      if error.Some? {
        return Threw(error.value);
      }
      if exists i :: 0 <= i < |changes| && changes[i].scriptId == scriptId {
        return Returned(GetExecutionResult(Skipped, scriptName, None, ""));
      }
      var batches := SplitSqlScript(scriptText);
      assert batches == Batches(scriptText);
      var e := RunBatches(release, scriptId, scriptName, batches, run);
      changes := changes + e.rows;
      executed := executed + InsertStatements(e.rows);
      outcome := Returned(GetExecutionResult(e.kind, scriptName, e.exception, e.output));
    }

    method BackupDatabase(databaseName: string, destinationPath: string)
      modifies this`executed
      ensures executed == old(executed) + [BackupStatement(databaseName, destinationPath)]
    {
      executed := executed + [BackupStatement(databaseName, destinationPath)];
    }

    method RestoreDatabase(databaseName: string, sourcePath: string)
      modifies this`executed
      ensures executed == old(executed) + RestoreStatements(databaseName, sourcePath)
    {
      executed := executed + RestoreStatements(databaseName, sourcePath);
    }

    /** OpenConnection as written: only when a connection is already shared is a new one created,
        and it replaces the old one, which is not disposed. */
    method OpenConnection()
      modifies this`sharedConnection, this`connectionsCreated
      ensures sharedConnection == OpenedAsWritten(old(sharedConnection), Connection(old(connectionsCreated)))
      ensures connectionsCreated == old(connectionsCreated) + (if old(sharedConnection).Some? then 1 else 0)
    {
      if sharedConnection.Some? {
        sharedConnection := Some(Connection(connectionsCreated));
        connectionsCreated := connectionsCreated + 1;
      }
    }

    /** Disposes the shared connection, if any, and forgets it; a second call does nothing. */
    method CloseConnection()
      modifies this`sharedConnection, this`disposedConnections
      ensures sharedConnection.None?
      ensures disposedConnections ==
                old(disposedConnections) + (if old(sharedConnection).Some? then [old(sharedConnection).value] else [])
    {
      if sharedConnection.Some? {
        disposedConnections := disposedConnections + [sharedConnection.value];
        sharedConnection := None;
      }
    }
  }
}

=== FILE: sql_splitter.dfy ===
/** SqlSplitter.SplitSqlScript: cut a T-SQL script into batches at the lines that hold only
    `GO`, except where such a line begins inside a closed string literal or comment. */
module SqlSplitter {
  import opened Text

  /** A character range the lexer recorded; the range covers [index, index + length). */
  datatype Run = Run(index: int, length: int)

  /** One match of the GO expression: where it starts and how many characters it spans. */
  datatype GoMatch = GoMatch(index: nat, length: nat)

  function End(m: GoMatch): nat { m.index + m.length }

  predicate InRun(r: Run, p: int) {
    r.index <= p < r.index + r.length
  }

  predicate InAnyRun(runs: seq<Run>, p: int) {
    exists r :: r in runs && InRun(r, p)
  }

  // ---------------------------------------------------------------------------------------
  // The expression ^\s*GO\s*$ with the Multiline and IgnoreCase options.

  /** `^` in multiline mode. */
  predicate LineStart(s: string, p: nat) {
    p == 0 || (p <= |s| && s[p - 1] == '\n')
  }

  /** `$` in multiline mode. */
  predicate LineEnd(s: string, p: nat) {
    p == |s| || (p < |s| && s[p] == '\n')
  }

  predicate IsGo(s: string, q: nat) {
    q + 2 <= |s| && (s[q] == 'G' || s[q] == 'g') && (s[q + 1] == 'O' || s[q + 1] == 'o')
  }

  /** A greedy \s* starting at p. */
  function SkipWhiteSpace(s: string, p: nat): (q: nat)
    requires p <= |s|
    ensures p <= q <= |s|
    ensures AllWhiteSpace(s[p..q])
    ensures q == |s| || !IsWhiteSpace(s[q])
    decreases |s| - p
  {
    if p < |s| && IsWhiteSpace(s[p]) then
      var q := SkipWhiteSpace(s, p + 1);
      assert s[p..q] == [s[p]] + s[p + 1..q];
      q
    else p
  }

  /** Backtracking of the trailing \s*: the longest prefix of [lo, hi] after which `$` holds. */
  function LastLineEnd(s: string, lo: nat, hi: nat): (r: Option<nat>)
    requires lo <= hi <= |s|
    ensures r.Some? ==> lo <= r.value <= hi && LineEnd(s, r.value)
    ensures r.Some? ==> forall k :: r.value < k <= hi ==> !LineEnd(s, k)
    ensures r.None? ==> forall k :: lo <= k <= hi ==> !LineEnd(s, k)
    decreases hi
  {
    if LineEnd(s, hi) then Some(hi)
    else if hi == lo then None
    else LastLineEnd(s, lo, hi - 1)
  }

  /** The text of a match is a whole line holding GO between runs of white space. */
  predicate GoLine(s: string, m: GoMatch) {
    && End(m) <= |s|
    && LineStart(s, m.index)
    && LineEnd(s, End(m))
    && exists q :: m.index <= q && q + 2 <= End(m) && AllWhiteSpace(s[m.index..q]) && IsGo(s, q)
         && AllWhiteSpace(s[q + 2..End(m)])
  }

  /** The end of the match the expression finds when it is tried at position p, if any. */
  function MatchAt(s: string, p: nat): (e: Option<nat>)
    requires p <= |s|
    ensures e.Some? ==> p + 2 <= e.value && GoLine(s, GoMatch(p, e.value - p))
  {
    if !LineStart(s, p) then None
    else
      var q := SkipWhiteSpace(s, p);
      if !IsGo(s, q) then None
      else
        var e := LastLineEnd(s, q + 2, SkipWhiteSpace(s, q + 2));
        if e.Some? then
          assert s[q + 2..e.value] == s[q + 2..SkipWhiteSpace(s, q + 2)][..e.value - (q + 2)];
          e
        else None
  }

  predicate Ordered(ms: seq<GoMatch>) {
    forall i, j :: 0 <= i < j < |ms| ==> End(ms[i]) <= ms[j].index
  }

  /** Regex.Matches from position p: tried left to right, resuming after each match. */
  function MatchesFrom(s: string, p: nat): (ms: seq<GoMatch>)
    requires p <= |s|
    ensures forall m :: m in ms ==> GoLine(s, m) && p <= m.index
    ensures Ordered(ms)
    decreases |s| - p
  {
    if p == |s| then []
    else match MatchAt(s, p)
      case Some(e) => [GoMatch(p, e - p)] + MatchesFrom(s, e)
      case None => MatchesFrom(s, p + 1)
  }

  function GoMatches(s: string): seq<GoMatch> {
    MatchesFrom(s, 0)
  }

  // ---------------------------------------------------------------------------------------
  // The lexer: one pass with three modes. A run is recorded when its literal or comment closes.

  /** Scanning ordinary code from position i. */
  function ScanCode(s: string, i: nat): seq<Run>
    decreases |s| + 2 - i
  {
    if i >= |s| then []
    else if s[i] == '\'' then InString(s, i + 1, i)
    else if s[i] == '/' && i < |s| - 1 && s[i + 1] == '*' then InBlockComment(s, i + 2, i)
    else if s[i] == '-' && i < |s| - 1 && s[i + 1] == '-' then InLineComment(s, i + 2, i)
    else ScanCode(s, i + 1)
  }

  /** Inside a string literal opened at runStart; a doubled quote is an escaped quote. */
  function InString(s: string, i: nat, runStart: nat): seq<Run>
    decreases |s| + 2 - i
  {
    if i >= |s| then []
    else if s[i] == '\'' then
      if i < |s| - 1 && s[i + 1] == '\'' then InString(s, i + 2, runStart)
      else [Run(runStart, i - runStart + 1)] + ScanCode(s, i + 1)
    else InString(s, i + 1, runStart)
  }

  /** Inside a block comment opened at runStart. A `*` closes it when `/` follows, and also
      when it is the last character of the script. The recorded length reaches one character
      past the closing `/`. */
  function InBlockComment(s: string, i: nat, runStart: nat): seq<Run>
    decreases |s| + 2 - i
  {
    if i >= |s| then []
    else if s[i] == '*' && (i >= |s| - 1 || s[i + 1] == '/') then
      [Run(runStart, (i + 1) - runStart + 2)] + ScanCode(s, i + 2)
    else InBlockComment(s, i + 1, runStart)
  }

  /** Inside a line comment opened at runStart; the newline belongs to the comment. */
  function InLineComment(s: string, i: nat, runStart: nat): seq<Run>
    decreases |s| + 2 - i
  {
    if i >= |s| then []
    else if s[i] == '\n' then [Run(runStart, i - runStart + 1)] + ScanCode(s, i + 1)
    else InLineComment(s, i + 1, runStart)
  }

  function IgnoredRuns(s: string): seq<Run> {
    ScanCode(s, 0)
  }

  /** The first loop of SplitSqlScript: the ranges of the closed literals and comments. */
  method FindIgnoredRuns(script: string) returns (ignored: seq<Run>)
    ensures ignored == IgnoredRuns(script)
  {
    ignored := [];
    var inString, inBlockComment, inInlineComment := false, false, false;
    var runStart: nat := 0;
    var i: nat := 0;
    while i < |script|
      invariant i <= |script| + 1
      invariant (inString ==> !inBlockComment && !inInlineComment) && !(inBlockComment && inInlineComment)
      invariant inString ==> ignored + InString(script, i, runStart) == IgnoredRuns(script)
      invariant inBlockComment ==> ignored + InBlockComment(script, i, runStart) == IgnoredRuns(script)
      invariant inInlineComment ==> ignored + InLineComment(script, i, runStart) == IgnoredRuns(script)
      invariant !inString && !inBlockComment && !inInlineComment ==>
        ignored + ScanCode(script, i) == IgnoredRuns(script)
      decreases |script| + 1 - i
    {
      if inString {
        if script[i] == '\'' {
          if i < |script| - 1 && script[i + 1] == '\'' {
            i := i + 1;
          } else {
            inString := false;
            ignored := ignored + [Run(runStart, i - runStart + 1)];
          }
        }
      } else if inBlockComment {
        if script[i] == '*' && (i >= |script| - 1 || script[i + 1] == '/') {
          i := i + 1;
          inBlockComment := false;
          ignored := ignored + [Run(runStart, i - runStart + 2)];
        }
      } else if inInlineComment {
        if script[i] == '\n' {
          inInlineComment := false;
          ignored := ignored + [Run(runStart, i - runStart + 1)];
        }
      } else {
        if script[i] == '\'' {
          inString := true;
          runStart := i;
        } else if script[i] == '/' && i < |script| - 1 && script[i + 1] == '*' {
          inBlockComment := true;
          runStart := i;
          i := i + 1;
        } else if script[i] == '-' && i < |script| - 1 && script[i + 1] == '-' {
          inInlineComment := true;
          runStart := i;
          i := i + 1;
        }
      }
      i := i + 1;
    }
  }

  /** IsInAnyRun: half-open membership in any recorded range. */
  method IsInAnyRun(runs: seq<Run>, index: int) returns (b: bool)
    ensures b <==> InAnyRun(runs, index)
  {
    for k := 0 to |runs|
      invariant forall j :: 0 <= j < k ==> !InRun(runs[j], index)
    {
      if index >= runs[k].index && index < runs[k].index + runs[k].length {
        assert runs[k] in runs;
        return true;
      }
    }
    return false;
  }

  // ---------------------------------------------------------------------------------------
  // What the recorded ranges are.

  /** Inside a literal, every quote is one of a doubled pair. */
  predicate QuotesDoubled(t: string)
    decreases |t|
  {
    if t == [] then true
    else if t[0] != '\'' then QuotesDoubled(t[1..])
    else |t| >= 2 && t[1] == '\'' && QuotesDoubled(t[2..])
  }

  predicate ClosedString(s: string, r: Run) {
    && 0 <= r.index && r.length >= 2 && r.index + r.length <= |s|
    && s[r.index] == '\'' && s[r.index + r.length - 1] == '\''
    && QuotesDoubled(s[r.index + 1..r.index + r.length - 1])
  }

  predicate ClosedLineComment(s: string, r: Run) {
    && 0 <= r.index && r.length >= 3 && r.index + r.length <= |s|
    && s[r.index] == '-' && s[r.index + 1] == '-' && s[r.index + r.length - 1] == '\n'
    && '\n' !in s[r.index + 2..r.index + r.length - 1]
  }

  predicate BlockCloser(s: string, k: nat) {
    k < |s| && s[k] == '*' && (k >= |s| - 1 || s[k + 1] == '/')
  }

  /** The range ends at the first closer after the opener, and one character past its `/`. */
  predicate ClosedBlockComment(s: string, r: Run) {
    && 0 <= r.index && r.length >= 5 && r.index + r.length <= |s| + 2
    && s[r.index] == '/' && s[r.index + 1] == '*'
    && BlockCloser(s, r.index + r.length - 3)
    && forall k :: r.index + 2 <= k < r.index + r.length - 3 ==> !BlockCloser(s, k)
  }

  predicate Closed(s: string, r: Run) {
    ClosedString(s, r) || ClosedLineComment(s, r) || ClosedBlockComment(s, r)
  }

  /** Ranges come in input order; a block comment's extra character may touch the next range. */
  predicate RunsOrdered(runs: seq<Run>) {
    forall i, j :: 0 <= i < j < |runs| ==> runs[i].index + runs[i].length - 1 <= runs[j].index
  }

  predicate RunsFrom(s: string, runs: seq<Run>, from: int) {
    && (forall r :: r in runs ==> Closed(s, r) && from <= r.index)
    && RunsOrdered(runs)
  }

  lemma {:induction false} QuotesDoubledExtend(t: string, u: string)
    requires QuotesDoubled(t)
    requires u == "''" || (|u| == 1 && u[0] != '\'')
    ensures QuotesDoubled(t + u)
    decreases |t|
  {
    if t == [] {
      assert u[1..] == [] || u[2..] == [];
    } else if t[0] != '\'' {
      QuotesDoubledExtend(t[1..], u);
      assert (t + u)[1..] == t[1..] + u;
    } else {
      QuotesDoubledExtend(t[2..], u);
      assert (t + u)[2..] == t[2..] + u;
    }
  }

  lemma PrependRun(s: string, r: Run, rest: seq<Run>, from: int)
    requires Closed(s, r) && from <= r.index
    requires RunsFrom(s, rest, r.index + r.length - 1)
    ensures RunsFrom(s, [r] + rest, from)
  {
    var runs := [r] + rest;
    forall i, j | 0 <= i < j < |runs|
      ensures runs[i].index + runs[i].length - 1 <= runs[j].index
    {
      if i == 0 {
        assert runs[j] in rest;
      } else {
        assert runs[i] == rest[i - 1] && runs[j] == rest[j - 1];
      }
    }
  }

  /** Every range ScanCode records is a closed literal or comment at or after i, in order. */
  lemma {:induction false} ScanCodeClosed(s: string, i: nat)
    ensures RunsFrom(s, ScanCode(s, i), i)
    decreases |s| + 2 - i, 2
  {
    if i >= |s| {
    } else if s[i] == '\'' {
      assert s[i + 1..i + 1] == [];
      InStringClosed(s, i + 1, i);
    } else if s[i] == '/' && i < |s| - 1 && s[i + 1] == '*' {
      InBlockCommentClosed(s, i + 2, i);
    } else if s[i] == '-' && i < |s| - 1 && s[i + 1] == '-' {
      assert s[i + 2..i + 2] == [];
      InLineCommentClosed(s, i + 2, i);
    } else {
      ScanCodeClosed(s, i + 1);
    }
  }

  lemma {:induction false} InStringClosed(s: string, i: nat, runStart: nat)
    requires runStart < i <= |s| && s[runStart] == '\''
    requires QuotesDoubled(s[runStart + 1..i])
    ensures RunsFrom(s, InString(s, i, runStart), runStart)
    decreases |s| + 2 - i, 1
  {
    if i >= |s| {
    } else if s[i] == '\'' && i < |s| - 1 && s[i + 1] == '\'' {
      StringBodyGrows(s, runStart + 1, i, 2);
      InStringClosed(s, i + 2, runStart);
    } else if s[i] == '\'' {
      StringCloses(s, i, runStart);
    } else {
      StringBodyGrows(s, runStart + 1, i, 1);
      InStringClosed(s, i + 1, runStart);
    }
  }

  lemma {:induction false} StringCloses(s: string, i: nat, runStart: nat)
    requires runStart < i < |s| && s[runStart] == '\'' && s[i] == '\''
    requires QuotesDoubled(s[runStart + 1..i])
    ensures RunsFrom(s, [Run(runStart, i - runStart + 1)] + ScanCode(s, i + 1), runStart)
    decreases |s| + 2 - i, 0
  {
    StringRunClosed(s, runStart, i);
    ScanCodeClosed(s, i + 1);
    PrependRun(s, Run(runStart, i - runStart + 1), ScanCode(s, i + 1), runStart);
  }

  lemma StringRunClosed(s: string, runStart: nat, i: nat)
    requires runStart < i < |s| && s[runStart] == '\'' && s[i] == '\''
    requires QuotesDoubled(s[runStart + 1..i])
    ensures Closed(s, Run(runStart, i - runStart + 1))
  {
    var r := Run(runStart, i - runStart + 1);
    assert r.index + r.length - 1 == i;
    assert ClosedString(s, r);
  }

  lemma StringBodyGrows(s: string, lo: nat, i: nat, n: nat)
    requires lo <= i && i + n <= |s| && QuotesDoubled(s[lo..i])
    requires (n == 2 && s[i] == '\'' && s[i + 1] == '\'') || (n == 1 && s[i] != '\'')
    ensures QuotesDoubled(s[lo..i + n])
  {
    QuotesDoubledExtend(s[lo..i], s[i..i + n]);
    assert s[lo..i] + s[i..i + n] == s[lo..i + n];
  }

  lemma {:induction false} InBlockCommentClosed(s: string, i: nat, runStart: nat)
    requires runStart + 2 <= i <= |s| && s[runStart] == '/' && s[runStart + 1] == '*'
    requires forall k :: runStart + 2 <= k < i ==> !BlockCloser(s, k)
    ensures RunsFrom(s, InBlockComment(s, i, runStart), runStart)
    decreases |s| + 2 - i, 0
  {
    if i >= |s| {
    } else if s[i] == '*' && (i >= |s| - 1 || s[i + 1] == '/') {
      var r := Run(runStart, (i + 1) - runStart + 2);
      assert ClosedBlockComment(s, r);
      ScanCodeClosed(s, i + 2);
      PrependRun(s, r, ScanCode(s, i + 2), runStart);
    } else {
      InBlockCommentClosed(s, i + 1, runStart);
    }
  }

  lemma {:induction false} InLineCommentClosed(s: string, i: nat, runStart: nat)
    requires runStart + 2 <= i <= |s| && s[runStart] == '-' && s[runStart + 1] == '-'
    requires '\n' !in s[runStart + 2..i]
    ensures RunsFrom(s, InLineComment(s, i, runStart), runStart)
    decreases |s| + 2 - i, 0
  {
    if i >= |s| {
    } else if s[i] == '\n' {
      var r := Run(runStart, i - runStart + 1);
      assert ClosedLineComment(s, r);
      ScanCodeClosed(s, i + 1);
      PrependRun(s, r, ScanCode(s, i + 1), runStart);
    } else {
      assert s[runStart + 2..i + 1] == s[runStart + 2..i] + [s[i]];
      InLineCommentClosed(s, i + 1, runStart);
    }
  }

  /** Only closed literals and comments are recorded, each from its opener to its first closer
      (a doubled quote does not close a literal), in input order. */
  lemma IgnoredRunsAreClosed(s: string)
    ensures forall r :: r in IgnoredRuns(s) ==> Closed(s, r)
    ensures RunsOrdered(IgnoredRuns(s))
  {
    ScanCodeClosed(s, 0);
  }

  /** The extra character a block comment's range covers never begins a line, so it can never
      be where a GO line starts. */
  lemma BlockOvershootIsHarmless(s: string, r: Run)
    requires ClosedBlockComment(s, r)
    ensures !LineStart(s, r.index + r.length - 1)
  {
  }

  // ---------------------------------------------------------------------------------------
  // The cut.

  /** The GO matches that do not start inside a recorded range, in input order. */
  function Accept(runs: seq<Run>, ms: seq<GoMatch>): (acc: seq<GoMatch>)
    ensures forall m :: m in acc ==> m in ms
    ensures |acc| <= |ms|
  {
    if ms == [] then []
    else (if InAnyRun(runs, ms[0].index) then [] else [ms[0]]) + Accept(runs, ms[1..])
  }

  function AcceptedGos(s: string): seq<GoMatch> {
    Accept(IgnoredRuns(s), GoMatches(s))
  }

  /** `ms` are ordered, in bounds and start at or after `start`. */
  predicate Chain(s: string, ms: seq<GoMatch>, start: nat) {
    && start <= |s|
    && Ordered(ms)
    && forall m :: m in ms ==> start <= m.index && End(m) <= |s|
  }

  lemma ChainTail(s: string, ms: seq<GoMatch>, start: nat)
    requires Chain(s, ms, start) && ms != []
    ensures start <= ms[0].index && End(ms[0]) <= |s|
    ensures Chain(s, ms[1..], End(ms[0])) && Chain(s, ms[1..], start)
  {
    assert ms[0] in ms;
    forall m | m in ms[1..] ensures End(ms[0]) <= m.index && End(m) <= |s| {
      var j :| 0 <= j < |ms[1..]| && ms[1..][j] == m;
      assert ms[j + 1] == m && m in ms;
    }
  }

  /** The batches between consecutive matches, from `start` on; the tail only when non-empty. */
  function Pieces(s: string, ms: seq<GoMatch>, start: nat): (ps: seq<string>)
    requires Chain(s, ms, start)
    ensures |ms| <= |ps| <= |ms| + 1
    decreases |ms|
  {
    if ms == [] then (if start < |s| then [s[start..]] else [])
    else
      ChainTail(s, ms, start);
      [s[start..ms[0].index]] + Pieces(s, ms[1..], End(ms[0]))
  }

  lemma ChainCons(s: string, m: GoMatch, rest: seq<GoMatch>, start: nat)
    requires start <= m.index && End(m) <= |s| && Chain(s, rest, End(m))
    ensures Chain(s, [m] + rest, start)
  {
    var ms := [m] + rest;
    forall i, j | 0 <= i < j < |ms| ensures End(ms[i]) <= ms[j].index {
      assert ms[j] == rest[j - 1] && ms[j] in rest;
      if i > 0 {
        assert ms[i] == rest[i - 1];
      }
    }
  }

  /** Keeping a subsequence of ordered matches keeps them ordered and in bounds. */
  lemma {:induction false} AcceptChain(s: string, runs: seq<Run>, ms: seq<GoMatch>, start: nat)
    requires Chain(s, ms, start)
    ensures Chain(s, Accept(runs, ms), start)
    decreases |ms|
  {
    if ms != [] {
      ChainTail(s, ms, start);
      if !InAnyRun(runs, ms[0].index) {
        AcceptChain(s, runs, ms[1..], End(ms[0]));
        ChainCons(s, ms[0], Accept(runs, ms[1..]), start);
      } else {
        AcceptChain(s, runs, ms[1..], start);
      }
    }
  }

  lemma GoMatchesChain(s: string)
    ensures Chain(s, GoMatches(s), 0)
    ensures Chain(s, AcceptedGos(s), 0)
  {
    forall m | m in GoMatches(s) ensures End(m) <= |s| {
      assert GoLine(s, m);
    }
    AcceptChain(s, IgnoredRuns(s), GoMatches(s), 0);
  }

  /** A GO line is a split point exactly when it does not begin inside a recorded range. */
  lemma {:induction false} AcceptIff(runs: seq<Run>, ms: seq<GoMatch>, m: GoMatch)
    ensures m in Accept(runs, ms) <==> m in ms && !InAnyRun(runs, m.index)
    decreases |ms|
  {
    if ms != [] {
      AcceptIff(runs, ms[1..], m);
      assert ms == [ms[0]] + ms[1..];
    }
  }

  /** One step of the cut: a match inside a range is passed over, any other closes a piece. */
  lemma PiecesStep(s: string, runs: seq<Run>, ms: seq<GoMatch>, start: nat)
    requires Chain(s, ms, start) && ms != []
    ensures Chain(s, ms[1..], start) && start <= ms[0].index
    ensures Chain(s, ms[1..], End(ms[0]))
    ensures Chain(s, Accept(runs, ms), start)
    ensures Chain(s, Accept(runs, ms[1..]), start) && Chain(s, Accept(runs, ms[1..]), End(ms[0]))
    ensures InAnyRun(runs, ms[0].index) ==>
      Pieces(s, Accept(runs, ms), start) == Pieces(s, Accept(runs, ms[1..]), start)
    ensures !InAnyRun(runs, ms[0].index) ==>
      Pieces(s, Accept(runs, ms), start)
        == [s[start..ms[0].index]] + Pieces(s, Accept(runs, ms[1..]), End(ms[0]))
  {
    ChainTail(s, ms, start);
    AcceptChain(s, runs, ms, start);
    AcceptChain(s, runs, ms[1..], start);
    AcceptChain(s, runs, ms[1..], End(ms[0]));
    var acc := Accept(runs, ms[1..]);
    if !InAnyRun(runs, ms[0].index) {
      assert Accept(runs, ms) == [ms[0]] + acc;
      assert ([ms[0]] + acc)[1..] == acc;
    } else {
      assert Accept(runs, ms) == acc;
    }
  }

  /** SplitSqlScript */
  method SplitSqlScript(script: Option<string>) returns (pieces: seq<string>)
    ensures IsNullOrEmpty(script) ==> pieces == []
    ensures !IsNullOrEmpty(script) && GoMatches(script.value) == [] ==> pieces == [script.value]
    ensures !IsNullOrEmpty(script) ==>
      Chain(script.value, AcceptedGos(script.value), 0)
      && pieces == Pieces(script.value, AcceptedGos(script.value), 0)
  {
    if script.None? || script.value == [] {
      return [];
    }
    var s := script.value;
    GoMatchesChain(s);
    var gos := GoMatches(s);
    if |gos| == 0 {
      return [s];
    }

    var ignored := FindIgnoredRuns(s);
    var startPos: nat := 0;
    pieces := [];
    assert gos[0..] == gos;
    AcceptChain(s, ignored, gos, 0);
    for k := 0 to |gos|
      invariant Chain(s, gos[k..], startPos)
      invariant Chain(s, Accept(ignored, gos[k..]), startPos)
      invariant pieces + Pieces(s, Accept(ignored, gos[k..]), startPos)
        == Pieces(s, Accept(ignored, gos), 0)
    {
      ghost var ms := gos[k..];
      assert ms[0] == gos[k] && ms[1..] == gos[k + 1..];
      PiecesStep(s, ignored, ms, startPos);
      ghost var later := Accept(ignored, gos[k + 1..]);
      var skip := IsInAnyRun(ignored, gos[k].index);
      if skip {
        assert Pieces(s, Accept(ignored, ms), startPos) == Pieces(s, later, startPos);
        continue;
      }
      ghost var before, oldStart := pieces, startPos;
      pieces := pieces + [s[startPos..gos[k].index]];
      startPos := gos[k].index + gos[k].length;
      assert startPos == End(gos[k]);
      calc {
        before + Pieces(s, Accept(ignored, ms), oldStart);
        before + ([s[oldStart..gos[k].index]] + Pieces(s, later, startPos));
        pieces + Pieces(s, later, startPos);
      }
    }
    if startPos < |s| {
      pieces := pieces + [s[startPos..]];
    }
  }

  // ---------------------------------------------------------------------------------------
  // What the pieces are.

  /** The text each match covers. */
  function Texts(s: string, ms: seq<GoMatch>): (ts: seq<string>)
    requires forall m :: m in ms ==> End(m) <= |s|
    ensures |ts| == |ms|
    decreases |ms|
  {
    if ms == [] then []
    else
      assert ms[0] in ms && End(ms[0]) == ms[0].index + ms[0].length;
      [s[ms[0].index..End(ms[0])]] + Texts(s, ms[1..])
  }

  /** piece, GO text, piece, GO text, ...: the inverse of the cut. */
  function Weave(pieces: seq<string>, gos: seq<string>): string
    requires |gos| <= |pieces| <= |gos| + 1
    decreases |gos|
  {
    if gos == [] then (if pieces == [] then "" else pieces[0])
    else pieces[0] + gos[0] + Weave(pieces[1..], gos[1..])
  }

  /** The pieces and the accepted GO texts put back together give the script: nothing is lost,
      nothing is reordered, and only the GO lines are removed. */
  lemma {:induction false} PiecesWeave(s: string, ms: seq<GoMatch>, start: nat)
    requires Chain(s, ms, start)
    ensures Weave(Pieces(s, ms, start), Texts(s, ms)) == s[start..]
    decreases |ms|
  {
    if ms != [] {
      var m := ms[0];
      ChainTail(s, ms, start);
      PiecesWeave(s, ms[1..], End(m));
      assert s[start..] == s[start..m.index] + s[m.index..End(m)] + s[End(m)..];
    }
  }

  /** Each piece is the text between two consecutive accepted GO lines; the first starts at
      `start`, the last runs to the end, and the tail is left out exactly when it is empty. */
  lemma {:induction false} PiecesBetween(s: string, ms: seq<GoMatch>, start: nat)
    requires Chain(s, ms, start)
    ensures var ps := Pieces(s, ms, start);
      && (|ms| > 0 ==> ps[0] == s[start..ms[0].index])
      && (forall k :: 0 < k < |ms| ==> ps[k] == s[End(ms[k - 1])..ms[k].index])
      && var last := if ms == [] then start else End(ms[|ms| - 1]);
         (|ps| == |ms| + 1 <==> last < |s|) && (|ps| == |ms| + 1 ==> ps[|ms|] == s[last..])
  {
    if ms != [] {
      PiecesHead(s, ms, start);
    }
    PiecesInner(s, ms, start);
    PiecesLast(s, ms, start);
  }

  lemma PiecesHead(s: string, ms: seq<GoMatch>, start: nat)
    requires Chain(s, ms, start) && ms != []
    ensures start <= ms[0].index <= |s|
    ensures Pieces(s, ms, start)[0] == s[start..ms[0].index]
  {
    ChainTail(s, ms, start);
  }

  lemma {:induction false} PiecesInner(s: string, ms: seq<GoMatch>, start: nat)
    requires Chain(s, ms, start)
    ensures forall k :: 0 < k < |ms| ==> Pieces(s, ms, start)[k] == s[End(ms[k - 1])..ms[k].index]
    decreases |ms|
  {
    if ms != [] {
      var m, rest := ms[0], ms[1..];
      ChainTail(s, ms, start);
      PiecesInner(s, rest, End(m));
      var ps := Pieces(s, ms, start);
      assert ps[1..] == Pieces(s, rest, End(m));
      forall k | 0 < k < |ms| ensures ps[k] == s[End(ms[k - 1])..ms[k].index] {
        if k == 1 {
          PiecesHead(s, rest, End(m));
        } else {
          assert rest[k - 2] == ms[k - 1] && rest[k - 1] == ms[k];
        }
      }
    }
  }

  lemma {:induction false} PiecesLast(s: string, ms: seq<GoMatch>, start: nat)
    requires Chain(s, ms, start)
    ensures var ps := Pieces(s, ms, start);
      var last := if ms == [] then start else End(ms[|ms| - 1]);
      (|ps| == |ms| + 1 <==> last < |s|) && (|ps| == |ms| + 1 ==> ps[|ms|] == s[last..])
    decreases |ms|
  {
    if ms != [] {
      var m, rest := ms[0], ms[1..];
      ChainTail(s, ms, start);
      PiecesLast(s, rest, End(m));
      assert Pieces(s, ms, start)[1..] == Pieces(s, rest, End(m));
      if rest != [] {
        assert rest[|rest| - 1] == ms[|ms| - 1];
      }
    }
  }

  /** The batches of a non-empty script: between consecutive accepted GO lines, in order; no
      more than one more batch than accepted GO lines; a trailing GO leaves no empty last batch
      and a leading GO gives an empty first batch; woven with the GO texts they rebuild the
      script. */
  lemma SplitProperties(s: string)
    requires s != []
    ensures Chain(s, AcceptedGos(s), 0)
    ensures var ps := Pieces(s, AcceptedGos(s), 0);
      var ms := AcceptedGos(s);
      && |ms| <= |ps| <= |ms| + 1
      && Weave(ps, Texts(s, ms)) == s
      && (ms != [] && End(ms[|ms| - 1]) == |s| ==> |ps| == |ms|)
      && (ms != [] && ms[0].index == 0 ==> ps[0] == "")
      && (forall k :: 0 < k < |ms| ==> ps[k] == s[End(ms[k - 1])..ms[k].index])
      && (ms == [] ==> ps == [s])
  {
    GoMatchesChain(s);
    PiecesWeave(s, AcceptedGos(s), 0);
    PiecesBetween(s, AcceptedGos(s), 0);
  }

  /** A GO line is dropped from the cut only when it begins inside a closed literal or comment. */
  lemma AcceptedGosIff(s: string, m: GoMatch)
    ensures m in AcceptedGos(s) <==> m in GoMatches(s) && !InAnyRun(IgnoredRuns(s), m.index)
    ensures m in GoMatches(s) && !(m in AcceptedGos(s)) ==>
      exists r :: r in IgnoredRuns(s) && Closed(s, r) && InRun(r, m.index)
  {
    AcceptIff(IgnoredRuns(s), GoMatches(s), m);
    IgnoredRunsAreClosed(s);
  }
}

=== FILE: text.dfy ===
/** Characters, ordinal case folding and the handful of System.String operations
    that the core relies on. A .NET string that may be null is an Option<string>. */
module Text {

  datatype Option<+T> = None | Some(value: T)

  /** char.IsWhiteSpace (and the regular-expression class \s): the Unicode White_Space characters. */
  predicate IsWhiteSpace(c: char) {
    || c == ' ' || c == '\t' || c == '\n' || c == '\U{000B}' || c == '\U{000C}' || c == '\r'
    || c == '\U{0085}' || c == '\U{00A0}' || c == '\U{1680}' || ('\U{2000}' <= c <= '\U{200A}')
    || c == '\U{2028}' || c == '\U{2029}' || c == '\U{202F}' || c == '\U{205F}' || c == '\U{3000}'
  }

  /** char.IsLetterOrDigit, restricted to ASCII letters and digits. */
  predicate IsLetterOrDigit(c: char) {
    ('a' <= c <= 'z') || ('A' <= c <= 'Z') || ('0' <= c <= '9')
  }

  /** Upper-casing of one character as the ordinal case-insensitive comparer does it (ASCII letters). */
  function ToUpper(c: char): char {
    if 'a' <= c <= 'z' then (c as int - 32) as char else c
  }

  function Fold(s: string): string {
    seq(|s|, i requires 0 <= i < |s| => ToUpper(s[i]))
  }

  /** StringComparer.OrdinalIgnoreCase equality. */
  predicate EqualsIgnoreCase(a: string, b: string) {
    Fold(a) == Fold(b)
  }

  predicate IsNullOrEmpty(s: Option<string>) {
    s.None? || s.value == []
  }

  predicate AllWhiteSpace(s: string) {
    forall i :: 0 <= i < |s| ==> IsWhiteSpace(s[i])
  }

  /** string.IsNullOrWhiteSpace */
  predicate IsNullOrWhiteSpace(s: Option<string>) {
    s.None? || AllWhiteSpace(s.value)
  }

  /** `s ?? ""` */
  function OrEmpty(s: Option<string>): string {
    if s.Some? then s.value else ""
  }

  predicate StartsWith(s: string, prefix: string) {
    |prefix| <= |s| && s[..|prefix|] == prefix
  }

  predicate EndsWith(s: string, suffix: string) {
    |suffix| <= |s| && s[|s| - |suffix|..] == suffix
  }

  predicate EndsWithIgnoreCase(s: string, suffix: string) {
    |suffix| <= |s| && EqualsIgnoreCase(s[|s| - |suffix|..], suffix)
  }

  /** string.IndexOf(char): the first position of `c`, if any. */
  function IndexOf(s: string, c: char): (r: Option<nat>)
    ensures r.Some? ==> r.value < |s| && s[r.value] == c && c !in s[..r.value]
    ensures r.None? <==> c !in s
  {
    if s == [] then None
    else if s[0] == c then Some(0)
    else match IndexOf(s[1..], c)
      case None => None
      case Some(k) => assert s[..k + 1] == [s[0]] + s[1..][..k]; Some(k + 1)
  }

  /** string.Split(new[] { sep }, 2): the text before the first `sep` and the rest, or `[s]`. */
  function SplitFirst(s: string, sep: char): (parts: seq<string>)
    ensures 1 <= |parts| <= 2
    ensures |parts| == 1 <==> sep !in s
    ensures |parts| == 1 ==> parts[0] == s
    ensures |parts| == 2 ==> s == parts[0] + [sep] + parts[1] && sep !in parts[0]
  {
    match IndexOf(s, sep)
    case None => [s]
    case Some(k) =>
      assert s == s[..k] + [sep] + s[k + 1..];
      [s[..k], s[k + 1..]]
  }

  /** The part before the first separator holds none, so it is exactly that part. */
  lemma SplitFirstAt(n: string, sep: char, v: string)
    requires sep !in n
    ensures SplitFirst(n + [sep] + v, sep) == [n, v]
  {
    var s := n + [sep] + v;
    assert s[|n|] == sep;
    var parts := SplitFirst(s, sep);
    assert |parts[0]| == |n|;
    assert parts[0] == s[..|n|] == n;
    assert parts[1] == s[|n| + 1..] == v;
  }

  predicate OccursAt(s: string, sep: string, k: nat) {
    k + |sep| <= |s| && s[k..k + |sep|] == sep
  }

  /** The first occurrence of `sep` at or after `from`: where string.Split(new[] { sep }, 2) cuts. */
  function FindSub(s: string, sep: string, from: nat): (r: Option<nat>)
    requires |sep| > 0
    decreases |s| - from
    ensures r.Some? ==> from <= r.value && OccursAt(s, sep, r.value)
    ensures r.Some? ==> forall k :: from <= k < r.value ==> !OccursAt(s, sep, k)
    ensures r.None? ==> forall k :: from <= k ==> !OccursAt(s, sep, k)
  {
    if from + |sep| > |s| then None
    else if s[from..from + |sep|] == sep then Some(from)
    else FindSub(s, sep, from + 1)
  }

  /** TrimStart(c): drops every leading `c`. */
  function TrimStartChar(s: string, c: char): (r: string)
    ensures exists k :: 0 <= k <= |s| && r == s[k..] && forall j :: 0 <= j < k ==> s[j] == c
    ensures r == [] || r[0] != c
  {
    if s != [] && s[0] == c then
      var r := TrimStartChar(s[1..], c);
      var k :| 0 <= k <= |s[1..]| && r == s[1..][k..] && forall j :: 0 <= j < k ==> s[1..][j] == c;
      assert r == s[k + 1..];
      r
    else
      assert s == s[0..];
      s
  }

  function TrimStartWhiteSpace(s: string): (r: string)
    ensures |r| <= |s| && r == s[|s| - |r|..]
    ensures r == [] || !IsWhiteSpace(r[0])
    ensures AllWhiteSpace(s[..|s| - |r|])
  {
    if s != [] && IsWhiteSpace(s[0]) then
      var r := TrimStartWhiteSpace(s[1..]);
      assert s[..|s| - |r|] == [s[0]] + s[1..][..|s[1..]| - |r|];
      r
    else s
  }

  function TrimEndWhiteSpace(s: string): (r: string)
    ensures |r| <= |s| && r == s[..|r|]
    ensures r == [] || !IsWhiteSpace(r[|r| - 1])
    ensures AllWhiteSpace(s[|r|..])
  {
    if s != [] && IsWhiteSpace(s[|s| - 1]) then
      var r := TrimEndWhiteSpace(s[..|s| - 1]);
      assert s[|r|..] == s[..|s| - 1][|r|..] + [s[|s| - 1]];
      r
    else s
  }

  /** string.Trim() */
  function Trim(s: string): string {
    TrimEndWhiteSpace(TrimStartWhiteSpace(s))
  }

  /** string.Replace(char, char) */
  function ReplaceChar(s: string, from: char, to: char): (r: string)
    ensures |r| == |s|
    ensures forall i :: 0 <= i < |s| ==> r[i] == (if s[i] == from then to else s[i])
  {
    seq(|s|, i requires 0 <= i < |s| => if s[i] == from then to else s[i])
  }

  /** string.Replace(pattern, replacement) for a non-empty pattern: left to right, non-overlapping. */
  function ReplaceAll(s: string, pattern: string, replacement: string): string
    requires |pattern| > 0
    decreases |s|
  {
    if |s| < |pattern| then s
    else if s[..|pattern|] == pattern then replacement + ReplaceAll(s[|pattern|..], pattern, replacement)
    else [s[0]] + ReplaceAll(s[1..], pattern, replacement)
  }

  /** Decimal digits of a natural number, as Int32.ToString() prints them. */
  function NatToString(n: nat): (r: string)
    ensures |r| >= 1
    ensures forall i :: 0 <= i < |r| ==> '0' <= r[i] <= '9'
    decreases n
  {
    if n < 10 then [Digit(n)] else NatToString(n / 10) + [Digit(n % 10)]
  }

  function Digit(d: nat): (c: char)
    requires d < 10
  {
    ('0' as int + d) as char
  }

  function IntToString(n: int): string {
    if n < 0 then "-" + NatToString(-n) else NatToString(n)
  }

  /** The first i + 1 elements are the first i followed by element i. */
  lemma TakeStep<T>(xs: seq<T>, i: nat)
    requires i < |xs|
    ensures xs[..i + 1] == xs[..i] + [xs[i]]
    ensures xs[..i + 1][..i] == xs[..i]
  {
  }
}

=== FILE: wire.dfy ===
/** The primitives of System.IO.BinaryWriter and BinaryReader that the job codec uses, over an
    in-memory stream of bytes: 7-bit encoded lengths, UTF-8 strings (RFC 3629), little-endian
    32-bit integers, one-byte booleans and raw bytes. Readers take the unread part of the stream
    and give back the value and what is left; None stands for the exception a .NET reader throws. */
module Wire {
  import opened Text

  newtype byte = x: int | 0 <= x < 256

  const TWO_31: int := 0x8000_0000
  const TWO_32: int := 0x1_0000_0000

  predicate IsInt32(x: int) {
    -TWO_31 <= x < TWO_31
  }

  /** Two's complement reinterpretation of the low 32 bits, as the reader's int arithmetic does. */
  function Wrap32(u: nat): (x: int)
    ensures IsInt32(x)
    ensures 0 <= u < TWO_31 ==> x == u
  {
    var v := u % TWO_32;
    if v < TWO_31 then v else v - TWO_32
  }

  // ---------------------------------------------------------------------------------------
  // 7-bit encoded integers (Write7BitEncodedInt / Read7BitEncodedInt) for string lengths.

  function Enc7(n: nat): (b: seq<byte>)
    ensures |b| >= 1
    decreases n
  {
    if n < 128 then [n as byte] else [(n % 128 + 128) as byte] + Enc7(n / 128)
  }

  /** Reading a 7-bit encoded integer when k bytes of it have been read already; a sixth byte is a
      format error. The value is the unbounded sum; the caller keeps its low 32 bits. */
  function Dec7(data: seq<byte>, k: nat): Option<(nat, seq<byte>)>
    requires k <= 5
    decreases 5 - k
  {
    if k == 5 || data == [] then None
    else if data[0] < 128 then Some((data[0] as nat, data[1..]))
    else match Dec7(data[1..], k + 1)
      case None => None
      case Some((v, rest)) => Some(((data[0] - 128) as nat + 128 * v, rest))
  }

  function Pow128(e: nat): (p: nat)
    ensures p >= 1
  {
    if e == 0 then 1 else 128 * Pow128(e - 1)
  }

  /** A length that fits the remaining bytes of the 5-byte budget reads back as written. */
  lemma {:induction false} Dec7Enc7(n: nat, rest: seq<byte>, k: nat)
    requires k < 5 && n < Pow128(5 - k)
    ensures Dec7(Enc7(n) + rest, k) == Some((n, rest))
    decreases n
  {
    if n >= 128 {
      assert n / 128 < Pow128(5 - (k + 1));
      Dec7Enc7(n / 128, rest, k + 1);
      assert (Enc7(n) + rest)[1..] == Enc7(n / 128) + rest;
    }
  }

  // ---------------------------------------------------------------------------------------
  // UTF-8, RFC 3629: one to four bytes per scalar value, decoded in Horner form.

  function EncodeChar(c: char): (b: seq<byte>)
    ensures 1 <= |b| <= 4
  {
    var cp := c as int;
    if cp < 0x80 then [cp as byte]
    else if cp < 0x800 then
      [(0xC0 + cp / 64) as byte, (0x80 + cp % 64) as byte]
    else if cp < 0x10000 then
      var q1 := cp / 64;
      [(0xE0 + q1 / 64) as byte, (0x80 + q1 % 64) as byte, (0x80 + cp % 64) as byte]
    else
      var q1 := cp / 64;
      var q2 := q1 / 64;
      [(0xF0 + q2 / 64) as byte, (0x80 + q2 % 64) as byte, (0x80 + q1 % 64) as byte,
       (0x80 + cp % 64) as byte]
  }

  predicate IsContinuation(b: byte) {
    0x80 <= b < 0xC0
  }

  predicate IsScalar(cp: int) {
    (0 <= cp < 0xD800) || (0xE000 <= cp < 0x11_0000)
  }

  /** The first scalar value of a byte string and the bytes after it; None when the bytes are not
      well-formed UTF-8 (truncated, a bad continuation byte, an overlong form, a surrogate, or a
      value above U+10FFFF). */
  function DecodeChar(b: seq<byte>): Option<(char, seq<byte>)> {
    if b == [] then None
    else if b[0] < 0x80 then Some((b[0] as int as char, b[1..]))
    else if 0xC0 <= b[0] < 0xE0 then
      if |b| < 2 || !IsContinuation(b[1]) then None
      else
        var cp := (b[0] as int - 0xC0) * 64 + (b[1] as int - 0x80);
        if cp < 0x80 then None else Some((cp as char, b[2..]))
    else if 0xE0 <= b[0] < 0xF0 then
      if |b| < 3 || !IsContinuation(b[1]) || !IsContinuation(b[2]) then None
      else
        var cp := ((b[0] as int - 0xE0) * 64 + (b[1] as int - 0x80)) * 64 + (b[2] as int - 0x80);
        if cp < 0x800 || !IsScalar(cp) then None else Some((cp as char, b[3..]))
    else if 0xF0 <= b[0] < 0xF8 then
      if |b| < 4 || !IsContinuation(b[1]) || !IsContinuation(b[2]) || !IsContinuation(b[3]) then None
      else
        var cp := (((b[0] as int - 0xF0) * 64 + (b[1] as int - 0x80)) * 64 + (b[2] as int - 0x80)) * 64
          + (b[3] as int - 0x80);
        if cp < 0x1_0000 || !IsScalar(cp) then None else Some((cp as char, b[4..]))
    else None
  }

  lemma DecodeEncodeChar(c: char, rest: seq<byte>)
    ensures DecodeChar(EncodeChar(c) + rest) == Some((c, rest))
  {
    var b := EncodeChar(c) + rest;
    var cp := c as int;
    if cp < 0x80 {
    } else if cp < 0x800 {
      assert b[2..] == rest;
    } else if cp < 0x10000 {
      assert b[3..] == rest;
    } else {
      assert b[4..] == rest;
    }
  }

  function Utf8Encode(s: string): (b: seq<byte>)
    ensures |s| <= |b| <= 4 * |s|
  {
    if s == [] then [] else EncodeChar(s[0]) + Utf8Encode(s[1..])
  }

  function Utf8Decode(b: seq<byte>): Option<string>
    decreases |b|
  {
    if b == [] then Some("")
    else match DecodeChar(b)
      case None => None
      case Some((c, rest)) =>
        if |rest| >= |b| then None
        else match Utf8Decode(rest)
          case None => None
          case Some(t) => Some([c] + t)
  }

  lemma DecodeCharShrinks(b: seq<byte>)
    ensures DecodeChar(b).Some? ==> |DecodeChar(b).value.1| < |b|
  {
  }

  /** Decoding undoes encoding. */
  lemma {:induction false} Utf8RoundTrip(s: string)
    ensures Utf8Decode(Utf8Encode(s)) == Some(s)
  {
    if s != [] {
      var b := Utf8Encode(s);
      DecodeEncodeChar(s[0], Utf8Encode(s[1..]));
      DecodeCharShrinks(b);
      Utf8RoundTrip(s[1..]);
      assert [s[0]] + s[1..] == s;
    }
  }

  // ---------------------------------------------------------------------------------------
  // What BinaryWriter writes.

  /** Write(string): the UTF-8 byte count, 7-bit encoded, then the bytes. */
  function EncString(s: string): seq<byte> {
    Enc7(|Utf8Encode(s)|) + Utf8Encode(s)
  }

  /** Write(int): four bytes, least significant first. */
  function EncInt32(x: int): (b: seq<byte>)
    requires IsInt32(x)
    ensures |b| == 4
  {
    var u := if x < 0 then x + TWO_32 else x;
    var q1 := u / 256;
    var q2 := q1 / 256;
    [(u % 256) as byte, (q1 % 256) as byte, (q2 % 256) as byte, (q2 / 256) as byte]
  }

  /** Write(bool): one byte, 1 or 0. */
  function EncBool(b: bool): seq<byte> {
    [if b then 1 else 0]
  }

  /** A string the writer accepts: its byte count fits an Int32. */
  predicate Writable(s: string) {
    |Utf8Encode(s)| < TWO_31
  }

  // ---------------------------------------------------------------------------------------
  // What BinaryReader reads.

  /** BinaryReader.ReadInt32 */
  function DecInt32(data: seq<byte>): Option<(int, seq<byte>)> {
    if |data| < 4 then None
    else
      var u := ((data[3] as int * 256 + data[2] as int) * 256 + data[1] as int) * 256 + data[0] as int;
      Some((Wrap32(u), data[4..]))
  }

  /** BinaryReader.ReadBoolean: any nonzero byte is true. */
  function DecBool(data: seq<byte>): Option<(bool, seq<byte>)> {
    if data == [] then None else Some((data[0] != 0, data[1..]))
  }

  /** Stream.ReadByte: -1 at the end of the stream. */
  function DecByte(data: seq<byte>): (int, seq<byte>) {
    if data == [] then (-1, data) else (data[0] as int, data[1..])
  }

  /** BinaryReader.ReadString: a negative length is an error, zero is the empty string, otherwise that many
      bytes are read and decoded. */
  function DecString(data: seq<byte>): Option<(string, seq<byte>)> {
    match Dec7(data, 0)
    case None => None
    case Some((raw, rest)) =>
      var n := Wrap32(raw);
      if n < 0 then None
      else if n == 0 then Some(("", rest))
      else if |rest| < n then None
      else match Utf8Decode(rest[..n])
        case None => None
        case Some(s) => Some((s, rest[n..]))
  }

  lemma Int32RoundTrip(x: int, rest: seq<byte>)
    requires IsInt32(x)
    ensures DecInt32(EncInt32(x) + rest) == Some((x, rest))
  {
    var b := EncInt32(x) + rest;
    assert b[4..] == rest;
    var u := if x < 0 then x + TWO_32 else x;
    assert ((b[3] as int * 256 + b[2] as int) * 256 + b[1] as int) * 256 + b[0] as int == u;
  }

  lemma BoolRoundTrip(v: bool, rest: seq<byte>)
    ensures DecBool(EncBool(v) + rest) == Some((v, rest))
  {
    assert (EncBool(v) + rest)[1..] == rest;
  }

  lemma {:induction false} StringRoundTrip(s: string, rest: seq<byte>)
    requires Writable(s)
    ensures DecString(EncString(s) + rest) == Some((s, rest))
  {
    var u := Utf8Encode(s);
    var n := |u|;
    assert Pow128(5) == 0x8_0000_0000;
    Dec7Enc7(n, u + rest, 0);
    assert EncString(s) + rest == Enc7(n) + (u + rest);
    Utf8RoundTrip(s);
    assert (u + rest)[..n] == u && (u + rest)[n..] == rest;
    if n == 0 {
      assert s == [] by {
        assert |s| <= n;
      }
    }
  }

  // ---------------------------------------------------------------------------------------
  // The stream objects.

  /** A BinaryWriter over a stream that is only appended to. */
  class BinaryWriter {
    var written: seq<byte>

    constructor()
      ensures written == []
    {
      written := [];
    }

    method WriteString(s: string)
      requires Writable(s)
      modifies this
      ensures written == old(written) + EncString(s)
    {
      written := written + EncString(s);
    }

    method WriteInt32(x: int)
      requires IsInt32(x)
      modifies this
      ensures written == old(written) + EncInt32(x)
    {
      written := written + EncInt32(x);
    }

    method WriteBool(b: bool)
      modifies this
      ensures written == old(written) + EncBool(b)
    {
      written := written + EncBool(b);
    }

    method WriteByte(b: byte)
      modifies this
      ensures written == old(written) + [b]
    {
      written := written + [b];
    }
  }

  /** A BinaryReader over a stream: the unread bytes. A failed read models the exception. */
  class BinaryReader {
    var unread: seq<byte>

    constructor(data: seq<byte>)
      ensures unread == data
    {
      unread := data;
    }

    method ReadString() returns (r: Option<string>)
      modifies this
      ensures r.Some? <==> DecString(old(unread)).Some?
      ensures r.Some? ==> (r.value, unread) == DecString(old(unread)).value
    {
      match DecString(unread)
      case None => r := None;
      case Some((s, rest)) => r := Some(s); unread := rest;
    }

    method ReadInt32() returns (r: Option<int>)
      modifies this
      ensures r.Some? <==> DecInt32(old(unread)).Some?
      ensures r.Some? ==> (r.value, unread) == DecInt32(old(unread)).value
    {
      match DecInt32(unread)
      case None => r := None;
      case Some((x, rest)) => r := Some(x); unread := rest;
    }

    method ReadBoolean() returns (r: Option<bool>)
      modifies this
      ensures r.Some? <==> DecBool(old(unread)).Some?
      ensures r.Some? ==> (r.value, unread) == DecBool(old(unread)).value
    {
      match DecBool(unread)
      case None => r := None;
      case Some((b, rest)) => r := Some(b); unread := rest;
    }

    method ReadByte() returns (r: int)
      modifies this
      ensures (r, unread) == DecByte(old(unread))
    {
      r, unread := DecByte(unread).0, DecByte(unread).1;
    }
  }
}
